=== FILE: README.md ===
# Resume-to-job matcher: a Dafny model of its deterministic core

The system matches a resume against a folder of job postings:

- **Indexing.** Every posting is cleaned, split into overlapping paragraph-aware chunks, and given a guessed title and location. It is then numbered chunk by chunk into a metadata table whose row `i` describes vector `i` of the search index.
- **Matching.**
  1. The resume's nearest chunks are retrieved.
  2. The chunks are grouped into at most `top_jobs` job results, subject to a location filter.
  3. Keywords are extracted from the evidence text, and the resume's keyword coverage is scored.
  4. A language model writes a JSON report.
  5. The report is repaired: a stub when the answer is not JSON, provenance fields the model did not set, `job_file`/`job_title` backfilled, and placeholder entries for jobs the model skipped.

This project models every deterministic step of that pipeline as pure Dafny functions over sequences and strings, and proves what each step promises. The modules follow the source files:

| module | source file | content |
|---|---|---|
| `Chars` | — | Python's whitespace and line-break classes, ASCII lower-casing |
| `Seqs` | — | filter, prefix, subsequence |
| `Strs` | — | strip, whitespace collapse, split/join, `find`/`rfind`, `splitlines` |
| `Wrappers` | — | `Option` |
| `Json` | — | JSON values, dicts as ordered field lists, `setdefault` |
| `TextUtils` | `src/text_utils.py` | `clean_text`, `split_into_chunks` |
| `AtsScore` | `src/ats_score.py` | `normalize`, `keyword_coverage` |
| `Llm` | `src/llm.py` | `safe_json_loads` |
| `Loaders` | `src/loaders.py` | `guess_job_title` |
| `IndexJobs` | `src/index_jobs.py` | `ChunkMeta`, `extract_location`, the numbering loop of `main`, `embed_passages` |
| `ResumeExtract` | `src/resume_extract.py` | `extract_resume_query` |
| `Retrieve` | `src/retrieve.py` | `search_chunks` after the vector search, `group_by_job` |
| `Keywords` | `src/matcher.py` | `simple_keywords_from_text` |
| `Matcher` | `src/matcher.py` | `match_resume_to_jobs` after the model call |

The vector search, the embedding model, the language model and the JSON parser are not modelled. Their answers are parameters:

- the search's scores and ids;
- the model's raw text;
- a `parse: string -> Option<Json>` function, where `None` stands for `json.loads` raising.

Where the code differs from the documented intent of the project, the model follows the code:

- **The stub is padded.** After a parse failure, the stub report is a dict with an empty list of matches, so the padding step fills it with one placeholder per retrieved job (`Matcher.RepairParseFailure`).
- **An empty title tag wins.** A title tag with an empty value makes `guess_job_title` return `None` at once, and the indexer then uses the file stem. A later tagged line is not looked at (`Loaders.PickTitle`).
- **Provenance comes first.** The provenance fields are attached before the matches are backfilled and padded.
- **The hard split does not stop at the end.** It does not stop when a piece reaches the end of the paragraph. The chunker uses these windows as written (`TextUtils.HardSplitWindows`). The corrected windows (`TextUtils.SplitWindows`) are defined and proved beside them. See Findings.

## Model

| member | source | states |
|---|---|---|
| Chars.Lower | src/ats_score.py:6 | lower-casing maps upper-case ASCII letters to lower case, leaves every other character alone, and preserves the whitespace and line-break classes |
| Strs.Strip | src/text_utils.py:13 | `str.strip()`: the result has no whitespace at either edge and is the contiguous slice after the leading whitespace; everything cut off at the end is whitespace; the result is empty exactly when the input is all whitespace |
| Strs.StripStripped | src/text_utils.py:13 | stripping a string without edge whitespace gives the string back (strip is idempotent) |
| Strs.CollapseRuns | src/ats_score.py:6 | `re.sub(r"\s+", " ", ·)`: every whitespace character left is a plain space, no two whitespace characters are adjacent, no character is invented, and the result is never longer |
| Strs.CollapseRunsKeepsText | src/ats_score.py:6 | the collapse keeps every character outside the class, in order: removing the class's characters from the input and from the output gives the same text |
| Strs.CollapseRunsFixed | src/resume_extract.py:36 | a text that is already single-spaced is left unchanged by the collapse |
| Strs.CollapseRunsIdempotent | src/ats_score.py:6 | collapsing twice is collapsing once |
| Strs.Find | src/llm.py:26 | `str.find` of a character: -1 exactly when it is absent, otherwise the index of its first occurrence |
| Strs.RFind | src/llm.py:27 | `str.rfind` of a character: -1 exactly when it is absent, otherwise the index of its last occurrence |
| Strs.SplitOn | src/text_utils.py:24 | `text.split(sep)`: at least one piece, and no piece contains the separator |
| Strs.JoinSplitOn | src/text_utils.py:24 | round trip: joining the pieces of `split(sep)` with `sep` gives the text back |
| Strs.SplitOnAbsent | src/text_utils.py:24 | a text without the separator splits into itself alone |
| Strs.SplitLines | src/loaders.py:42 | `str.splitlines()`: no line holds a line-break character |
| Strs.SplitLinesCons | src/loaders.py:42 | a break-free line followed by `\n` is split off as the first line, and the rest is split on its own |
| Strs.SplitLinesRoundTrip | src/loaders.py:42 | round trip: for text whose only line breaks are `\n`, joining the lines with `\n` gives the text back, plus the final `\n` when the text ends with one |
| Strs.NonBlankLines | src/loaders.py:42 | the kept lines are non-empty and have no edge whitespace |
| Strs.NonBlankCons | src/loaders.py:42 | `[ln.strip() for ln in parts if ln.strip()]`: each piece that is not blank is kept, stripped, in order; blank pieces are dropped |
| Strs.NonBlankStripped | src/loaders.py:42 | pieces that are already non-empty and stripped are all kept unchanged |
| Strs.NonBlankLinesJoin | src/loaders.py:42 | round trip: the non-blank lines of non-empty stripped break-free lines joined by `\n` are exactly those lines |
| Strs.JoinHasParts | src/matcher.py:137 | every part occurs in the joined text |
| Strs.AfterFirstColon | src/index_jobs.py:34 | `s.split(":", 1)[1]`: the suffix after the first colon |
| Strs.AfterTag | src/loaders.py:44-47 | when the lower-cased line starts with a tag ending in its only colon, `split(":", 1)[1]` is exactly the text after the tag |
| TextUtils.ReplaceNbsp | src/text_utils.py:9 | no non-breaking space is left, every other character stays in place, and the length is unchanged |
| TextUtils.NormalizeLineEndings | src/text_utils.py:11 | no carriage return is left, only newlines are introduced, and a text without carriage returns is unchanged |
| TextUtils.NormalizeLineEndingsNoDoubleSpace | src/text_utils.py:10-11 | normalising line endings does not undo the collapse of spaces |
| TextUtils.CollapseNewlines | src/text_utils.py:12 | the `\n{3,}` → `\n\n` rewrite never lengthens the text and keeps its first character |
| TextUtils.CollapseNewlinesNoTriple | src/text_utils.py:12 | after `\n{3,}` → `\n\n` no three newlines are adjacent |
| TextUtils.CollapseNewlinesNoDoubleSpace | src/text_utils.py:12 | the newline rewrite does not create two adjacent spaces |
| TextUtils.CollapseNewlinesFixed | src/text_utils.py:12 | text without three adjacent newlines is unchanged |
| TextUtils.CleanText | src/text_utils.py:5-13 | `clean_text` output has no non-breaking space, tab or carriage return, no double space, no triple newline and no edge whitespace; empty input gives the empty string |
| TextUtils.CleanTextFixed | src/text_utils.py:5-13 | a text that already has those properties is its own cleaning |
| TextUtils.CleanTextIdempotent | src/text_utils.py:5-13 | cleaning twice is cleaning once |
| TextUtils.Paragraphs | src/text_utils.py:24 | every paragraph is non-empty and stripped |
| TextUtils.ParagraphsNonEmpty | src/text_utils.py:24 | a non-empty stripped text has at least one paragraph |
| TextUtils.ParagraphsJoin | src/text_utils.py:24 | round trip: non-empty stripped paragraphs without a blank line, joined by `\n\n`, split back into exactly those paragraphs |
| TextUtils.HardSplitWindows | src/text_utils.py:43-47 | the hard-split loop as written: at most `len(p)` windows, so the loop ends for every overlap; each window is the next `chunk_size` characters cut at the paragraph's end |
| TextUtils.HardSplitLinks | src/text_utils.py:47 | consecutive windows are linked by `start = max(end - overlap, start + 1)` |
| TextUtils.HardSplitProgress | src/text_utils.py:44-47 | the first window starts at 0, every window starts after the previous one, and with a non-negative overlap there is no gap between windows |
| TextUtils.HardSplitReachesEnd | src/text_utils.py:44-47 | with a non-negative overlap the last window ends at the paragraph's end |
| TextUtils.HardSplitCovers | src/text_utils.py:43-47 | with a non-negative overlap every offset of the paragraph lies in some window |
| TextUtils.HardSplitTail | src/text_utils.py:44-47 | as written, a window after one that reaches the end also ends there and is strictly shorter (the redundant tail pieces of the finding) |
| TextUtils.TailPiecesExample | src/text_utils.py:44-47 | a 3-character paragraph with chunk size 2 and overlap 1 is cut into windows [0,2), [1,3), [2,3) |
| TextUtils.SplitWindows | src/text_utils.py:43-47 | the corrected hard split: the same windows, stopping after the first that reaches the end; no window but the last reaches the end |
| TextUtils.SplitWindowsPrefix | src/text_utils.py:43-47 | the corrected windows are a prefix of the windows of the loop as written |
| TextUtils.SplitWindowsReachEnd | src/text_utils.py:43-47 | with a non-negative overlap the last corrected window ends at the paragraph's end |
| TextUtils.SplitWindowsCover | src/text_utils.py:43-47 | with a non-negative overlap every offset of the paragraph lies in a corrected window |
| TextUtils.IntendedPiecesExample | src/text_utils.py:43-47 | the corrected split of the 3-character example is [0,2), [1,3) |
| TextUtils.HardSplit | src/text_utils.py:43-47 | the loop as written: one piece per window of `HardSplitWindows`, so at most `len(p)` pieces. Each piece is a stripped slice of the paragraph, at most `chunk_size` long |
| TextUtils.Flush | src/text_utils.py:28-32 | `flush_buf` appends the stripped buffer if it is non-blank, and empties the buffer |
| TextUtils.PackStep | src/text_utils.py:34-48 | one step of the paragraph loop keeps every chunk stripped and within `chunk_size`, and keeps the buffer within `chunk_size` |
| TextUtils.Pack | src/text_utils.py:34-48 | the whole paragraph loop keeps that invariant |
| TextUtils.PackReached | src/text_utils.py:34-48 | after the paragraph loop, every paragraph that fits is contained in a chunk or in the buffer, and every non-empty hard-split piece of a longer one is contained in a chunk |
| TextUtils.FlushReached | src/text_utils.py:28-50 | `flush_buf` moves what the buffer holds into the chunks, so afterwards every paragraph read is contained in a chunk |
| TextUtils.PackSingle | src/text_utils.py:34-50 | a single stripped paragraph that fits becomes exactly one chunk |
| TextUtils.PreOverlapChunks | src/text_utils.py:24-50 | the chunks before the overlap pass are stripped and at most `chunk_size` long |
| TextUtils.PreOverlapFrom | src/text_utils.py:24-50 | every chunk before the overlap pass is drawn from the paragraphs: consecutive paragraphs joined by a blank line, or a stripped slice of one paragraph |
| TextUtils.OverlapTail | src/text_utils.py:60 | the overlap taken is the last `min(overlap, len(prev))` characters of the previous output chunk |
| TextUtils.JoinChunk | src/text_utils.py:61 | `(take + "\n" + c).strip()` ends with the whole of `c`, preceded by a suffix of the overlap and newline, and is at most `overlap + 1` characters longer than `c` |
| TextUtils.AddOverlap | src/text_utils.py:53-62 | one output chunk per input chunk, the first unchanged |
| TextUtils.AddOverlapJoined | src/text_utils.py:53-62 | every output chunk after the first is its input chunk joined to the previous output chunk (post-overlap, not pre-overlap); the first is unchanged |
| TextUtils.OverlapPass | src/text_utils.py:53-62 | without a positive overlap the chunks come back as they are. With one, the first is unchanged and every later chunk is its input chunk joined to the previous output chunk |
| TextUtils.OverlapPassBound | src/text_utils.py:53-62 | the overlap pass lengthens a chunk by at most `overlap + 1` characters |
| TextUtils.SplitIntoChunks | src/text_utils.py:15-64 | blank text gives no chunks; no chunk is empty; every chunk is at most `chunk_size` long, plus `overlap + 1` when the overlap is positive |
| TextUtils.SplitIntoChunksShort | src/text_utils.py:15-64 | a cleaned text without a blank line that fits in one chunk comes back as exactly one chunk, itself |
| TextUtils.SplitIntoChunksFrom | src/text_utils.py:15-64 | without a positive overlap, every chunk of the cleaned text is drawn from its paragraphs: consecutive paragraphs joined by a blank line, or a stripped slice of one paragraph |
| TextUtils.OverlapPassContains | src/text_utils.py:53-62 | every non-empty chunk before the overlap pass is contained in its chunk after it |
| TextUtils.SplitIntoChunksKeepsParagraphs | src/text_utils.py:15-64 | no paragraph is lost: every paragraph of the cleaned text of at most `chunk_size` characters is contained in some returned chunk, and every non-empty hard-split piece of a longer one is contained in some returned chunk, for every overlap |
| TextUtils.SplitIntoChunksNonEmpty | src/text_utils.py:15-64 | a text that is not blank after cleaning gives at least one chunk |
| AtsScore.Normalize | src/ats_score.py:5-6 | `normalize` yields lower-case single-spaced text, never longer than its input, that keeps every non-whitespace character of the lower-cased input, in order |
| AtsScore.NormalizeIdempotent | src/ats_score.py:5-6 | normalising twice is normalising once |
| AtsScore.NormalizeIgnoresCase | src/ats_score.py:5-6 | normalising the lower-cased text is normalising the text |
| AtsScore.Hits | src/ats_score.py:13-17 | the hit count is at most the number of keywords; it equals that number exactly when every keyword hits, and is 0 exactly when none does |
| AtsScore.HitsAppend | src/ats_score.py:15-17 | hits over two keyword lists add up |
| AtsScore.KeywordCoverage | src/ats_score.py:8-19 | the coverage lies in [0, 100]; it is 100 exactly when the list is non-empty and every keyword hits, and 0 exactly when no keyword hits, including the empty list |
| AtsScore.CoverageDuplicated | src/ats_score.py:8-19 | listing every keyword twice leaves the coverage unchanged |
| AtsScore.CoverageIgnoresCaseAndSpacing | src/ats_score.py:12-16 | the coverage is unchanged when the resume, or every keyword, is lower-cased or normalised first |
| AtsScore.CoverageSameKeywords | src/ats_score.py:8-19 | keyword lists that agree position by position after normalisation give the same coverage |
| AtsScore.CoverageAddHit | src/ats_score.py:15-19 | adding a keyword that hits never lowers the coverage |
| Keywords.MatchLen | src/matcher.py:18 | the greedy match of `[A-Za-z][A-Za-z0-9+#./-]{1,25}` at a position is a token, maximal (it stops at 26 characters, the end, or a non-token character), and absent exactly when no match can start there |
| Keywords.Tokens | src/matcher.py:18 | every token `findall` returns matches the pattern |
| Keywords.TokensInText | src/matcher.py:18 | every token is a piece of the text |
| Keywords.TokensOfToken | src/matcher.py:18 | a text that is one token is found as exactly that token |
| Keywords.TokensAppend | src/matcher.py:18 | `findall` over a text followed by a text that starts with a non-token character is the `findall` of the two parts, concatenated |
| Keywords.TokensOfWords | src/matcher.py:18 | completeness: tokens joined by spaces are all found again, in order, and nothing else is |
| Keywords.Candidates | src/matcher.py:26-32 | the candidates are tokens outside the stop list |
| Keywords.DedupCI | src/matcher.py:34-41 | the result is the case-insensitive deduplication of its input: no two entries agree ignoring case; every input token is represented; each entry is spelled as the first token with its lower case; entries come in first-occurrence order |
| Keywords.DedupFromInput | src/matcher.py:34-41 | every kept entry is one of the input tokens |
| Keywords.SimpleKeywords | src/matcher.py:14-43 | the keywords are the first `min(80, n)` entries of the deduplicated candidates: tokens outside the stop list, pairwise different ignoring case |
| Llm.Cut | src/llm.py:26-30 | with a `{` before a later `}`, the candidate runs from the first `{` to the last `}`; otherwise it is the text itself |
| Llm.JsonCandidate | src/llm.py:24-31 | the text handed to the parser is the stripped answer; when that holds a `{` before a later `}`, it is the braced slice of the stripped answer that starts at its first `{` and has no `}` after it |
| Llm.CandidateSpan | src/llm.py:24-31 | with braces, the candidate is the stripped answer from its first `{` through its last `}` |
| Llm.CandidateOfStripped | src/llm.py:24 | stripping the answer first changes nothing |
| Llm.CandidateFixedBraces | src/llm.py:28-30 | a text that starts with `{` and ends with `}` is its own candidate |
| Llm.CandidateIdempotent | src/llm.py:20-31 | extracting a candidate from a candidate gives it back |
| Llm.CandidateIgnoresChatter | src/llm.py:20-31 | commentary without braces before and after a braced body is cut away, whatever the whitespace |
| Llm.SafeJsonLoads | src/llm.py:20-31 | an answer whose stripped text has no `{` … `}` span, or is itself braced, is parsed as the stripped text; otherwise the parser gets the stripped answer from its first `{` through its last `}` |
| Llm.SafeJsonLoadsIgnoresChatter | src/llm.py:20-31 | `safe_json_loads` of chatter around a braced body is the parse of the body |
| Llm.FencedAnswerExample | src/llm.py:20-31 | an answer with a note and a code fence around the object parses as the object |
| Loaders.TitleValue | src/loaders.py:44-47 | the value of a title line is the stripped text after `job title:` or `titel:` |
| Loaders.PickTitle | src/loaders.py:42-51 | the first tagged line among the first 20 decides, and an empty value gives `None`; without one, the first line cut to 120 characters; without lines, `None` |
| Loaders.GuessJobTitle | src/loaders.py:37-51 | a guessed title is never empty |
| Loaders.PickTitleLoop | src/loaders.py:43-51 | the early-returning loop computes `PickTitle` |
| Loaders.TitleFromTaggedFirstLine | src/loaders.py:37-51 | a text whose first non-blank line is `Job Title: v` has title `v` |
| IndexJobs.ExtractLocation | src/index_jobs.py:31-35 | the stripped text after the tag of the first line starting with `location:` in any case, else `Unknown` |
| IndexJobs.LocationOnOneLine | src/index_jobs.py:31-35 | a location never holds a line break |
| IndexJobs.TitleOf | src/index_jobs.py:56 | the guessed title when there is one, else the file stem; never empty for a non-empty stem |
| IndexJobs.FileChunks | src/index_jobs.py:59 | a posting's chunks are non-empty and at most 1051 characters long with the indexer's 900/150 parameters |
| IndexJobs.Metas | src/index_jobs.py:50-72 | row `i` of the metadata has chunk id `i` and holds chunk text `i` |
| IndexJobs.Prepare | src/index_jobs.py:54-59 | the values the loop computes for a posting: its file name, a title that is non-empty for a non-empty stem, a location on one line, and non-empty chunks of at most 1051 characters |
| IndexJobs.Rows | src/index_jobs.py:61-72 | row `i` of a posting numbered from `start` has id `start + i`, the posting's file name, title and location, and its chunk `i` |
| IndexJobs.AllChunks | src/index_jobs.py:61-62 | every chunk of every posting is among all chunks |
| IndexJobs.MetasOfLast | src/index_jobs.py:61-72 | the rows of the last posting follow the rows of the earlier ones and carry the last posting's file name, title and location |
| IndexJobs.MetasPrefix | src/index_jobs.py:50-72 | the chunks and rows of the first `j` postings are the start of the chunks and rows of all postings |
| IndexJobs.MetasOfPosting | src/index_jobs.py:50-72 | chunk `i` of posting `j` becomes the row numbered (chunks of earlier postings) + `i`, with posting `j`'s file name, title, location and chunk text |
| IndexJobs.NumberChunks | src/index_jobs.py:50-72 | the nested loop with the running id `cid` builds exactly these chunk and metadata lists |
| IndexJobs.IndexedChunksBounded | src/index_jobs.py:54-59 | every indexed chunk is non-empty and at most 1051 characters long |
| IndexJobs.BuildIndex | src/index_jobs.py:44-72 | the metadata row count equals the chunk count, and row `i` describes chunk `i` |
| IndexJobs.EmbedPassages | src/index_jobs.py:38-41 | one embedder input per chunk, in order, each `passage: ` followed by the chunk |
| ResumeExtract.ResumeLines | src/resume_extract.py:17-18 | the resume's lines are non-empty and stripped |
| ResumeExtract.QueryLines | src/resume_extract.py:21-33 | the chosen lines are a subsequence of the resume's lines. When the signal lines joined by spaces reach 400 characters, they are exactly the signal lines, in order. Otherwise they are the first 30 lines |
| ResumeExtract.Compact | src/resume_extract.py:35-36 | the joined, collapsed and stripped query is single-spaced without edge whitespace |
| ResumeExtract.CompactOfSingleSpaced | src/resume_extract.py:35-36 | for stripped single-spaced lines, the query is just the lines joined by spaces |
| ResumeExtract.SingleSpacedOneLine | src/resume_extract.py:36 | a single-spaced query holds no line break and no tab |
| ResumeExtract.Cut | src/resume_extract.py:37 | `query[:max_chars]` is the prefix of length `min(max_chars, len)` and stays single-spaced |
| ResumeExtract.ExtractResumeQuery | src/resume_extract.py:12-37 | the query is a single-spaced prefix of at most `max_chars` characters of the compacted lines |
| ResumeExtract.EmptyResume | src/resume_extract.py:12-37 | an empty resume gives the empty query |
| Retrieve.Zip | src/retrieve.py:38 | `zip` pairs scores and ids up to the shorter list |
| Retrieve.CollectHits | src/retrieve.py:37-43 | the search fails (`IndexError`) exactly when some id is past the end of the metadata |
| Retrieve.CollectedHits | src/retrieve.py:37-43 | a successful search gives, in order, one hit per pair with a non-negative id: that chunk's metadata with the pair's score |
| Retrieve.SearchChunks | src/retrieve.py:37-43 | the search fails (`IndexError`) exactly when some zipped id is past the end of the metadata; otherwise it holds one hit per non-negative id, in order, with that chunk's metadata and its score |
| Retrieve.SearchAllValid | src/retrieve.py:31-43 | with valid ids, hit `j` is chunk `ids[j]` with score `scores[j]` |
| Retrieve.FindGroup | src/retrieve.py:58-59 | the group of a job file is found exactly when the file already has one |
| Retrieve.AddHit | src/retrieve.py:58-69 | a passing hit adds a group for its file exactly when the file has none yet, keeps the files distinct, and keeps every group at one to three evidence chunks |
| Retrieve.Groups | src/retrieve.py:47-69 | the groups have distinct files, every file with a passing hit has one, and each holds one to three evidence chunks |
| Retrieve.GroupsCorrect | src/retrieve.py:47-69 | the grouping loop makes one group per job file with a hit passing the location filter. Each group is faithful: the file's first passing hit gives its title, location and score, and its first three passing hits give its evidence. The groups' files are distinct |
| Retrieve.SortDesc | src/retrieve.py:71 | the sort is a permutation, descending by score |
| Retrieve.SortStable | src/retrieve.py:71 | groups with equal scores keep their order (Python's sort is stable) |
| Retrieve.SliceTo | src/retrieve.py:71 | `s[:n]` for any integer `n`, including a negative one counted from the end |
| Retrieve.GroupByJob | src/retrieve.py:46-71 | `min(top_jobs, number of groups)` results for non-negative `top_jobs`, sorted by descending score, with distinct files, each one of the groups |
| Retrieve.GroupByJobCorrect | src/retrieve.py:46-71 | `group_by_job` returns `min(top_jobs, number of groups)` groups for non-negative `top_jobs`, sorted by descending score, with distinct files, each faithful to its hits |
| Retrieve.GroupByJobKeepsBest | src/retrieve.py:71 | no group cut off scores higher than a group kept |
| Retrieve.GroupsRespectFilter | src/retrieve.py:49-69 | every job has between one and three evidence chunks, and its location passes the filter |
| Retrieve.PassesFilter | src/retrieve.py:49-56 | a location survives `Berlin` only if its lower-cased form mentions berlin, survives `Berlin + Remote` only if it mentions berlin or remote, and survives any other filter |
| Retrieve.BerlinWithinRemote | src/retrieve.py:51-56 | every location the `Berlin` filter keeps, `Berlin + Remote` keeps too |
| Retrieve.FilterIgnoresCase | src/retrieve.py:49 | the filter compares the lower-cased location, so the location's case does not matter |
| Retrieve.OtherFilterKeepsAll | src/retrieve.py:49-59 | a filter other than the two Berlin ones keeps every job file of the hits |
| Json.Lookup | src/matcher.py:166-167 | a key is found exactly when it is present, and then with its value |
| Json.SetDefault | src/matcher.py:157-161 | `d.setdefault(k, v)` keeps an existing value, otherwise stores `v`; other keys are untouched, and keys stay unique |
| Json.SetDefaults | src/matcher.py:156-161 | a run of `setdefault` calls gives every key its existing value if there is one, else the default |
| Json.Replace | src/matcher.py:169-187 | updating the match list in place keeps the keys and changes only that key's value |
| Matcher.SearchBreadth | src/matcher.py:130 | the search asks for `max(40, 12 * top_jobs)` chunks |
| Matcher.EvidenceText | src/matcher.py:137 | the text of every evidence chunk of every job occurs in the evidence text; no evidence gives the empty text |
| Matcher.EvidenceTextsAppend | src/matcher.py:137 | the evidence texts of two job lists are concatenated in order |
| Matcher.EvidenceTextsCount | src/matcher.py:137 | at most `n` chunks per job give at most `n` texts per job |
| Matcher.Stub | src/matcher.py:146-153 | the stub report has exactly the summary, an empty match list, and the first 4000 characters of the raw answer |
| Matcher.AttachProvenance | src/matcher.py:155-161 | the five provenance fields hold the computed values unless the model set them; every other field is untouched |
| Matcher.Backfill | src/matcher.py:169-172 | an entry keeps its own `job_file`/`job_title` and gets the job's when missing; other fields are untouched and unique keys stay unique |
| Matcher.BackfillAll | src/matcher.py:169-172 | every dict entry with a job at its position is backfilled from that job; every other entry is left as it is |
| Matcher.Placeholder | src/matcher.py:179-187 | a placeholder carries the job's file and title, score 0, the insufficient-output reason, and empty lists of gaps, keywords and suggestions |
| Matcher.PadMatches | src/matcher.py:164-187 | the match list has `max(got, expected)` entries: the backfilled model entries, then one placeholder per uncovered job |
| Matcher.FixMatches | src/matcher.py:163-187 | only `best_job_matches` changes, and only when it is a list |
| Matcher.Repair | src/matcher.py:146-187 | the report is a dict exactly when the answer did not parse or parsed to a dict; any other parsed value is returned as it is |
| Matcher.RepairNonObject | src/matcher.py:156-168 | a parsed value that is not a dict is returned untouched |
| Matcher.RepairKeepsModelFields | src/matcher.py:155-172 | a dict report keeps every field the model set, gains the provenance fields it lacked, and keeps unique keys |
| Matcher.RepairPadsMatches | src/matcher.py:163-187 | when the matches are a list, they become the padded, backfilled list |
| Matcher.RepairLeavesOtherMatches | src/matcher.py:164-168 | missing or non-list matches are left as they are |
| Matcher.RepairParseFailure | src/matcher.py:146-187 | an unparsable answer gives the stub with all provenance fields and one placeholder per retrieved job |
| Matcher.BackfillEntry | src/matcher.py:169-172 | entry `i` of the final list has its own `job_file`/`job_title`, or those of job `i` |
| Matcher.MatchResumeToJobs | src/matcher.py:114-189 | when the answer does not parse, or parses to a dict, the result is a dict |
| Matcher.PipelineParseFailure | src/matcher.py:130-189 | on a parse failure the report carries the coverage of the resume against the evidence keywords (within [0, 100]) and the files of the retrieved jobs |

## Left out

- **I/O and external services.** Reading postings (`load_any`), reading and writing the index and metadata files, the embedding model, the FAISS search, the Ollama call and `build_prompt` are left out. Their results are parameters: the search's scores and ids, the model's raw answer, and the JSON parser. The prompt text never reaches the returned report. The Streamlit UI is not part of this model.
- **Scores.** Similarity scores and the coverage are unbounded reals. Float rounding, float32 and NaN are not modelled.
- AtsScore.KeywordCoverage: the result is `100 * hits / n` without `round(·, 2)`, because two-decimal float rounding is not modelled. With rounding, one hit among more than 20000 keywords gives 0.0 and all but one give 100.0, so the source's 0/100 cases match the model's only up to 20000 keywords. The matcher passes at most 80.
- Chars.Lower: `str.lower()` is modelled on ASCII letters only. Other characters are their own lower case here.
- TextUtils.SplitIntoChunks: requires `chunk_size >= 1`.
  - With 0 the hard split emits empty pieces that the last filter removes.
  - A negative size slices from the paragraph's end.
  - The indexer always passes 900.
- TextUtils.SplitIntoChunksFrom: the content relation is proved for the whole chunker only without a positive overlap. With a positive overlap it is proved per pass: `PreOverlapFrom` for the packing, `OverlapPass` for the joining.
- Strs.SplitLinesRoundTrip: holds for text whose only line breaks are `\n`. The other breaks `splitlines` knows cannot be rebuilt from the lines.
- TextUtils.SplitIntoChunksKeepsParagraphs: for a paragraph longer than `chunk_size` it states that every non-empty stripped piece reaches a chunk. That the windows cover every offset of the paragraph is the separate `HardSplitCovers`. The two are not combined into one statement about characters, because stripping each piece drops the whitespace at its edges.
- ResumeExtract.ExtractResumeQuery: `max_chars` is a natural number. A negative value, which Python would read as counting from the end, is not modelled.
- **JSON numbers.** The placeholder's `match_score` is the integer `0` in the source and the number `0.0` here.
- **Missing keys.** Hits and groups always carry `job_file`, `job_title` and `location` in this model. The `KeyError` paths of `c["job_file"]` and the `c.get("location", "")` default are therefore unreachable and not modelled.
- **Structure of the matcher.** `match_resume_to_jobs` is modelled from the search results on. It searches with the whole resume text. `ResumeExtract.ExtractResumeQuery` models `extract_resume_query`, a helper of the repository that the matcher does not call.

## Findings

| source | as written | input that shows it | evidently intended | confidence | as-written member | corrected member |
|---|---|---|---|---|---|---|
| src/text_utils.py:43-47 | the hard-split loop runs while `start < len(p)`; after a piece that ends at `len(p)`, `start = max(end - overlap, start + 1)` is still below `len(p)` when the overlap is positive, so shrinking tail pieces of the same paragraph follow | a 3-character paragraph, chunk size 2, overlap 1: pieces `p[0:2]`, `p[1:3]`, `p[2:3]`; with the defaults (900/150) a 1000-character paragraph gives 152 pieces instead of 2 | stop once a piece reaches the end of the paragraph | high, not executed | TextUtils.HardSplitWindows, TextUtils.HardSplitTail, TextUtils.TailPiecesExample | TextUtils.SplitWindows, TextUtils.SplitWindowsPrefix, TextUtils.SplitWindowsCover, TextUtils.IntendedPiecesExample |

=== FILE: ats_score.dfy ===
/**
 The keyword-coverage score: the percentage of a job's keywords that occur,
 after lower-casing and whitespace normalisation, in the resume text.
 */
module AtsScore {
  import opened Chars
  import opened Seqs
  import opened Strs

  /**
   `normalize`: lower-case, then every whitespace run becomes one space. The
   result is normal (see `IsNormal`), never longer than the input, and keeps
   every non-whitespace character, lower-cased, in order.
   */
  function Normalize(s: string): (r: string)
    ensures IsNormal(r) && |r| <= |s|
    ensures Outside(r, IsSpace) == Outside(LowerStr(s), IsSpace)
  {
    CollapsedLowerIsNormal(s);
    CollapseRunsKeepsText(LowerStr(s), IsSpace);
    CollapseRuns(LowerStr(s), IsSpace)
  }

  lemma CollapsedLowerIsNormal(s: string)
    ensures IsNormal(CollapseRuns(LowerStr(s), IsSpace))
    ensures |CollapseRuns(LowerStr(s), IsSpace)| <= |s|
  {
    var low := LowerStr(s);
    var r := CollapseRuns(low, IsSpace);
    assert forall i :: 0 <= i < |r| ==> r[i] == ' ' || r[i] in low;
  }

  /** A normalised string has no upper-case letter, and its only whitespace is isolated spaces. */
  predicate IsNormal(r: string) {
    && (forall i :: 0 <= i < |r| ==> !IsUpper(r[i]))
    && (forall i :: 0 <= i < |r| && IsSpace(r[i]) ==> r[i] == ' ')
    && (forall i :: 0 <= i < |r| - 1 ==> !(IsSpace(r[i]) && IsSpace(r[i + 1])))
  }

  /** A string without upper-case letters is its own lower-case form. */
  lemma LowerStrFixed(s: string)
    requires forall i :: 0 <= i < |s| ==> !IsUpper(s[i])
    ensures LowerStr(s) == s
  {
  }

  /** Lower-casing twice is lower-casing once. */
  lemma LowerStrIdempotent(s: string)
    ensures LowerStr(LowerStr(s)) == LowerStr(s)
  {
    LowerStrFixed(LowerStr(s));
  }

  /** Normalising twice is normalising once. */
  lemma NormalizeIdempotent(s: string)
    ensures Normalize(Normalize(s)) == Normalize(s)
  {
    var n := Normalize(s);
    LowerStrFixed(n);
    CollapseRunsFixed(n, IsSpace);
  }

  /** Normalisation does not see letter case. */
  lemma NormalizeIgnoresCase(s: string)
    ensures Normalize(LowerStr(s)) == Normalize(s)
  {
    LowerStrIdempotent(s);
  }

  /** Keyword `kw` counts as a hit in the normalised resume `res`. */
  predicate Hit(res: string, kw: string) {
    Contains(res, Normalize(kw))
  }

  /** The number of keywords of `kws` that hit `res`, duplicates counted each time. */
  function Hits(res: string, kws: seq<string>): (h: nat)
    ensures h <= |kws|
    ensures h == |kws| <==> forall i {:trigger Hit(res, kws[i])} :: 0 <= i < |kws| ==> Hit(res, kws[i])
    ensures h == 0 <==> forall i {:trigger Hit(res, kws[i])} :: 0 <= i < |kws| ==> !Hit(res, kws[i])
    decreases |kws|
  {
    if |kws| == 0 then 0
    else
      var rest := Hits(res, kws[1..]);
      assert forall i :: 1 <= i < |kws| ==> kws[i] == kws[1..][i - 1];
      (if Hit(res, kws[0]) then 1 else 0) + rest
  }

  /** A one-keyword list has one hit exactly when the keyword hits. */
  lemma HitsSingle(res: string, kw: string)
    ensures Hits(res, [kw]) == if Hit(res, kw) then 1 else 0
  {
    assert [kw][1..] == [];
  }

  /** Hits of a concatenated keyword list add up. */
  lemma {:induction false} HitsAppend(res: string, a: seq<string>, b: seq<string>)
    ensures Hits(res, a + b) == Hits(res, a) + Hits(res, b)
    decreases |a|
  {
    if |a| == 0 {
      assert a + b == b;
    } else {
      assert (a + b)[1..] == a[1..] + b;
      HitsAppend(res, a[1..], b);
    }
  }

  /** `(hits / n) * 100` for `hits <= n`, with 0 for an empty list. */
  function Percent(hits: nat, n: nat): (r: real)
    requires hits <= n
    ensures 0.0 <= r <= 100.0
    ensures r == 100.0 <==> n > 0 && hits == n
    ensures r == 0.0 <==> hits == 0
  {
    if n == 0 then 0.0
    else
      var q := (hits as real) / (n as real);
      assert q * (n as real) == hits as real;
      assert q <= 1.0;
      assert q == 1.0 ==> hits == n;
      100.0 * q
  }

  /**
   `keyword_coverage`: 0 for an empty keyword list, otherwise the percentage
   of keywords that hit the normalised resume, between 0 and 100; exactly 100
   when every keyword hits and exactly 0 when none does.
   */
  function KeywordCoverage(resume: string, kws: seq<string>): (r: real)
    ensures 0.0 <= r <= 100.0
    ensures r == 100.0 <==> |kws| > 0 && forall i {:trigger Hit(Normalize(resume), kws[i])} :: 0 <= i < |kws| ==> Hit(Normalize(resume), kws[i])
    ensures r == 0.0 <==> forall i {:trigger Hit(Normalize(resume), kws[i])} :: 0 <= i < |kws| ==> !Hit(Normalize(resume), kws[i])
  {
    Percent(Hits(Normalize(resume), kws), |kws|)
  }

  /** Doubling both counts keeps the percentage. */
  lemma PercentDoubled(h: nat, n: nat)
    requires h <= n
    ensures Percent(2 * h, 2 * n) == Percent(h, n)
  {
    if n > 0 {
      var hr, nr := h as real, n as real;
      assert (2 * h) as real == 2.0 * hr && (2 * n) as real == 2.0 * nr;
      assert (2.0 * hr) / (2.0 * nr) == hr / nr;
    }
  }

  /** A product with a positive factor that is not negative has a non-negative other factor. */
  lemma NonNegativeFactor(a: real, c: real)
    requires c > 0.0 && a * c >= 0.0
    ensures a >= 0.0
  {
    assert a == (a * c) / c;
  }

  /** One more hit among one more keyword does not lower the percentage. */
  lemma PercentAddHit(h: nat, n: nat, h1: nat, n1: nat)
    requires h <= n && h1 == h + 1 && n1 == n + 1
    ensures Percent(h1, n1) >= Percent(h, n)
  {
    if n > 0 {
      var hr, nr := h as real, n as real;
      assert (h + 1) as real == hr + 1.0 && (n + 1) as real == nr + 1.0;
      var q0, q1 := hr / nr, (hr + 1.0) / (nr + 1.0);
      assert q0 * nr == hr && q1 * (nr + 1.0) == hr + 1.0;
      assert q0 <= 1.0;
      assert (q1 - q0) * (nr + 1.0) == 1.0 - q0 by {
        assert (q1 - q0) * (nr + 1.0) == q1 * (nr + 1.0) - q0 * nr - q0;
      }
      NonNegativeFactor(q1 - q0, nr + 1.0);
      assert Percent(h, n) == 100.0 * q0 && Percent(h1, n1) == 100.0 * q1;
    }
  }

  /** Listing every keyword twice does not change the coverage. */
  lemma CoverageDuplicated(resume: string, kws: seq<string>)
    ensures KeywordCoverage(resume, kws + kws) == KeywordCoverage(resume, kws)
  {
    var res := Normalize(resume);
    var h := Hits(res, kws);
    HitsAppend(res, kws, kws);
    assert Hits(res, kws + kws) == 2 * h && |kws + kws| == 2 * |kws|;
    PercentDoubled(h, |kws|);
  }

  /**
   The coverage does not depend on letter case or on the layout of whitespace,
   in the resume or in the keywords.
   */
  lemma CoverageIgnoresCaseAndSpacing(resume: string, kws: seq<string>)
    ensures KeywordCoverage(LowerStr(resume), kws) == KeywordCoverage(resume, kws)
    ensures KeywordCoverage(Normalize(resume), kws) == KeywordCoverage(resume, kws)
    ensures KeywordCoverage(resume, Map(kws, LowerStr)) == KeywordCoverage(resume, kws)
    ensures KeywordCoverage(resume, Map(kws, Normalize)) == KeywordCoverage(resume, kws)
  {
    NormalizeIgnoresCase(resume);
    NormalizeIdempotent(resume);
    forall i | 0 <= i < |kws|
      ensures Normalize(LowerStr(kws[i])) == Normalize(kws[i])
      ensures Normalize(Normalize(kws[i])) == Normalize(kws[i])
    {
      NormalizeIgnoresCase(kws[i]);
      NormalizeIdempotent(kws[i]);
    }
    CoverageSameKeywords(resume, kws, Map(kws, LowerStr));
    CoverageSameKeywords(resume, kws, Map(kws, Normalize));
  }

  /** Keyword lists that agree after normalisation, keyword by keyword, have the same coverage. */
  lemma CoverageSameKeywords(resume: string, kws: seq<string>, kws': seq<string>)
    requires |kws'| == |kws| && forall i :: 0 <= i < |kws| ==> Normalize(kws'[i]) == Normalize(kws[i])
    ensures KeywordCoverage(resume, kws') == KeywordCoverage(resume, kws)
  {
    HitsSameKeywords(Normalize(resume), kws, kws');
  }

  /** Keyword lists that agree after normalisation have the same number of hits. */
  lemma {:induction false} HitsSameKeywords(res: string, kws: seq<string>, kws': seq<string>)
    requires |kws'| == |kws| && forall i :: 0 <= i < |kws| ==> Normalize(kws'[i]) == Normalize(kws[i])
    ensures Hits(res, kws') == Hits(res, kws)
    decreases |kws|
  {
    if |kws| > 0 {
      HitsSameKeywords(res, kws[1..], kws'[1..]);
      assert Hit(res, kws'[0]) == Hit(res, kws[0]);
    }
  }

  /** Adding a keyword that hits never lowers the hit percentage. */
  lemma PercentOfAddedHit(res: string, kws: seq<string>, kw: string)
    requires Hit(res, kw)
    ensures Percent(Hits(res, kws + [kw]), |kws + [kw]|) >= Percent(Hits(res, kws), |kws|)
  {
    var h := Hits(res, kws);
    HitsAppend(res, kws, [kw]);
    HitsSingle(res, kw);
    PercentAddHit(h, |kws|, Hits(res, kws + [kw]), |kws + [kw]|);
  }

  /** Adding a keyword that hits never lowers the coverage. */
  lemma CoverageAddHit(resume: string, kws: seq<string>, kw: string)
    requires Hit(Normalize(resume), kw)
    ensures KeywordCoverage(resume, kws + [kw]) >= KeywordCoverage(resume, kws)
  {
    PercentOfAddedHit(Normalize(resume), kws, kw);
  }
}

=== FILE: chars.dfy ===
/**
 The character classes the Python code relies on.

 `IsSpace` is exactly the set of code points for which Python's `str.isspace()`
 holds; it is what `str.strip()` removes and what the regular expression `\s`
 matches on `str` patterns. `Lower` models `str.lower()` on ASCII letters only:
 every other character is its own lower case in this model.
 */
module Chars {

  predicate IsSpace(c: char) {
    || c == ' ' || c == '\t' || c == '\n' || c == '\U{000B}' || c == '\U{000C}' || c == '\r'
    || ('\U{001C}' <= c <= '\U{001F}')
    || c == '\U{0085}' || c == '\U{00A0}' || c == '\U{1680}'
    || ('\U{2000}' <= c <= '\U{200A}')
    || c == '\U{2028}' || c == '\U{2029}' || c == '\U{202F}' || c == '\U{205F}' || c == '\U{3000}'
  }

  /** The line boundaries of Python's `str.splitlines()` (`\r\n` is handled by the splitter). */
  predicate IsLineBreak(c: char) {
    || c == '\n' || c == '\r' || c == '\U{000B}' || c == '\U{000C}'
    || c == '\U{001C}' || c == '\U{001D}' || c == '\U{001E}'
    || c == '\U{0085}' || c == '\U{2028}' || c == '\U{2029}'
  }

  /** The class `[ \t]` that `clean_text` collapses. */
  predicate IsHorizontalSpace(c: char) {
    c == ' ' || c == '\t'
  }

  predicate IsUpper(c: char) {
    'A' <= c <= 'Z'
  }

  predicate IsAsciiLetter(c: char) {
    ('A' <= c <= 'Z') || ('a' <= c <= 'z')
  }

  predicate IsAsciiDigit(c: char) {
    '0' <= c <= '9'
  }

  function Lower(c: char): (r: char)
    ensures IsSpace(r) <==> IsSpace(c)
    ensures IsLineBreak(r) <==> IsLineBreak(c)
    ensures !IsUpper(r)
    ensures IsAsciiLetter(r) <==> IsAsciiLetter(c)
    ensures !IsUpper(c) ==> r == c
  {
    if IsUpper(c) then (c as int + 32) as char else c
  }
}

=== FILE: index_jobs.dfy ===
/**
 Building the chunk metadata of the job index: every posting is split into
 chunks, and chunk number `i` over all postings, in file order, gets id `i`
 and the file name, guessed title and location of its posting. The
 embeddings themselves are left out; only the texts handed to the embedder
 are modelled.
 */
module IndexJobs {
  import opened Wrappers
  import opened Chars
  import opened Seqs
  import opened Strs
  import opened TextUtils
  import opened Loaders

  /** One row of the metadata file: the `ChunkMeta` dataclass. */
  datatype ChunkMeta = ChunkMeta(chunkId: nat, jobFile: string, jobTitle: string, location: string, text: string)

  /** A posting: its file name, the name without extension, and the text `load_any` read from it. */
  datatype JobFile = JobFile(name: string, stem: string, raw: string)

  /** A line whose lower case starts with `location:`. */
  predicate IsLocationLine(ln: string) {
    StartsWith(LowerStr(ln), "location:")
  }

  /**
   `extract_location`: the stripped text after the tag of the first location
   line, or `Unknown` when no line is one.
   */
  function ExtractLocation(text: string): (r: string)
    ensures var lines := SplitLines(text);
      var k := FirstWhere(lines, IsLocationLine);
      && (k < |lines| ==> r == Strip(lines[k][9..]))
      && (k == |lines| ==> r == "Unknown")
  {
    var lines := SplitLines(text);
    var k := FirstWhere(lines, IsLocationLine);
    if k < |lines| then
      AfterTag(lines[k], "location:");
      Strip(AfterFirstColon(lines[k]))
    else "Unknown"
  }

  /** A location is a piece of one line: it never holds a line break. */
  lemma LocationOnOneLine(text: string)
    ensures forall j :: 0 <= j < |ExtractLocation(text)| ==> !IsLineBreak(ExtractLocation(text)[j])
  {
    var lines := SplitLines(text);
    var k := FirstWhere(lines, IsLocationLine);
    if k < |lines| {
      var ln := lines[k];
      assert forall j :: 0 <= j < |ln| ==> !IsLineBreak(ln[j]);
      var rest := ln[9..];
      assert forall j :: 0 <= j < |rest| ==> rest[j] == ln[9 + j];
      StripNoBreak(rest);
    }
  }

  /** Stripping a piece of a line keeps it free of line breaks. */
  lemma StripNoBreak(s: string)
    requires forall j :: 0 <= j < |s| ==> !IsLineBreak(s[j])
    ensures forall j :: 0 <= j < |Strip(s)| ==> !IsLineBreak(Strip(s)[j])
  {
    var t, o := Strip(s), StripOffset(s);
    assert forall j :: 0 <= j < |t| ==> t[j] == s[o + j];
  }

  /** The chunking parameters the indexer uses. */
  const ChunkSize: nat := 900
  const ChunkOverlap: nat := 150

  /** `guess_job_title(raw) or jf.stem`: a guessed title is never empty, so only a missing one falls back. */
  function TitleOf(f: JobFile): (t: string)
    ensures GuessJobTitle(f.raw).Some? ==> t == GuessJobTitle(f.raw).value
    ensures GuessJobTitle(f.raw).None? ==> t == f.stem
    ensures |f.stem| > 0 ==> |t| > 0
  {
    match GuessJobTitle(f.raw)
    case Some(t) => t
    case None => f.stem
  }

  /** The chunks of one posting. */
  function FileChunks(f: JobFile): (cs: seq<string>)
    ensures forall i :: 0 <= i < |cs| ==> cs[i] != "" && |cs[i]| <= ChunkSize + ChunkOverlap + 1
  {
    SplitIntoChunks(f.raw, ChunkSize, ChunkOverlap)
  }

  /** A posting as the indexing loop sees it: file name, title, location and chunks. */
  datatype Prepared = Prepared(name: string, title: string, location: string, chunks: seq<string>)

  /** The per-posting values the indexing loop computes before numbering the chunks. */
  function Prepare(f: JobFile): (p: Prepared)
    ensures p.name == f.name
    ensures |f.stem| > 0 ==> |p.title| > 0
    ensures forall j :: 0 <= j < |p.location| ==> !IsLineBreak(p.location[j])
    ensures ChunksBounded(p.chunks)
  {
    LocationOnOneLine(f.raw);
    Prepared(f.name, TitleOf(f), ExtractLocation(f.raw), FileChunks(f))
  }

  function PrepareAll(files: seq<JobFile>): (ps: seq<Prepared>)
    ensures |ps| == |files|
    ensures forall i :: 0 <= i < |files| ==> ps[i] == Prepare(files[i])
  {
    seq(|files|, i requires 0 <= i < |files| => Prepare(files[i]))
  }

  /** Rows for the chunks of one posting, numbered from `start`. */
  function Rows(p: Prepared, start: nat): (ms: seq<ChunkMeta>)
    ensures |ms| == |p.chunks|
    ensures forall i :: 0 <= i < |ms| ==> ms[i] == ChunkMeta(start + i, p.name, p.title, p.location, p.chunks[i])
  {
    seq(|p.chunks|, i requires 0 <= i < |p.chunks| => ChunkMeta(start + i, p.name, p.title, p.location, p.chunks[i]))
  }

  /** All chunk texts, posting after posting: `all_chunks`. */
  function AllChunks(ps: seq<Prepared>): (r: seq<string>)
    ensures forall j, i :: 0 <= j < |ps| && 0 <= i < |ps[j].chunks| ==> ps[j].chunks[i] in r
  {
    if |ps| == 0 then []
    else
      var init := ps[..|ps| - 1];
      assert forall j :: 0 <= j < |init| ==> init[j] == ps[j];
      AllChunks(init) + ps[|ps| - 1].chunks
  }

  /** All metadata rows, posting after posting: `metas`. Row `i` has id `i` and text chunk `i`. */
  function Metas(ps: seq<Prepared>): (ms: seq<ChunkMeta>)
    ensures |ms| == |AllChunks(ps)|
    ensures forall i :: 0 <= i < |ms| ==> ms[i].chunkId == i && ms[i].text == AllChunks(ps)[i]
  {
    if |ps| == 0 then []
    else
      var init := ps[..|ps| - 1];
      Metas(init) + Rows(ps[|ps| - 1], |AllChunks(init)|)
  }

  /** The rows of the last posting come right after the earlier ones and carry that posting's fields. */
  lemma MetasOfLast(ps: seq<Prepared>, i: nat)
    requires |ps| > 0 && i < |ps[|ps| - 1].chunks|
    ensures var p := ps[|ps| - 1];
      var id := |AllChunks(ps[..|ps| - 1])| + i;
      && id < |Metas(ps)|
      && Metas(ps)[id] == ChunkMeta(id, p.name, p.title, p.location, p.chunks[i])
  {
  }

  /** The rows and chunks of the first `j` postings are the start of those of all postings. */
  lemma {:induction false} MetasPrefix(ps: seq<Prepared>, j: nat)
    requires j <= |ps|
    ensures AllChunks(ps[..j]) <= AllChunks(ps)
    ensures Metas(ps[..j]) <= Metas(ps)
    decreases |ps|
  {
    if j == |ps| {
      assert ps[..j] == ps;
    } else {
      var init := ps[..|ps| - 1];
      assert init[..j] == ps[..j];
      MetasPrefix(init, j);
    }
  }

  /**
   Chunk `i` of posting `j` becomes row number (chunks of the postings before
   `j`) + `i`, carrying posting `j`'s file name, title, location and chunk.
   */
  lemma MetasOfPosting(ps: seq<Prepared>, j: nat, i: nat)
    requires j < |ps| && i < |ps[j].chunks|
    ensures var id := |AllChunks(ps[..j])| + i;
      && id < |Metas(ps)|
      && Metas(ps)[id] == ChunkMeta(id, ps[j].name, ps[j].title, ps[j].location, ps[j].chunks[i])
  {
    var upTo := ps[..j + 1];
    assert upTo[..|upTo| - 1] == ps[..j];
    MetasOfLast(upTo, i);
    MetasPrefix(ps, j + 1);
  }

  /** Non-empty chunks of at most 1051 characters: what the chunker delivers with the indexer's parameters. */
  predicate ChunksBounded(cs: seq<string>) {
    forall i :: 0 <= i < |cs| ==> cs[i] != "" && |cs[i]| <= ChunkSize + ChunkOverlap + 1
  }

  /** Concatenating the chunks of postings keeps the bound. */
  lemma {:induction false} AllChunksBounded(ps: seq<Prepared>)
    requires forall i :: 0 <= i < |ps| ==> ChunksBounded(ps[i].chunks)
    ensures ChunksBounded(AllChunks(ps))
  {
    if |ps| > 0 {
      var init := ps[..|ps| - 1];
      AllChunksBounded(init);
      assert ChunksBounded(ps[|ps| - 1].chunks);
    }
  }

  /** Every indexed chunk is non-empty and at most 1051 characters long. */
  lemma IndexedChunksBounded(files: seq<JobFile>)
    ensures ChunksBounded(AllChunks(PrepareAll(files)))
  {
    var ps := PrepareAll(files);
    forall i | 0 <= i < |ps|
      ensures ChunksBounded(ps[i].chunks)
    {
      assert ps[i].chunks == FileChunks(files[i]);
    }
    AllChunksBounded(ps);
  }

  /** The numbering loop of `main`: chunk ids count up over all postings with the running id `cid`. */
  method NumberChunks(ps: seq<Prepared>) returns (allChunks: seq<string>, metas: seq<ChunkMeta>)
    ensures allChunks == AllChunks(ps)
    ensures metas == Metas(ps)
  {
    allChunks, metas := [], [];
    var cid: nat := 0;
    var fi := 0;
    while fi < |ps|
      invariant fi <= |ps|
      invariant allChunks == AllChunks(ps[..fi])
      invariant metas == Metas(ps[..fi])
      invariant cid == |allChunks|
    {
      var p := ps[fi];
      var chunks := p.chunks;
      ghost var before := allChunks;
      ghost var metasBefore := metas;
      var j := 0;
      while j < |chunks|
        invariant j <= |chunks|
        invariant allChunks == before + chunks[..j]
        invariant metas == metasBefore + Rows(p, |before|)[..j]
        invariant cid == |allChunks|
      {
        allChunks := allChunks + [chunks[j]];
        metas := metas + [ChunkMeta(cid, p.name, p.title, p.location, chunks[j])];
        assert chunks[..j + 1] == chunks[..j] + [chunks[j]];
        assert Rows(p, |before|)[..j + 1] == Rows(p, |before|)[..j] + [Rows(p, |before|)[j]];
        cid := cid + 1;
        j := j + 1;
      }
      assert ps[..fi + 1][..fi] == ps[..fi];
      assert chunks[..j] == chunks;
      assert Rows(p, |before|)[..j] == Rows(p, |before|);
      fi := fi + 1;
    }
    assert ps[..fi] == ps;
  }

  /** `main` without the embedding and file output: prepare every posting, then number the chunks. */
  method BuildIndex(files: seq<JobFile>) returns (allChunks: seq<string>, metas: seq<ChunkMeta>)
    ensures |metas| == |allChunks|
    ensures forall i :: 0 <= i < |metas| ==> metas[i].chunkId == i && metas[i].text == allChunks[i]
    ensures ChunksBounded(allChunks)
  {
    var ps := PrepareAll(files);
    allChunks, metas := NumberChunks(ps);
    IndexedChunksBounded(files);
  }

  /** `embed_passages`: the texts handed to the embedding model, one per chunk, in order. */
  function EmbedPassages(ps: seq<string>): (r: seq<string>)
    ensures |r| == |ps|
    ensures forall i :: 0 <= i < |r| ==> StartsWith(r[i], PassagePrefix) && r[i][|PassagePrefix|..] == ps[i]
  {
    seq(|ps|, i requires 0 <= i < |ps| => PassagePrefix + ps[i])
  }

  /** The prefix the E5 embedding models expect in front of an indexed passage. */
  const PassagePrefix: string := "passage: "
}

=== FILE: json.dfy ===
/**
 JSON values as `json.loads` returns them. An object is the sequence of its
 fields in insertion order, as a Python dict iterates them; lookups use the
 first field with a given key.
 */
module Json {
  import opened Wrappers

  datatype Json =
    | JNull
    | JBool(b: bool)
    | JNum(n: real)
    | JStr(s: string)
    | JArr(items: seq<Json>)
    | JObj(fields: seq<Field>)

  datatype Field = Field(key: string, value: Json)

  /** The keys of an object, in order. */
  function Keys(fs: seq<Field>): (ks: seq<string>)
    ensures |ks| == |fs|
    ensures forall i :: 0 <= i < |fs| ==> ks[i] == fs[i].key
  {
    seq(|fs|, i requires 0 <= i < |fs| => fs[i].key)
  }

  /** No key occurs twice: what a Python dict guarantees. */
  predicate UniqueKeys(fs: seq<Field>) {
    forall i, j :: 0 <= i < j < |fs| ==> fs[i].key != fs[j].key
  }

  /** `d.get(k)`: the value of the first field with key `k`. */
  function Lookup(fs: seq<Field>, k: string): (r: Option<Json>)
    ensures r.None? <==> k !in Keys(fs)
    ensures r.Some? ==> Field(k, r.value) in fs
  {
    if |fs| == 0 then None
    else if fs[0].key == k then Some(fs[0].value)
    else
      assert Keys(fs) == [fs[0].key] + Keys(fs[1..]);
      Lookup(fs[1..], k)
  }

  /** The first field with a key is the one a lookup finds. */
  lemma {:induction false} LookupFirst(fs: seq<Field>, i: nat)
    requires i < |fs|
    requires forall j :: 0 <= j < i ==> fs[j].key != fs[i].key
    ensures Lookup(fs, fs[i].key) == Some(fs[i].value)
    decreases i
  {
    if i > 0 {
      assert forall j :: 0 <= j < i - 1 ==> fs[1..][j] == fs[j + 1];
      LookupFirst(fs[1..], i - 1);
    }
  }

  /** A key absent from the first fields is looked up in the rest. */
  lemma {:induction false} LookupSkip(a: seq<Field>, b: seq<Field>, k: string)
    requires k !in Keys(a)
    ensures Lookup(a + b, k) == Lookup(b, k)
    decreases |a|
  {
    if |a| > 0 {
      assert Keys(a)[0] == a[0].key;
      assert (a + b)[1..] == a[1..] + b;
      assert Keys(a[1..]) == Keys(a)[1..];
      LookupSkip(a[1..], b, k);
    } else {
      assert a + b == b;
    }
  }

  /** In an object with unique keys, a lookup finds every field. */
  lemma LookupUnique(fs: seq<Field>, i: nat)
    requires UniqueKeys(fs) && i < |fs|
    ensures Lookup(fs, fs[i].key) == Some(fs[i].value)
  {
    LookupFirst(fs, i);
  }

  /** Appending a field keeps every earlier lookup and makes the new key visible when it was absent. */
  lemma {:induction false} LookupAppend(fs: seq<Field>, f: Field, k: string)
    ensures Lookup(fs + [f], k) == if k in Keys(fs) then Lookup(fs, k) else if f.key == k then Some(f.value) else None
    decreases |fs|
  {
    if |fs| > 0 {
      assert (fs + [f])[1..] == fs[1..] + [f];
      assert Keys(fs) == [fs[0].key] + Keys(fs[1..]);
      LookupAppend(fs[1..], f, k);
    } else {
      assert fs + [f] == [f];
    }
  }

  /** `d.setdefault(k, v)`: adds `k` at the end only when it is absent. */
  function SetDefault(fs: seq<Field>, k: string, v: Json): (r: seq<Field>)
    ensures Lookup(r, k) == Some(if k in Keys(fs) then Lookup(fs, k).value else v)
    ensures forall k' :: k' != k ==> Lookup(r, k') == Lookup(fs, k')
    ensures UniqueKeys(fs) ==> UniqueKeys(r)
    ensures |r| >= |fs| && r[..|fs|] == fs
  {
    if k in Keys(fs) then fs
    else
      AppendAbsent(fs, Field(k, v));
      fs + [Field(k, v)]
  }

  /** Appending a field with a new key: the new key is found, every other lookup is unchanged, keys stay unique. */
  lemma AppendAbsent(fs: seq<Field>, f: Field)
    requires f.key !in Keys(fs)
    ensures Lookup(fs + [f], f.key) == Some(f.value)
    ensures forall k' :: k' != f.key ==> Lookup(fs + [f], k') == Lookup(fs, k')
    ensures UniqueKeys(fs) ==> UniqueKeys(fs + [f])
  {
    LookupAppend(fs, f, f.key);
    forall k' | k' != f.key
      ensures Lookup(fs + [f], k') == Lookup(fs, k')
    {
      LookupAppend(fs, f, k');
    }
    assert forall i :: 0 <= i < |fs| ==> fs[i].key == Keys(fs)[i];
  }

  /** Objects with the same keys in the same order agree on whether keys are unique. */
  lemma SameKeysUnique(fs: seq<Field>, gs: seq<Field>)
    requires Keys(fs) == Keys(gs)
    ensures UniqueKeys(fs) == UniqueKeys(gs)
  {
    assert forall i :: 0 <= i < |fs| ==> fs[i].key == Keys(fs)[i] == Keys(gs)[i] == gs[i].key;
  }

  /**
   `d.setdefault(k, v)` for every field `(k, v)` of `defaults`, in order: a
   key keeps its value when `fs` has it and otherwise gets its first default.
   */
  function SetDefaults(fs: seq<Field>, defaults: seq<Field>): (r: seq<Field>)
    ensures forall k :: Lookup(r, k) == if k in Keys(fs) then Lookup(fs, k) else Lookup(defaults, k)
    ensures UniqueKeys(fs) ==> UniqueKeys(r)
    decreases |defaults|
  {
    if |defaults| == 0 then fs
    else
      var d := defaults[0];
      var next := SetDefault(fs, d.key, d.value);
      assert Keys(defaults) == [d.key] + Keys(defaults[1..]);
      forall k | k != d.key
        ensures (k in Keys(next)) == (k in Keys(fs))
      {
        assert Lookup(next, k) == Lookup(fs, k);
      }
      SetDefaults(next, defaults[1..])
  }

  /** `d[k] = v` for a key that is present: replaces the value of its first field. */
  function Replace(fs: seq<Field>, k: string, v: Json): (r: seq<Field>)
    ensures Keys(r) == Keys(fs)
    ensures k in Keys(fs) ==> Lookup(r, k) == Some(v)
    ensures forall k' :: k' != k ==> Lookup(r, k') == Lookup(fs, k')
  {
    if |fs| == 0 then []
    else if fs[0].key == k then [Field(k, v)] + fs[1..]
    else
      var rest := Replace(fs[1..], k, v);
      assert Keys(fs) == [fs[0].key] + Keys(fs[1..]);
      assert Keys([fs[0]] + rest) == [fs[0].key] + Keys(rest);
      [fs[0]] + rest
  }
}

=== FILE: keywords.dfy ===
/**
 Keyword extraction from retrieved job evidence: tokens of the pattern
 `[A-Za-z][A-Za-z0-9+#./-]{1,25}` found left to right, minus a case-sensitive
 stop list, deduplicated ignoring case (keeping the first spelling), at most 80.
 */
module Keywords {
  import opened Chars
  import opened Seqs
  import opened Strs

  /** The characters allowed after the first letter of a token. */
  predicate IsTokenChar(c: char) {
    IsAsciiLetter(c) || IsAsciiDigit(c) || c == '+' || c == '#' || c == '.' || c == '-' || c == '/'
  }

  predicate NotTokenChar(c: char) {
    !IsTokenChar(c)
  }

  /** A whole match of the token pattern. */
  predicate IsToken(t: string) {
    && 2 <= |t| <= 26
    && IsAsciiLetter(t[0])
    && forall j :: 1 <= j < |t| ==> IsTokenChar(t[j])
  }

  /** Length of the (greedy) match of the token pattern at the start of `s`, or 0 when there is none. */
  function MatchLen(s: string): (n: nat)
    ensures n <= |s|
    ensures n > 0 ==> IsToken(s[..n])
    ensures n > 0 ==> n == 26 || n == |s| || !IsTokenChar(s[n])
    ensures n == 0 ==> |s| < 2 || !IsAsciiLetter(s[0]) || !IsTokenChar(s[1])
  {
    if |s| >= 2 && IsAsciiLetter(s[0]) && IsTokenChar(s[1]) then
      var run := FirstWhere(s[1..], NotTokenChar);
      var n := 1 + Min(25, run);
      assert forall j :: 1 <= j < n ==> s[j] == s[1..][j - 1];
      n
    else 0
  }

  /** `re.findall(pattern, s)`: scan left to right, skipping one character where no match starts. */
  function Tokens(s: string): (r: seq<string>)
    ensures forall i :: 0 <= i < |r| ==> IsToken(r[i])
    decreases |s|
  {
    if |s| == 0 then []
    else
      var n := MatchLen(s);
      if n > 0 then [s[..n]] + Tokens(s[n..]) else Tokens(s[1..])
  }

  /** A match that the text runs out under is cut short by a non-token character instead: the same match. */
  lemma MatchLenAppend(x: string, y: string)
    requires |x| > 0 && |y| > 0 && NotTokenChar(y[0])
    ensures MatchLen(x + y) == MatchLen(x)
  {
    var s := x + y;
    if |x| >= 2 && IsAsciiLetter(x[0]) && IsTokenChar(x[1]) {
      assert s[0] == x[0] && s[1] == x[1];
      var k := FirstWhere(x[1..], NotTokenChar);
      var r := FirstWhere(s[1..], NotTokenChar);
      assert s[1..] == x[1..] + y;
      assert forall j :: 0 <= j < k ==> s[1..][j] == x[1..][j];
      assert k < |s[1..]| && NotTokenChar(s[1..][k]);
      assert r == k;
    } else if |x| == 1 {
      assert s[1] == y[0];
    }
  }

  /** A text followed by one that starts with a non-token character: the tokens of each, in order. */
  lemma {:induction false} TokensAppend(x: string, y: string)
    requires |y| > 0 && NotTokenChar(y[0])
    ensures Tokens(x + y) == Tokens(x) + Tokens(y)
    decreases |x|
  {
    if |x| == 0 {
      assert x + y == y;
    } else {
      var n := MatchLen(x);
      MatchLenAppend(x, y);
      var m := if n > 0 then n else 1;
      assert (x + y)[m..] == x[m..] + y;
      TokensAppend(x[m..], y);
      if n > 0 {
        assert (x + y)[..n] == x[..n];
      }
    }
  }

  /** A token alone is matched whole. */
  lemma TokensOfToken(w: string)
    requires IsToken(w)
    ensures Tokens(w) == [w]
  {
    var k := FirstWhere(w[1..], NotTokenChar);
    assert forall j :: 0 <= j < |w| - 1 ==> w[1..][j] == w[j + 1];
    assert k == |w| - 1;
    assert MatchLen(w) == |w|;
    assert w[..|w|] == w && w[|w|..] == [];
  }

  /** Tokens written out with single spaces between them are found again, all of them, in order. */
  lemma {:induction false} TokensOfWords(ws: seq<string>)
    requires forall i :: 0 <= i < |ws| ==> IsToken(ws[i])
    ensures Tokens(Join(" ", ws)) == ws
    decreases |ws|
  {
    if |ws| == 1 {
      TokensOfToken(ws[0]);
    } else if |ws| > 1 {
      var rest := Join(" ", ws[1..]);
      TokensOfWords(ws[1..]);
      JoinCons(" ", ws[0], ws[1..]);
      TokensAppend(ws[0], " " + rest);
      TokensOfToken(ws[0]);
      assert (" " + rest)[1..] == rest;
      assert MatchLen(" " + rest) == 0;
      assert [ws[0]] + ws[1..] == ws;
      ConcatAssoc(ws[0], " ", rest);
    }
  }

  /** Every token is a piece of the text. */
  lemma {:induction false} TokensInText(s: string)
    ensures forall i :: 0 <= i < |Tokens(s)| ==> Contains(s, Tokens(s)[i])
    decreases |s|
  {
    if |s| > 0 {
      var n := MatchLen(s);
      var rest := if n > 0 then s[n..] else s[1..];
      var k := |s| - |rest|;
      TokensInText(rest);
      forall i | 0 <= i < |Tokens(s)|
        ensures Contains(s, Tokens(s)[i])
      {
        if n > 0 && i == 0 {
          ContainsAt(s, s[..n], 0);
        } else {
          var j := if n > 0 then i - 1 else i;
          var t := Tokens(rest)[j];
          assert Tokens(s)[i] == t;
          ContainsFrom(s, k, t);
        }
      }
    }
  }

  /** The stop list, compared case-sensitively. */
  const StopWords: set<string> := {
    "Job", "Title", "Location", "Employment", "Type", "Company", "Description",
    "Responsibilities", "Requirements", "Nice", "Have", "Salary", "Keywords",
    "Germany", "Remote"
  }

  /** The two `continue` tests of the token loop. */
  predicate KeepToken(t: string) {
    t !in StopWords && |t| >= 2
  }

  /** The lower-case forms of a token list. */
  function Lowers(ts: seq<string>): (r: seq<string>)
    ensures |r| == |ts|
    ensures forall i :: 0 <= i < |ts| ==> r[i] == LowerStr(ts[i])
  {
    seq(|ts|, i requires 0 <= i < |ts| => LowerStr(ts[i]))
  }

  /** Index of the first token whose lower case is `low`, or `|ts|` if there is none. */
  function IndexCI(ts: seq<string>, low: string): (k: nat)
    ensures k <= |ts|
    ensures k < |ts| ==> LowerStr(ts[k]) == low
    ensures forall j :: 0 <= j < k ==> LowerStr(ts[j]) != low
    decreases |ts|
  {
    if |ts| == 0 then 0
    else if LowerStr(ts[0]) == low then 0
    else 1 + IndexCI(ts[1..], low)
  }

  /** Two indices with the first-occurrence property are the same. */
  lemma {:induction false} IndexCIUnique(ts: seq<string>, low: string, k: nat)
    requires k <= |ts|
    requires k < |ts| ==> LowerStr(ts[k]) == low
    requires forall j :: 0 <= j < k ==> LowerStr(ts[j]) != low
    ensures IndexCI(ts, low) == k
    decreases |ts|
  {
    if |ts| > 0 && LowerStr(ts[0]) != low {
      IndexCIUnique(ts[1..], low, k - 1);
    }
  }

  /** No two entries agree ignoring case. */
  predicate DistinctCI(r: seq<string>) {
    forall i, j :: 0 <= i < j < |r| ==> LowerStr(r[i]) != LowerStr(r[j])
  }

  /** Every token of `ts` is represented in `r`, ignoring case. */
  predicate CoversCI(r: seq<string>, ts: seq<string>) {
    forall i :: 0 <= i < |ts| ==> LowerStr(ts[i]) in Lowers(r)
  }

  /** Each entry of `r` is spelled as the first token of `ts` with its lower case. */
  predicate FirstSpelled(r: seq<string>, ts: seq<string>) {
    forall j :: 0 <= j < |r| ==>
      IndexCI(ts, LowerStr(r[j])) < |ts| && r[j] == ts[IndexCI(ts, LowerStr(r[j]))]
  }

  /** The entries of `r` come in the order their lower cases first occur in `ts`. */
  predicate FirstOrder(r: seq<string>, ts: seq<string>) {
    forall i, j :: 0 <= i < j < |r| ==> IndexCI(ts, LowerStr(r[i])) < IndexCI(ts, LowerStr(r[j]))
  }

  /**
   `r` is the case-insensitive deduplication of `ts`: no two entries agree
   ignoring case, every token of `ts` is represented, each entry is spelled as
   the first token of its lower case, and entries are in first-occurrence order.
   */
  predicate IsDedupOf(r: seq<string>, ts: seq<string>) {
    DistinctCI(r) && CoversCI(r, ts) && FirstSpelled(r, ts) && FirstOrder(r, ts)
  }

  /** Appending a token keeps the first index of every lower case already present. */
  lemma IndexCIAppend(ts: seq<string>, t: string, low: string)
    ensures IndexCI(ts + [t], low) ==
      if IndexCI(ts, low) < |ts| then IndexCI(ts, low)
      else if LowerStr(t) == low then |ts| else |ts| + 1
  {
    var k := IndexCI(ts, low);
    var ts' := ts + [t];
    if k < |ts| {
      IndexCIUnique(ts', low, k);
    } else if LowerStr(t) == low {
      IndexCIUnique(ts', low, |ts|);
    } else {
      IndexCIUnique(ts', low, |ts| + 1);
    }
  }

  /** Entries spelled after a first occurrence in `ts` keep their spelling and order in `ts + [t]`. */
  lemma FirstKept(r: seq<string>, ts: seq<string>, t: string)
    requires FirstSpelled(r, ts) && FirstOrder(r, ts)
    ensures FirstSpelled(r, ts + [t]) && FirstOrder(r, ts + [t])
    ensures forall j :: 0 <= j < |r| ==> IndexCI(ts + [t], LowerStr(r[j])) < |ts|
  {
    forall j | 0 <= j < |r|
      ensures IndexCI(ts + [t], LowerStr(r[j])) == IndexCI(ts, LowerStr(r[j]))
    {
      IndexCIAppend(ts, t, LowerStr(r[j]));
    }
  }

  /** A token whose lower case was seen leaves the result unchanged. */
  lemma DedupStepSeen(r: seq<string>, ts: seq<string>, t: string)
    requires IsDedupOf(r, ts) && LowerStr(t) in Lowers(r)
    ensures IsDedupOf(r, ts + [t])
  {
    FirstKept(r, ts, t);
    var ts' := ts + [t];
    forall i | 0 <= i < |ts'|
      ensures LowerStr(ts'[i]) in Lowers(r)
    {
      if i < |ts| {
        assert ts'[i] == ts[i];
      }
    }
  }

  /** A token with a new lower case is appended, and it is its own first occurrence. */
  lemma DedupStepNew(r: seq<string>, ts: seq<string>, t: string)
    requires IsDedupOf(r, ts) && LowerStr(t) !in Lowers(r)
    ensures IsDedupOf(r + [t], ts + [t])
  {
    var low := LowerStr(t);
    FirstKept(r, ts, t);
    IndexCIAppend(ts, t, low);
    assert forall i :: 0 <= i < |ts| ==> LowerStr(ts[i]) != low;
    assert IndexCI(ts + [t], low) == |ts|;
    NewSpelled(r, ts + [t], t);
    NewOrder(r, ts + [t], t, |ts|);
    NewCovers(r, ts, t);
    NewDistinct(r, t);
  }

  /** An entry appended with its own first occurrence as the last token is spelled as that token. */
  lemma NewSpelled(r: seq<string>, us: seq<string>, t: string)
    requires FirstSpelled(r, us)
    requires IndexCI(us, LowerStr(t)) == |us| - 1 && us[|us| - 1] == t
    ensures FirstSpelled(r + [t], us)
  {
    var r' := r + [t];
    forall j | 0 <= j < |r'|
      ensures IndexCI(us, LowerStr(r'[j])) < |us| && r'[j] == us[IndexCI(us, LowerStr(r'[j]))]
    {
      if j < |r| {
        assert r'[j] == r[j];
      }
    }
  }

  /** An entry whose first occurrence comes after those of all earlier entries keeps the order. */
  lemma NewOrder(r: seq<string>, us: seq<string>, t: string, n: nat)
    requires FirstOrder(r, us)
    requires forall j :: 0 <= j < |r| ==> IndexCI(us, LowerStr(r[j])) < n
    requires IndexCI(us, LowerStr(t)) == n
    ensures FirstOrder(r + [t], us)
  {
    var r' := r + [t];
    forall i, j | 0 <= i < j < |r'|
      ensures IndexCI(us, LowerStr(r'[i])) < IndexCI(us, LowerStr(r'[j]))
    {
      assert r'[i] == r[i];
      if j < |r| {
        assert r'[j] == r[j];
      }
    }
  }

  /** Appending a token to both lists keeps every token represented. */
  lemma NewCovers(r: seq<string>, ts: seq<string>, t: string)
    requires CoversCI(r, ts)
    ensures CoversCI(r + [t], ts + [t])
  {
    var ts', r' := ts + [t], r + [t];
    assert Lowers(r') == Lowers(r) + [LowerStr(t)];
    forall i | 0 <= i < |ts'|
      ensures LowerStr(ts'[i]) in Lowers(r')
    {
      if i < |ts| {
        assert ts'[i] == ts[i];
      }
    }
  }

  /** Appending a token with a new lower case keeps the entries distinct. */
  lemma NewDistinct(r: seq<string>, t: string)
    requires DistinctCI(r) && LowerStr(t) !in Lowers(r)
    ensures DistinctCI(r + [t])
  {
    var r' := r + [t];
    forall i, j | 0 <= i < j < |r'|
      ensures LowerStr(r'[i]) != LowerStr(r'[j])
    {
      if j == |r| {
        assert Lowers(r)[i] == LowerStr(r[i]);
      }
    }
  }

  /** The `seen`/`uniq` loop: keep a token only if its lower case was not seen yet. */
  function DedupCI(ts: seq<string>): (r: seq<string>)
    ensures IsDedupOf(r, ts)
    ensures |r| <= |ts|
    decreases |ts|
  {
    if |ts| == 0 then []
    else
      var init := ts[..|ts| - 1];
      var t := ts[|ts| - 1];
      var r := DedupCI(init);
      assert init + [t] == ts;
      if LowerStr(t) in Lowers(r) then
        DedupStepSeen(r, init, t);
        r
      else
        DedupStepNew(r, init, t);
        r + [t]
  }

  /** Every kept entry is one of the input tokens. */
  lemma DedupFromInput(ts: seq<string>)
    ensures forall j :: 0 <= j < |DedupCI(ts)| ==> DedupCI(ts)[j] in ts
  {
    var r := DedupCI(ts);
    forall j | 0 <= j < |r|
      ensures r[j] in ts
    {
      assert r[j] == ts[IndexCI(ts, LowerStr(r[j]))];
    }
  }

  /** The token list after the stop-list and length filters. */
  function Candidates(text: string): (r: seq<string>)
    ensures forall i :: 0 <= i < |r| ==> IsToken(r[i]) && r[i] !in StopWords
  {
    Filter(Tokens(text), KeepToken)
  }

  /** A prefix of a list without case-insensitive repeats has none either. */
  lemma DistinctPrefix(u: seq<string>, n: nat)
    requires DistinctCI(u) && n <= |u|
    ensures DistinctCI(u[..n])
  {
  }

  /** Every entry of the deduplicated candidates is a token outside the stop list. */
  lemma DedupCandidates(text: string)
    ensures forall j :: 0 <= j < |DedupCI(Candidates(text))| ==>
      IsToken(DedupCI(Candidates(text))[j]) && DedupCI(Candidates(text))[j] !in StopWords
  {
    var cs := Candidates(text);
    DedupFromInput(cs);
  }

  /**
   `simple_keywords_from_text`: the first (at most) 80 entries of the
   deduplicated candidates, so tokens outside the stop list, pairwise
   different ignoring case, each spelled as its first occurrence.
   */
  function SimpleKeywords(text: string): (r: seq<string>)
    ensures |r| == Min(80, |DedupCI(Candidates(text))|)
    ensures r == DedupCI(Candidates(text))[..|r|]
    ensures forall i :: 0 <= i < |r| ==> IsToken(r[i]) && r[i] !in StopWords
    ensures DistinctCI(r)
  {
    var u := DedupCI(Candidates(text));
    DedupCandidates(text);
    DistinctPrefix(u, Min(80, |u|));
    Take(u, 80)
  }
}

=== FILE: llm.dfy ===
/**
 Extraction of the JSON object from the text a language model returned: the
 text is stripped, then cut from its first `{` through its last `}` when that
 gives a non-empty span, and the result goes to the JSON parser. The parser
 is a parameter: any partial function from text to a JSON value.
 */
module Llm {
  import opened Wrappers
  import opened Chars
  import opened Strs
  import opened Json

  /** The first `{` comes strictly before the last `}`. */
  predicate HasBraces(t: string) {
    Find(t, '{') != -1 && RFind(t, '}') != -1 && RFind(t, '}') > Find(t, '{')
  }

  /** Starts with `{` and ends with a different `}`. */
  predicate Braced(c: string) {
    |c| >= 2 && c[0] == '{' && c[|c| - 1] == '}'
  }

  /**
   The cut applied to the stripped text: with braces, the span that starts at
   the first `{` and ends with a `}` after which no `}` follows; otherwise the
   text itself.
   */
  function Cut(t: string): (r: string)
    ensures !HasBraces(t) ==> r == t
    ensures HasBraces(t) ==>
      && Braced(r)
      && Find(t, '{') + |r| <= |t| && r == t[Find(t, '{')..Find(t, '{') + |r|]
      && forall j :: Find(t, '{') + |r| <= j < |t| ==> t[j] != '}'
  {
    var start := Find(t, '{');
    var end := RFind(t, '}');
    if start != -1 && end != -1 && end > start then t[start..end + 1] else t
  }

  /** The text `safe_json_loads` hands to the parser. */
  function JsonCandidate(text: string): (r: string)
    ensures !HasBraces(Strip(text)) ==> r == Strip(text)
    ensures HasBraces(Strip(text)) ==>
      var t := Strip(text);
      var i := Find(t, '{');
      && Braced(r)
      && i + |r| <= |t| && r == t[i..i + |r|]
      && forall j :: i + |r| <= j < |t| ==> t[j] != '}'
  {
    Cut(Strip(text))
  }

  /** `safe_json_loads(text)`: the parser applied to the candidate; `None` when it raises. */
  function SafeJsonLoads(text: string, parse: string -> Option<Json>): (r: Option<Json>)
    ensures !HasBraces(Strip(text)) || Braced(Strip(text)) ==> r == parse(Strip(text))
    ensures HasBraces(Strip(text)) ==> exists c :: Braced(c) && r == parse(c)
    ensures HasBraces(Strip(text)) ==>
      var t := Strip(text);
      r == parse(t[Find(t, '{')..RFind(t, '}') + 1])
  {
    var c := JsonCandidate(text);
    if Braced(Strip(text)) then
      CandidateFixedBraces(Strip(text));
      CandidateOfStripped(text);
      CandidateSpan(text);
      parse(c)
    else if HasBraces(Strip(text)) then
      CandidateSpan(text);
      parse(c)
    else parse(c)
  }

  /** With braces the candidate is the stripped text from its first `{` through its last `}`. */
  lemma CandidateSpan(text: string)
    requires HasBraces(Strip(text))
    ensures var t := Strip(text);
      && Braced(JsonCandidate(text))
      && JsonCandidate(text) == t[Find(t, '{')..RFind(t, '}') + 1]
  {
  }

  /** Extraction only sees the stripped text, so surrounding whitespace never matters. */
  lemma CandidateOfStripped(text: string)
    ensures JsonCandidate(Strip(text)) == JsonCandidate(text)
  {
    StripStripped(Strip(text));
    assert Strip(Strip(text)) == Strip(text);
  }

  /** A candidate cut at braces is already its own candidate. */
  lemma CandidateFixedBraces(c: string)
    requires Braced(c)
    ensures JsonCandidate(c) == c
  {
    assert !IsSpace(c[0]) && !IsSpace(c[|c| - 1]);
    StripStripped(c);
    CutBraced(c);
  }

  /** A braced text is cut to itself. */
  lemma CutBraced(c: string)
    requires Braced(c)
    ensures Cut(c) == c
  {
    assert Find(c, '{') == 0;
    assert RFind(c, '}') == |c| - 1;
    assert c[0..|c|] == c;
  }

  /** Extracting from the candidate again returns the candidate: the selection is idempotent. */
  lemma CandidateIdempotent(text: string)
    ensures JsonCandidate(JsonCandidate(text)) == JsonCandidate(text)
  {
    if HasBraces(Strip(text)) {
      CandidateWithBraces(text);
    } else {
      CandidateNoBraces(text);
    }
  }

  /** With braces the candidate starts with `{` and ends with `}`, so it is its own candidate. */
  lemma CandidateWithBraces(text: string)
    requires HasBraces(Strip(text))
    ensures JsonCandidate(JsonCandidate(text)) == JsonCandidate(text)
  {
    CandidateFixedBraces(JsonCandidate(text));
  }

  /** Without braces the candidate is the stripped text, which is its own candidate. */
  lemma CandidateNoBraces(text: string)
    requires !HasBraces(Strip(text))
    ensures JsonCandidate(JsonCandidate(text)) == JsonCandidate(text)
  {
    var t := Strip(text);
    assert JsonCandidate(text) == t;
    StripStripped(t);
    assert Strip(t) == t;
  }

  /** A braced body between a part without `{` and a part without `}` is cut out exactly. */
  lemma CutAround(p: string, body: string, q: string)
    requires |body| >= 2 && body[0] == '{' && body[|body| - 1] == '}'
    requires '{' !in p && '}' !in q
    ensures Cut(p + body + q) == body
  {
    var t := p + body + q;
    var a, b := |p|, |p| + |body|;
    assert t[a] == '{' && forall j :: 0 <= j < a ==> t[j] == p[j];
    assert Find(t, '{') == a;
    assert t[b - 1] == '}' && forall j :: b <= j < |t| ==> t[j] == q[j - b];
    assert RFind(t, '}') == b - 1;
    assert t[a..b] == body;
  }

  /** Stripping text around a body with non-space ends only trims the text around it. */
  lemma StripAround(pre: string, body: string, suf: string)
    requires |body| > 0 && NoEdgeSpace(body)
    ensures var s := pre + body + suf;
      var t := Strip(s);
      var o := StripOffset(s);
      && o <= |pre| && |pre| + |body| <= o + |t|
      && t == pre[o..] + body + suf[..o + |t| - |pre| - |body|]
  {
    var s := pre + body + suf;
    var t := Strip(s);
    var o := StripOffset(s);
    var a, b := |pre|, |pre| + |body|;
    assert s[a] == body[0] && s[b - 1] == body[|body| - 1];
    assert o <= a;
    assert b <= o + |t|;
    assert s[o..o + |t|] == pre[o..] + body + suf[..o + |t| - b];
  }

  /**
   Chatter around a braced body never reaches the parser: with no `{` before
   the body and no `}` after it, the candidate is exactly the body.
   */
  lemma CandidateIgnoresChatter(pre: string, body: string, suf: string)
    requires |body| >= 2 && body[0] == '{' && body[|body| - 1] == '}'
    requires '{' !in pre && '}' !in suf
    ensures JsonCandidate(pre + body + suf) == body
  {
    var s := pre + body + suf;
    StripAround(pre, body, suf);
    var o := StripOffset(s);
    var e := o + |Strip(s)| - |pre| - |body|;
    assert forall c :: c in pre[o..] ==> c in pre;
    assert forall c :: c in suf[..e] ==> c in suf;
    CutAround(pre[o..], body, suf[..e]);
  }

  /** The parser sees the same text whether or not the model wrapped its JSON in chatter. */
  lemma SafeJsonLoadsIgnoresChatter(pre: string, body: string, suf: string, parse: string -> Option<Json>)
    requires |body| >= 2 && body[0] == '{' && body[|body| - 1] == '}'
    requires '{' !in pre && '}' !in suf
    ensures SafeJsonLoads(pre + body + suf, parse) == parse(body)
  {
    CandidateIgnoresChatter(pre, body, suf);
  }

  /** The example of a model answer in a fenced block with a note before and thanks after. */
  lemma FencedAnswerExample(parse: string -> Option<Json>)
    ensures SafeJsonLoads("Note: ```{\"a\": 1}``` thanks", parse) == parse("{\"a\": 1}")
  {
    var pre, body, suf := "Note: ```", "{\"a\": 1}", "``` thanks";
    assert pre + body + suf == "Note: ```{\"a\": 1}``` thanks";
    assert '{' !in pre && '}' !in suf;
    SafeJsonLoadsIgnoresChatter(pre, body, suf, parse);
  }
}

=== FILE: loaders.dfy ===
/**
 The job title guessed from a posting: the value of the first `Job Title:`
 or `Titel:` line among the first 20 non-blank lines, or else the first
 non-blank line cut to 120 characters.
 */
module Loaders {
  import opened Wrappers
  import opened Chars
  import opened Seqs
  import opened Strs

  /** A line whose lower case starts with one of the title tags. */
  predicate IsTitleLine(ln: string) {
    StartsWith(LowerStr(ln), "job title:") || StartsWith(LowerStr(ln), "titel:")
  }

  /** `ln.split(":", 1)[1].strip()` on a title line: the stripped text after the tag. */
  function TitleValue(ln: string): (v: string)
    requires IsTitleLine(ln)
    ensures StartsWith(LowerStr(ln), "job title:") ==> v == Strip(ln[10..])
    ensures !StartsWith(LowerStr(ln), "job title:") ==> v == Strip(ln[6..])
  {
    if StartsWith(LowerStr(ln), "job title:") then
      AfterTag(ln, "job title:");
      Strip(AfterFirstColon(ln))
    else
      AfterTag(ln, "titel:");
      Strip(AfterFirstColon(ln))
  }

  /** The longest title taken from the first line. */
  const MaxTitle: nat := 120

  /** How many leading lines are searched for a title tag. */
  const TitleLines: nat := 20

  /**
   The choice `guess_job_title` makes among the non-blank lines: the value of
   the first title line among the first 20, where an empty value gives `None`
   at once even if a later line carries a title; without a title line, the
   first line cut to 120 characters; without lines, `None`.
   */
  function PickTitle(lines: seq<string>): (r: Option<string>)
    ensures var k := FirstWhere(Take(lines, TitleLines), IsTitleLine);
      && (k < Min(TitleLines, |lines|) ==> r == (if TitleValue(lines[k]) == "" then None else Some(TitleValue(lines[k]))))
      && (k == Min(TitleLines, |lines|) && |lines| > 0 ==> r == Some(lines[0][..Min(MaxTitle, |lines[0]|)]))
      && (|lines| == 0 ==> r.None?)
  {
    var head := Take(lines, TitleLines);
    var k := FirstWhere(head, IsTitleLine);
    if k < |head| then
      var v := TitleValue(head[k]);
      if v == "" then None else Some(v)
    else if |lines| > 0 then Some(Take(lines[0], MaxTitle))
    else None
  }

  /** `guess_job_title`: a guessed title is never the empty string. */
  function GuessJobTitle(text: string): (r: Option<string>)
    ensures r.Some? ==> |r.value| > 0
  {
    PickTitle(NonBlankLines(text))
  }

  /** The loop of `guess_job_title` as written, returning from inside the loop. */
  method PickTitleLoop(lines: seq<string>) returns (r: Option<string>)
    ensures r == PickTitle(lines)
  {
    var head := Take(lines, TitleLines);
    var i := 0;
    while i < |head|
      invariant i <= |head|
      invariant forall j :: 0 <= j < i ==> !IsTitleLine(head[j])
    {
      var ln := head[i];
      if StartsWith(LowerStr(ln), "job title:") {
        var v := TitleValue(ln);
        assert FirstWhere(head, IsTitleLine) == i;
        return if v == "" then None else Some(v);
      }
      if StartsWith(LowerStr(ln), "titel:") {
        var v := TitleValue(ln);
        assert FirstWhere(head, IsTitleLine) == i;
        return if v == "" then None else Some(v);
      }
      i := i + 1;
    }
    if |lines| > 0 {
      return Some(Take(lines[0], MaxTitle));
    }
    return None;
  }

  /** A line `Job Title: <v>` is a title line with value `v`. */
  lemma TaggedLine(v: string)
    requires |v| > 0 && NoEdgeSpace(v)
    ensures IsTitleLine("Job Title: " + v) && TitleValue("Job Title: " + v) == v
  {
    var ln := "Job Title: " + v;
    assert LowerStr(ln)[..10] == "job title:";
    assert ln[10..] == [' '] + v;
    StripLeadingSpace(v);
  }

  /** A posting whose first non-blank line is `Job Title: <v>` has title `v`. */
  lemma TitleFromTaggedFirstLine(text: string, v: string)
    requires |v| > 0 && NoEdgeSpace(v)
    requires |NonBlankLines(text)| > 0 && NonBlankLines(text)[0] == "Job Title: " + v
    ensures GuessJobTitle(text) == Some(v)
  {
    var lines := NonBlankLines(text);
    TaggedLine(v);
    assert Take(lines, TitleLines)[0] == lines[0];
    assert FirstWhere(Take(lines, TitleLines), IsTitleLine) == 0;
  }

  /** One leading space is stripped from a piece without edge whitespace. */
  lemma StripLeadingSpace(v: string)
    requires |v| > 0 && NoEdgeSpace(v)
    ensures Strip([' '] + v) == v
  {
    var s := [' '] + v;
    var t := Strip(s);
    var o := StripOffset(s);
    assert s[1] == v[0] && s[|s| - 1] == v[|v| - 1];
    assert IsSpace(s[0]);
    assert o == 1;
    assert |t| == |v|;
    assert t == s[1..1 + |v|];
    assert s[1..1 + |v|] == v;
  }
}

=== FILE: matcher.dfy ===
/**
 The deterministic part of matching a resume to jobs: the evidence text and
 keywords of the retrieved jobs, and the repair of the report the language
 model returned (a stub when it is not JSON, provenance fields it did not set,
 and one entry per retrieved job in `best_job_matches`). The model call and
 the prompt are left out; the model's raw answer and the JSON parser are
 inputs.
 */
module Matcher {
  import opened Wrappers
  import opened Seqs
  import opened Strs
  import opened Json
  import opened Retrieve
  import opened Keywords
  import opened AtsScore
  import opened Llm

  /** `k=max(40, top_jobs * 12)`: how many chunks the search returns. */
  function SearchBreadth(topJobs: int): (k: int)
    ensures k >= 40 && k >= 12 * topJobs
    ensures k == 40 || k == 12 * topJobs
  {
    Max(40, topJobs * 12)
  }

  /** The evidence texts of the jobs, job after job, chunk after chunk. */
  function EvidenceTexts(jobs: seq<JobGroup>): seq<string> {
    if |jobs| == 0 then []
    else EvidenceTexts(jobs[..|jobs| - 1]) + seq(|jobs[|jobs| - 1].chunks|, i requires 0 <= i < |jobs[|jobs| - 1].chunks| => jobs[|jobs| - 1].chunks[i].text)
  }

  /** `"\n".join(c["text"] for j in jobs for c in j.get("chunks", []))`. */
  function EvidenceText(jobs: seq<JobGroup>): (r: string)
    ensures EvidenceTexts(jobs) == [] ==> r == ""
    ensures forall k :: 0 <= k < |EvidenceTexts(jobs)| ==> Contains(r, EvidenceTexts(jobs)[k])
  {
    JoinHasParts("\n", EvidenceTexts(jobs));
    Join("\n", EvidenceTexts(jobs))
  }

  /** The evidence of two lists of jobs is the evidence of the first followed by that of the second. */
  lemma {:induction false} EvidenceTextsAppend(a: seq<JobGroup>, b: seq<JobGroup>)
    ensures EvidenceTexts(a + b) == EvidenceTexts(a) + EvidenceTexts(b)
    decreases |b|
  {
    if |b| > 0 {
      var b' := b[..|b| - 1];
      assert (a + b)[..|a + b| - 1] == a + b';
      assert (a + b)[|a + b| - 1] == b[|b| - 1];
      EvidenceTextsAppend(a, b');
    } else {
      assert a + b == a;
    }
  }

  /** With at most `n` evidence chunks per job there are at most `n` texts per job. */
  lemma {:induction false} EvidenceTextsCount(jobs: seq<JobGroup>, n: nat)
    requires forall j :: 0 <= j < |jobs| ==> |jobs[j].chunks| <= n
    ensures |EvidenceTexts(jobs)| <= n * |jobs|
  {
    if |jobs| > 0 {
      var init := jobs[..|jobs| - 1];
      assert forall j :: 0 <= j < |init| ==> init[j] == jobs[j];
      EvidenceTextsCount(init, n);
    }
  }

  // ---------------------------------------------------------------------------
  // JSON forms of the retrieved jobs
  // ---------------------------------------------------------------------------

  function EvidenceJson(e: Evidence): Json {
    JObj([Field("text", JStr(e.text)), Field("score", JNum(e.score))])
  }

  /** A job result as the dict `group_by_job` builds. */
  function JobJson(g: JobGroup): Json {
    JObj([
      Field("job_file", JStr(g.jobFile)),
      Field("job_title", JStr(g.jobTitle)),
      Field("location", JStr(g.location)),
      Field("score", JNum(g.score)),
      Field("chunks", JArr(seq(|g.chunks|, i requires 0 <= i < |g.chunks| => EvidenceJson(g.chunks[i]))))
    ])
  }

  function JobsJson(jobs: seq<JobGroup>): Json {
    JArr(seq(|jobs|, i requires 0 <= i < |jobs| => JobJson(jobs[i])))
  }

  function StringsJson(ss: seq<string>): Json {
    JArr(seq(|ss|, i requires 0 <= i < |ss| => JStr(ss[i])))
  }

  /** `[j.get("job_file") for j in jobs]`. */
  function JobFilesJson(jobs: seq<JobGroup>): Json {
    JArr(seq(|jobs|, i requires 0 <= i < |jobs| => JStr(jobs[i].jobFile)))
  }

  // ---------------------------------------------------------------------------
  // The report stub and the provenance fields
  // ---------------------------------------------------------------------------

  const MatchesKey: string := "best_job_matches"
  const SummaryKey: string := "overall_summary"
  const RawKey: string := "raw_output"
  const NoJsonSummary: string := "Model did not return valid JSON. See raw_output."
  /** The longest prefix of the raw answer kept in the stub. */
  const MaxRawOutput: nat := 4000

  /** The report used when the model's answer does not parse. */
  function Stub(raw: string): (fs: seq<Field>)
    ensures Keys(fs) == [SummaryKey, MatchesKey, RawKey] && UniqueKeys(fs)
    ensures Lookup(fs, MatchesKey) == Some(JArr([]))
    ensures Lookup(fs, SummaryKey) == Some(JStr(NoJsonSummary))
    ensures Lookup(fs, RawKey) == Some(JStr(raw[..Min(MaxRawOutput, |raw|)]))
  {
    var fs := [
      Field(SummaryKey, JStr(NoJsonSummary)),
      Field(MatchesKey, JArr([])),
      Field(RawKey, JStr(Take(raw, MaxRawOutput)))
    ];
    LookupFirst(fs, 0);
    LookupFirst(fs, 1);
    LookupFirst(fs, 2);
    fs
  }

  /** What the pipeline computed, attached to the report for transparency. */
  datatype Provenance = Provenance(coverage: real, keywords: seq<string>, jobs: seq<JobGroup>, filter: string)

  const CoverageKey: string := "keyword_coverage_percent"
  const KeywordsKey: string := "retrieved_job_keywords"
  const JobsKey: string := "retrieved_jobs"
  const FilesKey: string := "retrieved_job_files"
  const FilterKey: string := "location_filter"

  /** One of the five keys the provenance fields are stored under. */
  predicate IsProvenanceKey(k: string) {
    k == CoverageKey || k == KeywordsKey || k == JobsKey || k == FilesKey || k == FilterKey
  }

  /** The value `d.setdefault(k, v)` leaves under `k`: the old one if there was one, else `v`. */
  function Defaulted(fs: seq<Field>, k: string, v: Json): Json {
    if k in Keys(fs) then Lookup(fs, k).value else v
  }

  /** The report `r` holds the provenance fields of `p`, except where the model's fields `fs` already set them. */
  predicate HasProvenance(r: seq<Field>, fs: seq<Field>, p: Provenance) {
    && Lookup(r, CoverageKey) == Some(Defaulted(fs, CoverageKey, JNum(p.coverage)))
    && Lookup(r, KeywordsKey) == Some(Defaulted(fs, KeywordsKey, StringsJson(p.keywords)))
    && Lookup(r, JobsKey) == Some(Defaulted(fs, JobsKey, JobsJson(p.jobs)))
    && Lookup(r, FilesKey) == Some(Defaulted(fs, FilesKey, JobFilesJson(p.jobs)))
    && Lookup(r, FilterKey) == Some(Defaulted(fs, FilterKey, JStr(p.filter)))
  }

  /** The provenance fields with their computed values, in the order the source sets them. */
  function ProvenanceDefaults(p: Provenance): (ds: seq<Field>)
    ensures forall k :: !IsProvenanceKey(k) ==> k !in Keys(ds)
  {
    var ds := [
      Field(CoverageKey, JNum(p.coverage)),
      Field(KeywordsKey, StringsJson(p.keywords)),
      Field(JobsKey, JobsJson(p.jobs)),
      Field(FilesKey, JobFilesJson(p.jobs)),
      Field(FilterKey, JStr(p.filter))
    ];
    forall k | !IsProvenanceKey(k)
      ensures k !in Keys(ds)
    {
      assert forall i :: 0 <= i < |ds| ==> ds[i].key != k;
    }
    ds
  }

  /** Each provenance key carries its computed value. */
  lemma ProvenanceDefaultValues(p: Provenance)
    ensures var ds := ProvenanceDefaults(p);
      && Lookup(ds, CoverageKey) == Some(JNum(p.coverage))
      && Lookup(ds, KeywordsKey) == Some(StringsJson(p.keywords))
      && Lookup(ds, JobsKey) == Some(JobsJson(p.jobs))
      && Lookup(ds, FilesKey) == Some(JobFilesJson(p.jobs))
      && Lookup(ds, FilterKey) == Some(JStr(p.filter))
  {
    var ds := ProvenanceDefaults(p);
    assert UniqueKeys(ds);
    LookupUnique(ds, 0);
    LookupUnique(ds, 1);
    LookupUnique(ds, 2);
    LookupUnique(ds, 3);
    LookupUnique(ds, 4);
  }

  /** The five `data.setdefault(...)` calls. */
  function AttachProvenance(fs: seq<Field>, p: Provenance): (r: seq<Field>)
    ensures HasProvenance(r, fs, p)
    ensures forall k :: !IsProvenanceKey(k) ==> Lookup(r, k) == Lookup(fs, k)
    ensures UniqueKeys(fs) ==> UniqueKeys(r)
  {
    ProvenanceDefaultValues(p);
    SetDefaults(fs, ProvenanceDefaults(p))
  }

  // ---------------------------------------------------------------------------
  // best_job_matches: backfill and padding
  // ---------------------------------------------------------------------------

  /** `item.setdefault("job_file", ...)` and `item.setdefault("job_title", ...)` for the item of job `g`. */
  function Backfill(fs: seq<Field>, g: JobGroup): (r: seq<Field>)
    ensures Backfilled(r, fs, g)
  {
    var withFile := SetDefault(fs, "job_file", JStr(g.jobFile));
    assert "job_title" != "job_file";
    assert Lookup(withFile, "job_title") == Lookup(fs, "job_title");
    SetDefault(withFile, "job_title", JStr(g.jobTitle))
  }

  /**
   The entry `r` is the entry `fs` after the two `setdefault` calls with job
   `g`: its own `job_file` and `job_title` kept, the job's where missing,
   every other field untouched, and keys unique when they were.
   */
  ghost predicate Backfilled(r: seq<Field>, fs: seq<Field>, g: JobGroup) {
    && (UniqueKeys(fs) ==> UniqueKeys(r))
    && Lookup(r, "job_file") == Some(if "job_file" in Keys(fs) then Lookup(fs, "job_file").value else JStr(g.jobFile))
    && Lookup(r, "job_title") == Some(if "job_title" in Keys(fs) then Lookup(fs, "job_title").value else JStr(g.jobTitle))
    && forall k :: k != "job_file" && k != "job_title" ==> Lookup(r, k) == Lookup(fs, k)
  }

  /**
   The loop over `best_job_matches`: an object entry with a job at its position
   is backfilled from that job; any other entry, and every entry past the
   last job, stays as it is.
   */
  function BackfillAll(items: seq<Json>, jobs: seq<JobGroup>): (r: seq<Json>)
    ensures |r| == |items|
    ensures forall i :: 0 <= i < |items| && i < |jobs| && items[i].JObj? ==>
      r[i].JObj? && Backfilled(r[i].fields, items[i].fields, jobs[i])
    ensures forall i :: 0 <= i < |items| && !(i < |jobs| && items[i].JObj?) ==> r[i] == items[i]
  {
    seq(|items|, i requires 0 <= i < |items| =>
      if i < |jobs| && items[i].JObj? then JObj(Backfill(items[i].fields, jobs[i])) else items[i])
  }

  const InsufficientOutput: string := "Model returned insufficient structured output for this job."

  /** The lists of a placeholder entry: one reason, no gaps, keywords or suggestions. */
  const PlaceholderLists: seq<Field> := [
    Field("why_match", JArr([JStr(InsufficientOutput)])),
    Field("skill_gaps", JArr([])),
    Field("missing_keywords", JArr([])),
    Field("tailored_cv_suggestions", JArr([]))
  ]

  /** The placeholder entry for a job the model did not report on. */
  function Placeholder(g: JobGroup): (r: Json)
    ensures r.JObj?
    ensures Lookup(r.fields, "job_file") == Some(JStr(g.jobFile))
    ensures Lookup(r.fields, "job_title") == Some(JStr(g.jobTitle))
    ensures Lookup(r.fields, "match_score") == Some(JNum(0.0))
    ensures Lookup(r.fields, "why_match") == Some(JArr([JStr(InsufficientOutput)]))
    ensures Lookup(r.fields, "skill_gaps") == Some(JArr([]))
    ensures Lookup(r.fields, "missing_keywords") == Some(JArr([]))
    ensures Lookup(r.fields, "tailored_cv_suggestions") == Some(JArr([]))
  {
    var head := [
      Field("job_file", JStr(g.jobFile)),
      Field("job_title", JStr(g.jobTitle)),
      Field("match_score", JNum(0.0))
    ];
    var fs := head + PlaceholderLists;
    LookupFirst(fs, 0);
    LookupFirst(fs, 1);
    LookupFirst(fs, 2);
    PlaceholderListsLookup(g);
    JObj(fs)
  }

  /** The four list fields of a placeholder, found past its three scalar fields. */
  lemma PlaceholderListsLookup(g: JobGroup)
    ensures var fs := [Field("job_file", JStr(g.jobFile)), Field("job_title", JStr(g.jobTitle)), Field("match_score", JNum(0.0))] + PlaceholderLists;
      && Lookup(fs, "why_match") == Some(JArr([JStr(InsufficientOutput)]))
      && Lookup(fs, "skill_gaps") == Some(JArr([]))
      && Lookup(fs, "missing_keywords") == Some(JArr([]))
      && Lookup(fs, "tailored_cv_suggestions") == Some(JArr([]))
  {
    var head := [Field("job_file", JStr(g.jobFile)), Field("job_title", JStr(g.jobTitle)), Field("match_score", JNum(0.0))];
    var ls := PlaceholderLists;
    PlaceholderListsOwn();
    HeadKeysAbsent(head);
    LookupSkip(head, ls, "why_match");
    LookupSkip(head, ls, "skill_gaps");
    LookupSkip(head, ls, "missing_keywords");
    LookupSkip(head, ls, "tailored_cv_suggestions");
  }

  /** The list fields' keys are none of the scalar fields' keys. */
  lemma HeadKeysAbsent(head: seq<Field>)
    requires |head| == 3 && head[0].key == "job_file" && head[1].key == "job_title" && head[2].key == "match_score"
    ensures "why_match" !in Keys(head) && "skill_gaps" !in Keys(head)
    ensures "missing_keywords" !in Keys(head) && "tailored_cv_suggestions" !in Keys(head)
  {
    assert |"job_file"| == 8 && |"job_title"| == 9 && |"match_score"| == 11;
    assert |"why_match"| == 9 && |"skill_gaps"| == 10 && |"missing_keywords"| == 16 && |"tailored_cv_suggestions"| == 23;
    assert "why_match"[0] != "job_title"[0];
  }

  /** Lookups in the list fields alone. */
  lemma PlaceholderListsOwn()
    ensures Lookup(PlaceholderLists, "why_match") == Some(JArr([JStr(InsufficientOutput)]))
    ensures Lookup(PlaceholderLists, "skill_gaps") == Some(JArr([]))
    ensures Lookup(PlaceholderLists, "missing_keywords") == Some(JArr([]))
    ensures Lookup(PlaceholderLists, "tailored_cv_suggestions") == Some(JArr([]))
  {
    var ls := PlaceholderLists;
    assert |"why_match"| == 9 && |"skill_gaps"| == 10 && |"missing_keywords"| == 16 && |"tailored_cv_suggestions"| == 23;
    assert Lookup(ls[1..], "skill_gaps") == Some(JArr([]));
    assert Lookup(ls[2..], "missing_keywords") == Some(JArr([]));
    assert Lookup(ls[1..], "missing_keywords") == Some(JArr([]));
    assert ls[3..] == [Field("tailored_cv_suggestions", JArr([]))];
    assert Lookup(ls[3..], "tailored_cv_suggestions") == Some(JArr([]));
    assert Lookup(ls[2..], "tailored_cv_suggestions") == Some(JArr([]));
    assert Lookup(ls[1..], "tailored_cv_suggestions") == Some(JArr([]));
  }

  /** One placeholder per job. */
  function Placeholders(jobs: seq<JobGroup>): (r: seq<Json>)
    ensures |r| == |jobs|
    ensures forall i :: 0 <= i < |jobs| ==> r[i] == Placeholder(jobs[i])
  {
    seq(|jobs|, i requires 0 <= i < |jobs| => Placeholder(jobs[i]))
  }

  /** The backfilled items, padded with placeholders up to one per job. */
  function PadMatches(items: seq<Json>, jobs: seq<JobGroup>): (r: seq<Json>)
    ensures |r| == Max(|items|, |jobs|)
    ensures r[..|items|] == BackfillAll(items, jobs)
    ensures forall i :: |items| <= i < |r| ==> r[i] == Placeholder(jobs[i])
  {
    var done := BackfillAll(items, jobs);
    if |items| < |jobs| then
      var pad := Placeholders(jobs[|items|..]);
      assert forall i :: |items| <= i < |jobs| ==> (done + pad)[i] == pad[i - |items|];
      done + pad
    else done
  }

  /** `"best_job_matches" in data and isinstance(data["best_job_matches"], list)`. */
  predicate MatchesList(fs: seq<Field>) {
    Lookup(fs, MatchesKey).Some? && Lookup(fs, MatchesKey).value.JArr?
  }

  /** An empty list of matches becomes one placeholder per job. */
  lemma PadNothing(jobs: seq<JobGroup>)
    ensures PadMatches([], jobs) == Placeholders(jobs)
  {
    if |jobs| > 0 {
      assert BackfillAll([], jobs) == [];
      assert jobs[0..] == jobs;
    }
  }

  /** The `best_job_matches` step on an object report. */
  function FixMatches(fs: seq<Field>, jobs: seq<JobGroup>): (r: seq<Field>)
    ensures Keys(r) == Keys(fs) && (UniqueKeys(fs) ==> UniqueKeys(r))
    ensures forall k :: k != MatchesKey ==> Lookup(r, k) == Lookup(fs, k)
    ensures MatchesList(fs) ==> Lookup(r, MatchesKey) == Some(JArr(PadMatches(Lookup(fs, MatchesKey).value.items, jobs)))
    ensures !MatchesList(fs) ==> r == fs
  {
    if MatchesList(fs) then
      var r := Replace(fs, MatchesKey, JArr(PadMatches(Lookup(fs, MatchesKey).value.items, jobs)));
      SameKeysUnique(fs, r);
      r
    else fs
  }

  /**
   The repair block of `match_resume_to_jobs`: `parsed` is the parser's answer
   (`None` when it raised). An object gets the provenance fields it lacks and
   its list of matches fixed; anything else is returned as it is.
   */
  function Repair(parsed: Option<Json>, raw: string, p: Provenance): (r: Json)
    ensures r.JObj? <==> parsed.None? || parsed.value.JObj?
    ensures parsed.Some? && !parsed.value.JObj? ==> r == parsed.value
  {
    var data := if parsed.None? then JObj(Stub(raw)) else parsed.value;
    if data.JObj? then JObj(FixMatches(AttachProvenance(data.fields, p), p.jobs))
    else data
  }

  // ---------------------------------------------------------------------------
  // Properties of the repair
  // ---------------------------------------------------------------------------

  /** A parsed value that is not an object passes through untouched. */
  lemma RepairNonObject(v: Json, raw: string, p: Provenance)
    requires !v.JObj?
    ensures Repair(Some(v), raw, p) == v
  {
  }

  /**
   An object report keeps every field the model set, gains the provenance
   fields it lacked, and stays a dict with unique keys; only the list of
   matches may change.
   */
  lemma RepairKeepsModelFields(fs: seq<Field>, raw: string, p: Provenance)
    ensures var r := Repair(Some(JObj(fs)), raw, p);
      && r.JObj?
      && (UniqueKeys(fs) ==> UniqueKeys(r.fields))
      && HasProvenance(r.fields, fs, p)
      && (forall k :: !IsProvenanceKey(k) && k != MatchesKey ==> Lookup(r.fields, k) == Lookup(fs, k))
  {
    var fs1 := AttachProvenance(fs, p);
    assert !IsProvenanceKey(MatchesKey);
  }

  /**
   When the model's list of matches is a list, the report lists at least one
   entry per retrieved job: its own entries first (backfilled), then
   placeholders for the jobs it did not cover.
   */
  lemma RepairPadsMatches(fs: seq<Field>, items: seq<Json>, raw: string, p: Provenance)
    requires Lookup(fs, MatchesKey) == Some(JArr(items))
    ensures var r := Repair(Some(JObj(fs)), raw, p);
      && r.JObj?
      && Lookup(r.fields, MatchesKey) == Some(JArr(PadMatches(items, p.jobs)))
  {
    var fs1 := AttachProvenance(fs, p);
    assert !IsProvenanceKey(MatchesKey);
    assert Lookup(fs1, MatchesKey) == Some(JArr(items));
    assert MatchesList(fs1);
    assert Repair(Some(JObj(fs)), raw, p) == JObj(FixMatches(fs1, p.jobs));
  }

  /** A missing `best_job_matches`, or one that is not a list, is left as it is. */
  lemma RepairLeavesOtherMatches(fs: seq<Field>, raw: string, p: Provenance)
    requires !MatchesList(fs)
    ensures var r := Repair(Some(JObj(fs)), raw, p);
      && r.JObj?
      && Lookup(r.fields, MatchesKey) == Lookup(fs, MatchesKey)
  {
    var fs1 := AttachProvenance(fs, p);
    assert !IsProvenanceKey(MatchesKey);
    assert Lookup(fs1, MatchesKey) == Lookup(fs, MatchesKey);
  }

  /**
   When the answer does not parse, the report is the stub with every
   provenance field set to the computed value and one placeholder per
   retrieved job; the raw answer is kept up to 4000 characters.
   */
  lemma RepairParseFailure(raw: string, p: Provenance)
    ensures var r := Repair(None, raw, p);
      && r.JObj? && UniqueKeys(r.fields)
      && Lookup(r.fields, SummaryKey) == Some(JStr(NoJsonSummary))
      && Lookup(r.fields, RawKey) == Some(JStr(raw[..Min(MaxRawOutput, |raw|)]))
      && HasProvenance(r.fields, [], p)
      && Lookup(r.fields, MatchesKey) == Some(JArr(Placeholders(p.jobs)))
  {
    var stub := Stub(raw);
    var r := Repair(Some(JObj(stub)), raw, p);
    assert Repair(None, raw, p) == r;
    RepairKeepsModelFields(stub, raw, p);
    RepairPadsMatches(stub, [], raw, p);
    PadNothing(p.jobs);
    StubKeys(raw);
    FreshProvenance(r.fields, stub, p);
  }

  /** The stub sets none of the provenance keys. */
  lemma StubKeys(raw: string)
    ensures forall i :: 0 <= i < |Stub(raw)| ==> !IsProvenanceKey(Stub(raw)[i].key)
    ensures !IsProvenanceKey(SummaryKey) && !IsProvenanceKey(RawKey)
  {
    var ks := Keys(Stub(raw));
    assert forall i :: 0 <= i < |ks| ==> ks[i] == Stub(raw)[i].key;
  }

  /** Over a report without provenance keys, the defaults are what gets attached. */
  lemma FreshProvenance(r: seq<Field>, fs: seq<Field>, p: Provenance)
    requires HasProvenance(r, fs, p)
    requires forall i :: 0 <= i < |fs| ==> !IsProvenanceKey(fs[i].key)
    ensures HasProvenance(r, [], p)
  {
    forall k | IsProvenanceKey(k)
      ensures k !in Keys(fs)
    {
      assert forall i :: 0 <= i < |fs| ==> Keys(fs)[i] != k;
    }
  }

  /** A model entry for a retrieved job keeps its own file and title, and gets the job's when it had none. */
  lemma BackfillEntry(items: seq<Json>, jobs: seq<JobGroup>, i: nat)
    requires i < |items| && i < |jobs| && items[i].JObj?
    ensures var e := PadMatches(items, jobs)[i];
      && e.JObj?
      && Lookup(e.fields, "job_file") == Some(if "job_file" in Keys(items[i].fields) then Lookup(items[i].fields, "job_file").value else JStr(jobs[i].jobFile))
      && Lookup(e.fields, "job_title") == Some(if "job_title" in Keys(items[i].fields) then Lookup(items[i].fields, "job_title").value else JStr(jobs[i].jobTitle))
  {
    var r := PadMatches(items, jobs);
    assert r[i] == r[..|items|][i] == BackfillAll(items, jobs)[i];
    assert Backfilled(r[i].fields, items[i].fields, jobs[i]);
  }

  // ---------------------------------------------------------------------------
  // The deterministic pipeline
  // ---------------------------------------------------------------------------

  /**
   `match_resume_to_jobs` after the vector search and the model call: group the
   hits, extract the keywords of the evidence, score the resume, and repair the
   model's answer `raw` parsed by `parse`. `hits` are the vector search's
   results for the whole resume text, at most `SearchBreadth(topJobs)` of
   them; the search itself is a parameter of the model.
   */
  function MatchResumeToJobs(resume: string, hits: seq<Hit>, topJobs: int, filter: string,
                             raw: string, parse: string -> Option<Json>): (r: Json)
    ensures var parsed := SafeJsonLoads(raw, parse);
      (parsed.None? || parsed.value.JObj?) ==> r.JObj?
  {
    var jobs := GroupByJob(hits, topJobs, filter);
    var keywords := SimpleKeywords(EvidenceText(jobs));
    var coverage := KeywordCoverage(resume, keywords);
    Repair(SafeJsonLoads(raw, parse), raw, Provenance(coverage, keywords, jobs, filter))
  }

  /**
   When the answer does not parse, the report carries the coverage of the
   resume against the evidence keywords, a percentage between 0 and 100, and
   the files of the retrieved jobs.
   */
  lemma PipelineParseFailure(resume: string, hits: seq<Hit>, topJobs: int, filter: string,
                             raw: string, parse: string -> Option<Json>)
    requires SafeJsonLoads(raw, parse).None?
    ensures var r := MatchResumeToJobs(resume, hits, topJobs, filter, raw, parse);
      var jobs := GroupByJob(hits, topJobs, filter);
      var c := KeywordCoverage(resume, SimpleKeywords(EvidenceText(jobs)));
      && r.JObj?
      && 0.0 <= c <= 100.0
      && Lookup(r.fields, CoverageKey) == Some(JNum(c))
      && Lookup(r.fields, FilesKey) == Some(JobFilesJson(jobs))
  {
    var jobs := GroupByJob(hits, topJobs, filter);
    var keywords := SimpleKeywords(EvidenceText(jobs));
    RepairParseFailure(raw, Provenance(KeywordCoverage(resume, keywords), keywords, jobs, filter));
  }
}

=== FILE: resume_extract.dfy ===
/**
 A compact search query built from a resume: the lines that look like skills,
 experience or education, or the first 30 lines when those are too few,
 joined into one single-spaced line and cut to a maximum length. The matcher
 does not use it: `match_resume_to_jobs` searches with the whole resume text.
 */
module ResumeExtract {
  import opened Chars
  import opened Seqs
  import opened Strs
  import opened TextUtils

  /** `SECTION_HINTS`: words of section headings, in English and German. */
  const SectionHints: seq<string> := [
    "skills", "technical skills", "kompetenzen", "kenntnisse",
    "experience", "professional experience", "berufserfahrung",
    "projects", "projekte", "education", "ausbildung", "zertifikate", "certifications"
  ]

  /** The longest line kept for its commas or hyphens. */
  const MaxListLine: nat := 160
  /** Kept lines shorter than this in total, joined, give way to the first lines. */
  const MinKeptLength: nat := 400
  /** How many leading lines the fallback takes. */
  const FallbackLines: nat := 30

  /** The lower case of the line contains a section hint. */
  predicate HasHint(ln: string) {
    exists i :: 0 <= i < |SectionHints| && Contains(LowerStr(ln), SectionHints[i])
  }

  /** A line the query keeps: it names a section, or it is a short list (commas or hyphens). */
  predicate IsSignal(ln: string) {
    HasHint(ln) || ((',' in ln || '-' in ln) && |ln| <= MaxListLine)
  }

  /** The stripped non-blank lines of the cleaned resume. */
  function ResumeLines(resume: string): (lines: seq<string>)
    ensures forall i :: 0 <= i < |lines| ==> |lines[i]| > 0 && NoEdgeSpace(lines[i])
  {
    NonBlankLines(CleanText(resume))
  }

  /**
   The lines the query is made of: the signal lines, unless joined they are
   shorter than 400 characters, in which case the first 30 lines.
   */
  function QueryLines(lines: seq<string>): (r: seq<string>)
    ensures Subseq(r, lines)
    ensures |Join(" ", Filter(lines, IsSignal))| >= MinKeptLength ==>
      && (forall i :: 0 <= i < |r| ==> IsSignal(r[i]))
      && (forall i :: 0 <= i < |lines| && IsSignal(lines[i]) ==> lines[i] in r)
      && r == Filter(lines, IsSignal)
    ensures |Join(" ", Filter(lines, IsSignal))| < MinKeptLength ==> r == lines[..Min(FallbackLines, |lines|)]
  {
    var keep := Filter(lines, IsSignal);
    if |Join(" ", keep)| < MinKeptLength then
      PrefixIsSubseq(lines, Min(FallbackLines, |lines|));
      Take(lines, FallbackLines)
    else
      FilterIsSubseq(lines, IsSignal);
      keep
  }

  /** Every whitespace character is a plain space, and no two whitespace characters are adjacent. */
  predicate SingleSpaced(s: string) {
    && (forall i :: 0 <= i < |s| && IsSpace(s[i]) ==> s[i] == ' ')
    && (forall i :: 0 <= i < |s| - 1 ==> !(IsSpace(s[i]) && IsSpace(s[i + 1])))
  }

  /** A slice of a single-spaced string is single-spaced. */
  lemma SingleSpacedSlice(s: string, a: nat, b: nat)
    requires SingleSpaced(s) && a <= b <= |s|
    ensures SingleSpaced(s[a..b])
  {
    var t := s[a..b];
    assert forall i :: 0 <= i < |t| ==> t[i] == s[a + i];
  }

  /** A single-spaced string holds no line break and no tab. */
  lemma SingleSpacedOneLine(s: string)
    requires SingleSpaced(s)
    ensures forall i :: 0 <= i < |s| ==> !IsLineBreak(s[i]) && s[i] != '\t'
  {
    forall i | 0 <= i < |s|
      ensures !IsLineBreak(s[i]) && s[i] != '\t'
    {
      if IsLineBreak(s[i]) || s[i] == '\t' {
        assert IsSpace(s[i]);
      }
    }
  }

  /** Collapsing whitespace runs to one space gives a single-spaced string. */
  lemma CollapsedSingleSpaced(s: string)
    ensures SingleSpaced(CollapseRuns(s, IsSpace))
  {
  }

  /** Stripping a single-spaced string keeps it single-spaced. */
  lemma StripSingleSpaced(s: string)
    requires SingleSpaced(s)
    ensures SingleSpaced(Strip(s))
  {
    SingleSpacedSlice(s, StripOffset(s), StripOffset(s) + |Strip(s)|);
  }

  /** `re.sub(r"\s+", " ", " ".join(lines)).strip()`. */
  function Compact(lines: seq<string>): (q: string)
    ensures SingleSpaced(q) && NoEdgeSpace(q)
  {
    CollapsedSingleSpaced(Join(" ", lines));
    StripSingleSpaced(CollapseRuns(Join(" ", lines), IsSpace));
    Strip(CollapseRuns(Join(" ", lines), IsSpace))
  }

  /** The query before the length cut. */
  function CompactQuery(lines: seq<string>): (q: string)
    ensures SingleSpaced(q) && NoEdgeSpace(q)
  {
    Compact(QueryLines(lines))
  }

  /**
   `extract_resume_query`: the single-spaced query of the resume's lines, cut
   to at most `maxChars` characters.
   */
  function ExtractResumeQuery(resume: string, maxChars: nat): (r: string)
    ensures |r| == Min(maxChars, |CompactQuery(ResumeLines(resume))|)
    ensures r == CompactQuery(ResumeLines(resume))[..|r|]
    ensures SingleSpaced(r)
  {
    Cut(CompactQuery(ResumeLines(resume)), maxChars)
  }

  /** `q[:maxChars]`: a prefix of at most `maxChars` characters, single-spaced when `q` is. */
  function Cut(q: string, maxChars: nat): (r: string)
    ensures |r| == Min(maxChars, |q|) && r == q[..|r|]
    ensures SingleSpaced(q) ==> SingleSpaced(r)
  {
    if SingleSpaced(q) then SingleSpacedSlice(q, 0, Min(maxChars, |q|)); Take(q, maxChars)
    else Take(q, maxChars)
  }

  /** An empty resume gives the empty query. */
  lemma EmptyResume(maxChars: nat)
    ensures ExtractResumeQuery("", maxChars) == ""
  {
    assert CleanText("") == "";
    assert ResumeLines("") == [];
    assert QueryLines([]) == [];
    assert Compact([]) == "";
  }

  /**
   Lines that are already single-spaced and stripped pass through the
   whitespace collapse unchanged: the query is the chosen lines joined by
   single spaces.
   */
  lemma CompactOfSingleSpaced(lines: seq<string>)
    requires forall i :: 0 <= i < |lines| ==> |lines[i]| > 0 && NoEdgeSpace(lines[i]) && SingleSpaced(lines[i])
    ensures CompactQuery(lines) == Join(" ", QueryLines(lines))
  {
    var ql := QueryLines(lines);
    SubseqElements(ql, lines);
    JoinSingleSpaced(ql);
    var j := Join(" ", ql);
    CollapseRunsFixed(j, IsSpace);
    StripStripped(j);
  }

  /** Every element of a subsequence is an element of the whole. */
  lemma {:induction false} SubseqElements<T>(a: seq<T>, b: seq<T>)
    requires Subseq(a, b)
    ensures forall i :: 0 <= i < |a| ==> a[i] in b
    decreases |b|
  {
    if |a| > 0 {
      if a[0] == b[0] {
        SubseqElements(a[1..], b[1..]);
        assert forall i :: 1 <= i < |a| ==> a[i] == a[1..][i - 1];
      } else {
        SubseqElements(a, b[1..]);
      }
    }
  }

  /** Joining stripped, non-empty, single-spaced lines with one space gives a stripped single-spaced line. */
  lemma {:induction false} JoinSingleSpaced(parts: seq<string>)
    requires forall i :: 0 <= i < |parts| ==> |parts[i]| > 0 && NoEdgeSpace(parts[i]) && SingleSpaced(parts[i])
    ensures SingleSpaced(Join(" ", parts)) && NoEdgeSpace(Join(" ", parts))
    ensures |parts| > 0 ==> |Join(" ", parts)| > 0 && Join(" ", parts)[0] == parts[0][0]
    decreases |parts|
  {
    if |parts| > 1 {
      var rest := parts[1..];
      JoinSingleSpaced(rest);
      var a, b := parts[0], Join(" ", rest);
      var j := a + " " + b;
      assert Join(" ", parts) == j;
      assert b[0] == rest[0][0] && !IsSpace(b[0]);
      assert !IsSpace(a[|a| - 1]);
      forall i | 0 <= i < |j| && IsSpace(j[i])
        ensures j[i] == ' '
      {
        if i < |a| {
          assert j[i] == a[i];
        } else if i > |a| {
          assert j[i] == b[i - |a| - 1];
        }
      }
      forall i | 0 <= i < |j| - 1
        ensures !(IsSpace(j[i]) && IsSpace(j[i + 1]))
      {
        if i + 1 < |a| {
          assert j[i] == a[i] && j[i + 1] == a[i + 1];
        } else if i + 1 == |a| {
          assert j[i] == a[|a| - 1];
        } else if i == |a| {
          assert j[i + 1] == b[0];
        } else {
          assert j[i] == b[i - |a| - 1] && j[i + 1] == b[i - |a|];
        }
      }
    }
  }
}

=== FILE: retrieve.dfy ===
/**
 Retrieval: the nearest-neighbour hits of a query become chunk hits, and the
 hits are grouped into job-level results. The vector search itself is left
 out: its answer (scores and chunk ids, best first) is an input.
 */
module Retrieve {
  import opened Wrappers
  import opened Seqs
  import opened Strs
  import opened IndexJobs
  import Chars

  /** A chunk's metadata with the similarity score of the search. */
  datatype Hit = Hit(meta: ChunkMeta, score: real)

  // ---------------------------------------------------------------------------
  // search_chunks
  // ---------------------------------------------------------------------------

  /** `zip(scores, ids)`: pairs up to the shorter list. */
  function Zip(scores: seq<real>, ids: seq<int>): (ps: seq<(real, int)>)
    ensures |ps| == Min(|scores|, |ids|)
    ensures forall j :: 0 <= j < |ps| ==> ps[j] == (scores[j], ids[j])
  {
    seq(Min(|scores|, |ids|), j requires 0 <= j < Min(|scores|, |ids|) => (scores[j], ids[j]))
  }

  /** The search pads missing neighbours with id -1; those pairs are skipped. */
  predicate KeptId(p: (real, int)) {
    p.1 >= 0
  }

  /**
   The loop of `search_chunks`: every pair with a non-negative id becomes the
   hit of that chunk's metadata with the pair's score, in order; an id past
   the end of the metadata is an `IndexError`, here `None`.
   */
  function CollectHits(ps: seq<(real, int)>, metas: seq<ChunkMeta>): (r: Option<seq<Hit>>)
    ensures r.None? <==> exists j :: 0 <= j < |ps| && ps[j].1 >= |metas|
    decreases |ps|
  {
    if |ps| == 0 then Some([])
    else
      var rest := CollectHits(ps[1..], metas);
      assert forall j :: 1 <= j < |ps| ==> ps[j] == ps[1..][j - 1];
      if ps[0].1 < 0 then rest
      else if ps[0].1 >= |metas| then None
      else if rest.None? then None
      else Some([Hit(metas[ps[0].1], ps[0].0)] + rest.value)
  }

  /** A successful search holds, in order, one hit per kept pair: that chunk's metadata with the pair's score. */
  lemma {:induction false} CollectedHits(ps: seq<(real, int)>, metas: seq<ChunkMeta>)
    requires CollectHits(ps, metas).Some?
    ensures var r, kept := CollectHits(ps, metas).value, Filter(ps, KeptId);
      && |r| == |kept|
      && forall k :: 0 <= k < |kept| ==> 0 <= kept[k].1 < |metas| && r[k] == Hit(metas[kept[k].1], kept[k].0)
    decreases |ps|
  {
    if |ps| > 0 {
      CollectedHits(ps[1..], metas);
      var rest, kept := CollectHits(ps[1..], metas).value, Filter(ps[1..], KeptId);
      if ps[0].1 >= 0 {
        var h := Hit(metas[ps[0].1], ps[0].0);
        assert Filter(ps, KeptId) == [ps[0]] + kept;
        assert CollectHits(ps, metas).value == [h] + rest;
        HitsCons(ps[0], kept, h, rest, metas);
      }
    }
  }

  /** Putting a valid pair and its hit in front of matching lists keeps them matching. */
  lemma HitsCons(p: (real, int), kept: seq<(real, int)>, h: Hit, rest: seq<Hit>, metas: seq<ChunkMeta>)
    requires 0 <= p.1 < |metas| && h == Hit(metas[p.1], p.0) && |rest| == |kept|
    requires forall k :: 0 <= k < |kept| ==> 0 <= kept[k].1 < |metas| && rest[k] == Hit(metas[kept[k].1], kept[k].0)
    ensures var ps, r := [p] + kept, [h] + rest;
      forall k :: 0 <= k < |ps| ==> 0 <= ps[k].1 < |metas| && r[k] == Hit(metas[ps[k].1], ps[k].0)
  {
    var ps, r := [p] + kept, [h] + rest;
    forall k | 1 <= k < |ps|
      ensures 0 <= ps[k].1 < |metas| && r[k] == Hit(metas[ps[k].1], ps[k].0)
    {
      assert ps[k] == kept[k - 1] && r[k] == rest[k - 1];
    }
  }

  /** `search_chunks` once the vector search has answered with `scores` and `ids`. */
  function SearchChunks(scores: seq<real>, ids: seq<int>, metas: seq<ChunkMeta>): (r: Option<seq<Hit>>)
    ensures r.None? <==> exists j :: 0 <= j < Min(|scores|, |ids|) && ids[j] >= |metas|
    ensures r.Some? ==>
      var kept := Filter(Zip(scores, ids), KeptId);
      && |r.value| == |kept|
      && forall k :: 0 <= k < |kept| ==> 0 <= kept[k].1 < |metas| && r.value[k] == Hit(metas[kept[k].1], kept[k].0)
  {
    var ps := Zip(scores, ids);
    if CollectHits(ps, metas).Some? then
      CollectedHits(ps, metas);
      CollectHits(ps, metas)
    else
      CollectHits(ps, metas)
  }

  /** With every id a valid chunk id, the search yields one hit per pair, in order. */
  lemma SearchAllValid(scores: seq<real>, ids: seq<int>, metas: seq<ChunkMeta>)
    requires forall j :: 0 <= j < |ids| ==> 0 <= ids[j] < |metas|
    ensures var r := SearchChunks(scores, ids, metas);
      && r.Some? && |r.value| == Min(|scores|, |ids|)
      && forall j :: 0 <= j < |r.value| ==> r.value[j] == Hit(metas[ids[j]], scores[j])
  {
    var ps := Zip(scores, ids);
    CollectedHits(ps, metas);
    FilterAllKept(ps, KeptId);
  }

  // ---------------------------------------------------------------------------
  // group_by_job: filtering and grouping
  // ---------------------------------------------------------------------------

  /** One evidence entry of a job result. */
  datatype Evidence = Evidence(text: string, score: real)

  /** A job-level result: the fields of its first hit and up to three evidence chunks. */
  datatype JobGroup = JobGroup(jobFile: string, jobTitle: string, location: string, score: real, chunks: seq<Evidence>)

  /**
   The location filter: `Berlin` keeps locations mentioning berlin,
   `Berlin + Remote` also those mentioning remote, in any case, and anything
   else keeps every location.
   */
  predicate PassesFilter(location: string, filter: string)
    ensures filter != "Berlin" && filter != "Berlin + Remote" ==> PassesFilter(location, filter)
    ensures PassesFilter(location, filter) && filter == "Berlin" ==> Contains(LowerStr(location), "berlin")
    ensures !PassesFilter(location, filter) ==> !Contains(LowerStr(location), "berlin")
    ensures !PassesFilter(location, filter) && filter == "Berlin + Remote" ==> !Contains(LowerStr(location), "remote")
  {
    var loc := LowerStr(location);
    if filter == "Berlin" then Contains(loc, "berlin")
    else if filter == "Berlin + Remote" then Contains(loc, "berlin") || Contains(loc, "remote")
    else true
  }

  /** `Berlin` is the stricter filter: whatever it keeps, `Berlin + Remote` keeps too. */
  lemma BerlinWithinRemote(location: string)
    ensures PassesFilter(location, "Berlin") ==> PassesFilter(location, "Berlin + Remote")
  {
  }

  /** The filter reads the lower-cased location, so the location's case never matters. */
  lemma FilterIgnoresCase(location: string, filter: string)
    ensures PassesFilter(LowerStr(location), filter) == PassesFilter(location, filter)
  {
    var a, b := LowerStr(LowerStr(location)), LowerStr(location);
    forall i | 0 <= i < |b| ensures a[i] == b[i] {
      assert a[i] == Chars.Lower(b[i]) && b[i] == Chars.Lower(location[i]);
    }
    assert a == b;
  }

  predicate Passes(h: Hit, filter: string) {
    PassesFilter(h.meta.location, filter)
  }

  /** At most this many evidence chunks per job. */
  const MaxEvidence: nat := 3

  function EvidenceOf(h: Hit): Evidence {
    Evidence(h.meta.text, h.score)
  }

  /** The file names of the groups, in order. */
  function Files(gs: seq<JobGroup>): (fs: seq<string>)
    ensures |fs| == |gs|
    ensures forall k :: 0 <= k < |gs| ==> fs[k] == gs[k].jobFile
  {
    seq(|gs|, k requires 0 <= k < |gs| => gs[k].jobFile)
  }

  predicate DistinctFiles(gs: seq<JobGroup>) {
    forall i, j :: 0 <= i < j < |gs| ==> gs[i].jobFile != gs[j].jobFile
  }

  /** Index of the group of file `f`, or `|gs|` when there is none. */
  function FindGroup(gs: seq<JobGroup>, f: string): (k: nat)
    ensures k <= |gs|
    ensures k < |gs| ==> gs[k].jobFile == f
    ensures forall j :: 0 <= j < k ==> gs[j].jobFile != f
    ensures k == |gs| <==> f !in Files(gs)
    decreases |gs|
  {
    if |gs| == 0 then 0
    else if gs[0].jobFile == f then 0
    else 1 + FindGroup(gs[1..], f)
  }

  /** A new group for the first hit of its file. */
  function NewGroup(h: Hit): JobGroup {
    JobGroup(h.meta.jobFile, h.meta.jobTitle, h.meta.location, h.score, [EvidenceOf(h)])
  }

  /** One iteration of the grouping loop for a hit that passed the filter. */
  function AddHit(gs: seq<JobGroup>, h: Hit): (r: seq<JobGroup>)
    ensures h.meta.jobFile in Files(gs) ==> Files(r) == Files(gs)
    ensures h.meta.jobFile !in Files(gs) ==> Files(r) == Files(gs) + [h.meta.jobFile]
    ensures DistinctFiles(gs) ==> DistinctFiles(r)
    ensures (forall k :: 0 <= k < |gs| ==> 1 <= |gs[k].chunks| <= MaxEvidence) ==>
      forall k :: 0 <= k < |r| ==> 1 <= |r[k].chunks| <= MaxEvidence
  {
    var k := FindGroup(gs, h.meta.jobFile);
    if k == |gs| then gs + [NewGroup(h)]
    else if |gs[k].chunks| < MaxEvidence then gs[k := gs[k].(chunks := gs[k].chunks + [EvidenceOf(h)])]
    else gs
  }

  /** The dict `jobs` after the loop, as its values in insertion order. */
  function Groups(hits: seq<Hit>, filter: string): (r: seq<JobGroup>)
    ensures DistinctFiles(r)
    ensures forall j :: 0 <= j < |hits| && Passes(hits[j], filter) ==> hits[j].meta.jobFile in Files(r)
    ensures forall k :: 0 <= k < |r| ==> 1 <= |r[k].chunks| <= MaxEvidence
  {
    if |hits| == 0 then []
    else
      var gs := Groups(hits[..|hits| - 1], filter);
      var h := hits[|hits| - 1];
      if Passes(h, filter) then AddHit(gs, h) else gs
  }

  /** The hits of file `f` that pass the filter, in order: the reference for its group. */
  function ForFile(hits: seq<Hit>, filter: string, f: string): (r: seq<Hit>)
    ensures forall i :: 0 <= i < |r| ==> r[i] in hits && Passes(r[i], filter) && r[i].meta.jobFile == f
  {
    if |hits| == 0 then []
    else
      var h := hits[|hits| - 1];
      ForFile(hits[..|hits| - 1], filter, f) + (if Passes(h, filter) && h.meta.jobFile == f then [h] else [])
  }

  function Evidences(hs: seq<Hit>): (es: seq<Evidence>)
    ensures |es| == |hs|
    ensures forall i :: 0 <= i < |hs| ==> es[i] == EvidenceOf(hs[i])
  {
    seq(|hs|, i requires 0 <= i < |hs| => EvidenceOf(hs[i]))
  }

  /**
   The group a file's passing hits call for: file, title, location and score
   of the first of them, and the evidence of the first three.
   */
  function Expected(hs: seq<Hit>): JobGroup
    requires |hs| > 0
  {
    JobGroup(hs[0].meta.jobFile, hs[0].meta.jobTitle, hs[0].meta.location, hs[0].score, Take(Evidences(hs), MaxEvidence))
  }

  /** Group `g` is what its file's passing hits call for. */
  predicate GroupFaithful(g: JobGroup, hits: seq<Hit>, filter: string) {
    var hs := ForFile(hits, filter, g.jobFile);
    |hs| > 0 && g == Expected(hs)
  }

  /** Every passing hit has a group. */
  predicate CoversHits(gs: seq<JobGroup>, hits: seq<Hit>, filter: string) {
    forall j :: 0 <= j < |hits| && Passes(hits[j], filter) ==> hits[j].meta.jobFile in Files(gs)
  }

  /** The loop invariant of the grouping: one faithful group per file with a passing hit. */
  predicate GroupsInvariant(gs: seq<JobGroup>, hits: seq<Hit>, filter: string) {
    && DistinctFiles(gs)
    && (forall k :: 0 <= k < |gs| ==> GroupFaithful(gs[k], hits, filter))
    && CoversHits(gs, hits, filter)
  }

  /** A hit that does not pass the filter changes nothing. */
  lemma StepSkipped(gs: seq<JobGroup>, hits: seq<Hit>, filter: string)
    requires |hits| > 0 && !Passes(hits[|hits| - 1], filter)
    requires GroupsInvariant(gs, hits[..|hits| - 1], filter)
    ensures GroupsInvariant(gs, hits, filter)
  {
    var init := hits[..|hits| - 1];
    forall k | 0 <= k < |gs|
      ensures GroupFaithful(gs[k], hits, filter)
    {
      assert ForFile(hits, filter, gs[k].jobFile) == ForFile(init, filter, gs[k].jobFile) + [];
      assert GroupFaithful(gs[k], init, filter);
    }
    forall j | 0 <= j < |hits| && Passes(hits[j], filter)
      ensures hits[j].meta.jobFile in Files(gs)
    {
      assert hits[j] == init[j];
    }
  }

  /** Files other than the hit's keep their passing hits. */
  lemma ForFileOther(hits: seq<Hit>, filter: string, f: string)
    requires |hits| > 0 && hits[|hits| - 1].meta.jobFile != f
    ensures ForFile(hits, filter, f) == ForFile(hits[..|hits| - 1], filter, f)
  {
    assert ForFile(hits, filter, f) == ForFile(hits[..|hits| - 1], filter, f) + [];
  }

  /** The first passing hit of a file opens its group. */
  lemma StepNew(gs: seq<JobGroup>, hits: seq<Hit>, filter: string)
    requires |hits| > 0 && Passes(hits[|hits| - 1], filter)
    requires hits[|hits| - 1].meta.jobFile !in Files(gs)
    requires GroupsInvariant(gs, hits[..|hits| - 1], filter)
    ensures GroupsInvariant(gs + [NewGroup(hits[|hits| - 1])], hits, filter)
  {
    var init, h := hits[..|hits| - 1], hits[|hits| - 1];
    var f := h.meta.jobFile;
    var gs' := gs + [NewGroup(h)];
    FirstHitOfFile(gs, hits, filter);
    assert Expected([h]) == NewGroup(h);
    forall k | 0 <= k < |gs'|
      ensures GroupFaithful(gs'[k], hits, filter)
    {
      if k < |gs| {
        assert gs'[k] == gs[k];
        KeepFaithful(gs[k], hits, filter);
      }
    }
    assert Files(gs') == Files(gs) + [f];
    assert CoversHits(gs', init, filter);
    CoversAfter(gs', hits, filter);
  }

  /** A passing hit of a file without a group is the only passing hit of its file so far. */
  lemma FirstHitOfFile(gs: seq<JobGroup>, hits: seq<Hit>, filter: string)
    requires |hits| > 0 && Passes(hits[|hits| - 1], filter)
    requires hits[|hits| - 1].meta.jobFile !in Files(gs)
    requires CoversHits(gs, hits[..|hits| - 1], filter)
    ensures ForFile(hits, filter, hits[|hits| - 1].meta.jobFile) == [hits[|hits| - 1]]
  {
    var init, h := hits[..|hits| - 1], hits[|hits| - 1];
    var f := h.meta.jobFile;
    forall j | 0 <= j < |init| && Passes(init[j], filter)
      ensures init[j].meta.jobFile != f
    {
      assert init[j].meta.jobFile in Files(gs);
    }
    ForFileNone(init, filter, f);
    assert ForFile(hits, filter, f) == ForFile(init, filter, f) + [h];
  }

  /** A file without passing hits has no hits for its group. */
  lemma {:induction false} ForFileNone(hits: seq<Hit>, filter: string, f: string)
    requires forall j :: 0 <= j < |hits| && Passes(hits[j], filter) ==> hits[j].meta.jobFile != f
    ensures ForFile(hits, filter, f) == []
  {
    if |hits| > 0 {
      var init := hits[..|hits| - 1];
      assert forall j :: 0 <= j < |init| ==> init[j] == hits[j];
      ForFileNone(init, filter, f);
    }
  }

  /** Taking the first three evidence entries after one more hit. */
  lemma TakeEvidenceSnoc(hs: seq<Hit>, h: Hit)
    ensures Take(Evidences(hs + [h]), MaxEvidence) ==
      if |hs| < MaxEvidence then Take(Evidences(hs), MaxEvidence) + [EvidenceOf(h)] else Take(Evidences(hs), MaxEvidence)
  {
    assert Evidences(hs + [h]) == Evidences(hs) + [EvidenceOf(h)];
  }

  /** A later passing hit of a file adds evidence to its group while it has fewer than three. */
  lemma StepExisting(gs: seq<JobGroup>, hits: seq<Hit>, filter: string)
    requires |hits| > 0 && Passes(hits[|hits| - 1], filter)
    requires hits[|hits| - 1].meta.jobFile in Files(gs)
    requires GroupsInvariant(gs, hits[..|hits| - 1], filter)
    ensures GroupsInvariant(AddHit(gs, hits[|hits| - 1]), hits, filter)
  {
    var h := hits[|hits| - 1];
    var k := FindGroup(gs, h.meta.jobFile);
    var g' := if |gs[k].chunks| < MaxEvidence then gs[k].(chunks := gs[k].chunks + [EvidenceOf(h)]) else gs[k];
    assert AddHit(gs, h) == gs[k := g'];
    BumpFaithful(gs[k], hits, filter);
    ReplaceKeepsInvariant(gs, k, g', hits, filter);
  }

  /**
   Replacing the group of the last hit's file by a faithful group with the same
   file keeps the invariant.
   */
  lemma ReplaceKeepsInvariant(gs: seq<JobGroup>, k: nat, g': JobGroup, hits: seq<Hit>, filter: string)
    requires |hits| > 0 && k < |gs| && gs[k].jobFile == hits[|hits| - 1].meta.jobFile == g'.jobFile
    requires GroupsInvariant(gs, hits[..|hits| - 1], filter)
    requires GroupFaithful(g', hits, filter)
    ensures GroupsInvariant(gs[k := g'], hits, filter)
  {
    var init, gs' := hits[..|hits| - 1], gs[k := g'];
    assert forall m :: 0 <= m < |gs| ==> gs'[m].jobFile == gs[m].jobFile;
    forall m | 0 <= m < |gs'|
      ensures GroupFaithful(gs'[m], hits, filter)
    {
      if m != k {
        KeepFaithful(gs[m], hits, filter);
      }
    }
    assert Files(gs') == Files(gs);
    CoversAfter(gs', hits, filter);
  }

  /** A group of another file than the last hit's stays faithful. */
  lemma KeepFaithful(g: JobGroup, hits: seq<Hit>, filter: string)
    requires |hits| > 0 && hits[|hits| - 1].meta.jobFile != g.jobFile
    requires GroupFaithful(g, hits[..|hits| - 1], filter)
    ensures GroupFaithful(g, hits, filter)
  {
    ForFileOther(hits, filter, g.jobFile);
  }

  /** Groups covering the earlier hits, and the last one if it passes, cover all hits. */
  lemma CoversAfter(gs: seq<JobGroup>, hits: seq<Hit>, filter: string)
    requires |hits| > 0 && CoversHits(gs, hits[..|hits| - 1], filter)
    requires Passes(hits[|hits| - 1], filter) ==> hits[|hits| - 1].meta.jobFile in Files(gs)
    ensures CoversHits(gs, hits, filter)
  {
    var init := hits[..|hits| - 1];
    forall j | 0 <= j < |hits| && Passes(hits[j], filter)
      ensures hits[j].meta.jobFile in Files(gs)
    {
      if j < |init| {
        assert hits[j] == init[j];
      }
    }
  }

  /** The group of the last hit's file, after the hit is added, is still faithful. */
  lemma BumpFaithful(g: JobGroup, hits: seq<Hit>, filter: string)
    requires |hits| > 0 && Passes(hits[|hits| - 1], filter) && hits[|hits| - 1].meta.jobFile == g.jobFile
    requires GroupFaithful(g, hits[..|hits| - 1], filter)
    ensures var h := hits[|hits| - 1];
      GroupFaithful(if |g.chunks| < MaxEvidence then g.(chunks := g.chunks + [EvidenceOf(h)]) else g, hits, filter)
  {
    var init, h := hits[..|hits| - 1], hits[|hits| - 1];
    var before := ForFile(init, filter, g.jobFile);
    assert ForFile(hits, filter, g.jobFile) == before + [h];
    assert (before + [h])[0] == before[0];
    TakeEvidenceSnoc(before, h);
    assert |g.chunks| == Min(MaxEvidence, |before|);
  }

  /** The grouping loop keeps its invariant. */
  lemma {:induction false} GroupsCorrect(hits: seq<Hit>, filter: string)
    ensures GroupsInvariant(Groups(hits, filter), hits, filter)
  {
    if |hits| > 0 {
      var init, h := hits[..|hits| - 1], hits[|hits| - 1];
      var gs := Groups(init, filter);
      GroupsCorrect(init, filter);
      if !Passes(h, filter) {
        StepSkipped(gs, hits, filter);
      } else if h.meta.jobFile in Files(gs) {
        StepExisting(gs, hits, filter);
      } else {
        StepNew(gs, hits, filter);
      }
    }
  }

  // ---------------------------------------------------------------------------
  // group_by_job: stable sort by score, best first, and the cut
  // ---------------------------------------------------------------------------

  /** Scores never increase from one group to the next. */
  predicate SortedDesc(gs: seq<JobGroup>) {
    forall i :: 0 <= i < |gs| - 1 ==> gs[i].score >= gs[i + 1].score
  }

  /** In a sorted list every group scores at least as high as every later one. */
  lemma {:induction false} SortedPairs(gs: seq<JobGroup>)
    requires SortedDesc(gs)
    ensures forall i, j :: 0 <= i < j < |gs| ==> gs[i].score >= gs[j].score
    decreases |gs|
  {
    if |gs| > 1 {
      var tl := gs[1..];
      assert forall i :: 0 <= i < |tl| ==> tl[i] == gs[i + 1];
      SortedPairs(tl);
      forall i, j | 0 <= i < j < |gs|
        ensures gs[i].score >= gs[j].score
      {
        if i == 0 && j > 1 {
          assert gs[1].score >= gs[j].score;
        }
      }
    }
  }

  /** Puts `x` before the first group whose score is not higher than its own. */
  function Insert(x: JobGroup, l: seq<JobGroup>): (r: seq<JobGroup>)
    ensures |r| == |l| + 1
    ensures r[0] == x || (|l| > 0 && r[0] == l[0])
    ensures multiset(r) == multiset(l) + multiset{x}
    decreases |l|
  {
    if |l| == 0 then [x]
    else if l[0].score <= x.score then [x] + l
    else
      assert l == [l[0]] + l[1..];
      [l[0]] + Insert(x, l[1..])
  }

  /** Inserting into a sorted list keeps it sorted. */
  lemma {:induction false} InsertSorted(x: JobGroup, l: seq<JobGroup>)
    requires SortedDesc(l)
    ensures SortedDesc(Insert(x, l))
    decreases |l|
  {
    if |l| > 0 && l[0].score > x.score {
      var rest := Insert(x, l[1..]);
      SortedTail(l);
      InsertSorted(x, l[1..]);
      var r := [l[0]] + rest;
      assert forall i :: 1 <= i < |r| ==> r[i] == rest[i - 1];
    }
  }

  /** `sorted(..., key=score, reverse=True)`: a stable sort, best score first. */
  function SortDesc(gs: seq<JobGroup>): (r: seq<JobGroup>)
    ensures |r| == |gs|
    ensures multiset(r) == multiset(gs)
    ensures SortedDesc(r)
    decreases |gs|
  {
    if |gs| == 0 then []
    else
      assert gs == [gs[0]] + gs[1..];
      InsertSorted(gs[0], SortDesc(gs[1..]));
      Insert(gs[0], SortDesc(gs[1..]))
  }

  /** The groups of one score, in order. */
  function WithScore(gs: seq<JobGroup>, s: real): (r: seq<JobGroup>)
    ensures forall i :: 0 <= i < |r| ==> r[i].score == s
    decreases |gs|
  {
    if |gs| == 0 then []
    else (if gs[0].score == s then [gs[0]] else []) + WithScore(gs[1..], s)
  }

  /** The tail of a sorted list is sorted. */
  lemma SortedTail(l: seq<JobGroup>)
    requires |l| > 0
    ensures SortedDesc(l) ==> SortedDesc(l[1..])
  {
    assert forall i :: 0 <= i < |l| - 1 ==> l[1..][i] == l[i + 1];
  }

  /** `WithScore` of a list with a given head. */
  lemma WithScoreCons(a: JobGroup, l: seq<JobGroup>, s: real)
    ensures WithScore([a] + l, s) == (if a.score == s then [a] else []) + WithScore(l, s)
  {
    assert ([a] + l)[1..] == l;
  }

  /** Inserting `x` into a sorted list puts it first among the groups of its score. */
  lemma {:induction false} InsertWithScore(x: JobGroup, l: seq<JobGroup>, s: real)
    requires SortedDesc(l)
    ensures WithScore(Insert(x, l), s) == (if x.score == s then [x] else []) + WithScore(l, s)
    decreases |l|
  {
    if |l| == 0 {
      WithScoreCons(x, [], s);
    } else if l[0].score <= x.score {
      WithScoreCons(x, l, s);
    } else {
      InsertAfterHead(x, l, s);
    }
  }

  /** The case of `InsertWithScore` where `x` goes after the head. */
  lemma {:induction false} InsertAfterHead(x: JobGroup, l: seq<JobGroup>, s: real)
    requires SortedDesc(l) && |l| > 0 && l[0].score > x.score
    ensures WithScore(Insert(x, l), s) == (if x.score == s then [x] else []) + WithScore(l, s)
    decreases |l|, 0
  {
    var rest := Insert(x, l[1..]);
    SortedTail(l);
    assert Insert(x, l) == [l[0]] + rest;
    InsertWithScore(x, l[1..], s);
    WithScoreCons(l[0], rest, s);
    var head := if l[0].score == s then [l[0]] else [];
    var mine := if x.score == s then [x] else [];
    assert WithScore(l, s) == head + WithScore(l[1..], s);
    ConcatSwap(head, mine, WithScore(l[1..], s));
  }

  /** Two pieces of which one is empty can be swapped. */
  lemma ConcatSwap<T>(a: seq<T>, b: seq<T>, w: seq<T>)
    requires a == [] || b == []
    ensures a + (b + w) == b + (a + w)
  {
    if a == [] {
      assert a + (b + w) == b + w;
    } else {
      assert b + (a + w) == a + w;
    }
  }

  /** The sort is stable: groups of equal score keep their order. */
  lemma {:induction false} SortStable(gs: seq<JobGroup>, s: real)
    ensures WithScore(SortDesc(gs), s) == WithScore(gs, s)
    decreases |gs|
  {
    if |gs| > 0 {
      SortStable(gs[1..], s);
      InsertWithScore(gs[0], SortDesc(gs[1..]), s);
    }
  }

  /** Python `s[:n]`, including a negative `n` counted from the end. */
  function SliceTo<T>(s: seq<T>, n: int): (r: seq<T>)
    ensures n >= 0 ==> |r| == Min(n, |s|)
    ensures n < 0 ==> |r| == Max(0, |s| + n)
    ensures r == s[..|r|]
  {
    if n >= 0 then Take(s, n) else s[..Max(0, |s| + n)]
  }

  /** `group_by_job`. */
  function GroupByJob(hits: seq<Hit>, topJobs: int, filter: string): (r: seq<JobGroup>)
    ensures topJobs >= 0 ==> |r| == Min(topJobs, |Groups(hits, filter)|)
    ensures SortedDesc(r) && DistinctFiles(r)
    ensures forall i :: 0 <= i < |r| ==> r[i] in Groups(hits, filter)
  {
    var all := Groups(hits, filter);
    var sorted := SortDesc(all);
    SortMembers(all);
    SortKeepsDistinct(all);
    var r := SliceTo(sorted, topJobs);
    assert forall i :: 0 <= i < |r| ==> r[i] == sorted[i];
    r
  }

  /** Membership in a permutation. */
  lemma SortMembers(gs: seq<JobGroup>)
    ensures forall i :: 0 <= i < |SortDesc(gs)| ==> SortDesc(gs)[i] in gs
  {
    var r := SortDesc(gs);
    forall i | 0 <= i < |r|
      ensures r[i] in gs
    {
      assert r[i] in multiset(r);
    }
  }

  /** Faithful groups of different positions have different files when the groups are distinct. */
  lemma SortKeepsDistinct(gs: seq<JobGroup>)
    requires DistinctFiles(gs)
    ensures DistinctFiles(SortDesc(gs))
  {
    var r := SortDesc(gs);
    forall i, j | 0 <= i < j < |r|
      ensures r[i].jobFile != r[j].jobFile
    {
      if r[i].jobFile == r[j].jobFile {
        SameFileSameGroup(gs, r[i], r[j]);
        TwiceInMultiset(r, i, j);
        assert multiset(gs)[r[i]] >= 2;
        OnceInMultiset(gs, r[i]);
      }
    }
  }

  /** In a list of distinct files, two members with the same file are the same group. */
  lemma SameFileSameGroup(gs: seq<JobGroup>, a: JobGroup, b: JobGroup)
    requires DistinctFiles(gs) && a in multiset(gs) && b in multiset(gs) && a.jobFile == b.jobFile
    ensures a == b
  {
    var i :| 0 <= i < |gs| && gs[i] == a;
    var j :| 0 <= j < |gs| && gs[j] == b;
    assert i == j;
  }

  /** A value at two positions occurs at least twice. */
  lemma {:induction false} TwiceInMultiset(r: seq<JobGroup>, i: nat, j: nat)
    requires i < j < |r| && r[i] == r[j]
    ensures multiset(r)[r[i]] >= 2
  {
    var x := r[i];
    assert r == r[..j] + [r[j]] + r[j + 1..];
    assert r[..j][i] == x;
    assert x in multiset(r[..j]);
  }

  /** In a list of distinct files, each group occurs at most once. */
  lemma {:induction false} OnceInMultiset(gs: seq<JobGroup>, x: JobGroup)
    requires DistinctFiles(gs)
    ensures multiset(gs)[x] <= 1
    decreases |gs|
  {
    if |gs| > 0 {
      assert gs == [gs[0]] + gs[1..];
      OnceInMultiset(gs[1..], x);
      if gs[0] == x {
        assert x !in multiset(gs[1..]);
      }
    }
  }

  /**
   What `group_by_job` promises: at most `topJobs` results (exactly that many
   when there are enough jobs), best score first, one per job file, and each
   the group its file's passing hits call for: first-seen title, location and
   score, and the evidence of the first three passing hits.
   */
  lemma GroupByJobCorrect(hits: seq<Hit>, topJobs: int, filter: string)
    ensures var r := GroupByJob(hits, topJobs, filter);
      var all := Groups(hits, filter);
      && (topJobs >= 0 ==> |r| == Min(topJobs, |all|))
      && |r| <= |all|
      && SortedDesc(r)
      && DistinctFiles(r)
      && forall i :: 0 <= i < |r| ==> GroupFaithful(r[i], hits, filter)
  {
    var all := Groups(hits, filter);
    var sorted := SortDesc(all);
    GroupsCorrect(hits, filter);
    SortKeepsFaithful(all, hits, filter);
    SortKeepsDistinct(all);
    PrefixKeeps(sorted, SliceTo(sorted, topJobs), hits, filter);
  }

  /** Sorting keeps every group faithful. */
  lemma SortKeepsFaithful(gs: seq<JobGroup>, hits: seq<Hit>, filter: string)
    requires forall k :: 0 <= k < |gs| ==> GroupFaithful(gs[k], hits, filter)
    ensures forall i :: 0 <= i < |SortDesc(gs)| ==> GroupFaithful(SortDesc(gs)[i], hits, filter)
  {
    SortMembers(gs);
  }

  /** A prefix of a sorted list of faithful groups with distinct files is one too. */
  lemma PrefixKeeps(gs: seq<JobGroup>, r: seq<JobGroup>, hits: seq<Hit>, filter: string)
    requires |r| <= |gs| && r == gs[..|r|]
    requires SortedDesc(gs) && DistinctFiles(gs)
    requires forall i :: 0 <= i < |gs| ==> GroupFaithful(gs[i], hits, filter)
    ensures SortedDesc(r) && DistinctFiles(r)
    ensures forall i :: 0 <= i < |r| ==> GroupFaithful(r[i], hits, filter)
  {
    assert forall i :: 0 <= i < |r| ==> r[i] == gs[i];
  }

  /** The cut keeps the best: no group left out scores higher than a group kept. */
  lemma GroupByJobKeepsBest(hits: seq<Hit>, topJobs: int, filter: string)
    ensures var r := GroupByJob(hits, topJobs, filter);
      var sorted := SortDesc(Groups(hits, filter));
      forall i, j :: 0 <= i < |r| <= j < |sorted| ==> sorted[j].score <= r[i].score
  {
    SortedPairs(SortDesc(Groups(hits, filter)));
  }

  /** Every group has between one and three evidence chunks and satisfies the location filter. */
  lemma GroupsRespectFilter(hits: seq<Hit>, topJobs: int, filter: string)
    ensures var r := GroupByJob(hits, topJobs, filter);
      forall i :: 0 <= i < |r| ==> 1 <= |r[i].chunks| <= MaxEvidence && PassesFilter(r[i].location, filter)
  {
    var r := GroupByJob(hits, topJobs, filter);
    GroupByJobCorrect(hits, topJobs, filter);
    forall i | 0 <= i < |r|
      ensures 1 <= |r[i].chunks| <= MaxEvidence && PassesFilter(r[i].location, filter)
    {
      var hs := ForFile(hits, filter, r[i].jobFile);
      assert GroupFaithful(r[i], hits, filter);
      assert Passes(hs[0], filter);
    }
  }

  /** With a filter other than the two Berlin ones, every job file of the hits gets a group before the cut. */
  lemma OtherFilterKeepsAll(hits: seq<Hit>, filter: string)
    requires filter != "Berlin" && filter != "Berlin + Remote"
    ensures forall j :: 0 <= j < |hits| ==> hits[j].meta.jobFile in Files(Groups(hits, filter))
  {
    GroupsCorrect(hits, filter);
  }
}

=== FILE: seqs.dfy ===
/** Generic sequence helpers: Python list comprehensions with an `if`, and slicing `xs[:n]`. */
module Seqs {

  /** `[x for x in s if keep(x)]`. */
  function Filter<T>(s: seq<T>, keep: T -> bool): (r: seq<T>)
    ensures |r| <= |s|
    ensures forall i :: 0 <= i < |r| ==> r[i] in s && keep(r[i])
    ensures forall i :: 0 <= i < |s| && keep(s[i]) ==> s[i] in r
  {
    if |s| == 0 then []
    else if keep(s[0]) then [s[0]] + Filter(s[1..], keep)
    else Filter(s[1..], keep)
  }

  /** Filtering a single kept element gives it back. */
  lemma FilterKeepsOne<T>(x: T, keep: T -> bool)
    requires keep(x)
    ensures Filter([x], keep) == [x]
  {
    assert [x][1..] == [];
  }

  /** Concatenation is associative (stated for the cases the solver does not regroup itself). */
  lemma ConcatAssoc<T>(x: seq<T>, y: seq<T>, z: seq<T>)
    ensures x + y + z == x + (y + z)
  {
  }

  /** `[f(x) for x in s]`. */
  function Map<T, U>(s: seq<T>, f: T -> U): (r: seq<U>)
    ensures |r| == |s|
    ensures forall i :: 0 <= i < |s| ==> r[i] == f(s[i])
  {
    seq(|s|, i requires 0 <= i < |s| => f(s[i]))
  }

  /** Mapping a first element and the rest. */
  lemma MapCons<T, U>(x: T, s: seq<T>, f: T -> U)
    ensures Map([x] + s, f) == [f(x)] + Map(s, f)
  {
    assert forall i :: 1 <= i < |s| + 1 ==> ([x] + s)[i] == s[i - 1];
  }

  /** A first element is kept exactly when `keep` holds for it, ahead of the filtered rest. */
  lemma FilterCons<T>(x: T, s: seq<T>, keep: T -> bool)
    ensures Filter([], keep) == []
    ensures Filter([x] + s, keep) == (if keep(x) then [x] else []) + Filter(s, keep)
  {
    assert ([x] + s)[1..] == s;
  }

  /** `a` is obtained from `b` by deleting elements: order is kept. */
  ghost predicate Subseq<T>(a: seq<T>, b: seq<T>)
    decreases |b|
  {
    |a| == 0 || (|b| > 0 && (if a[0] == b[0] then Subseq(a[1..], b[1..]) else Subseq(a, b[1..])))
  }

  lemma {:induction false} FilterIsSubseq<T>(s: seq<T>, keep: T -> bool)
    ensures Subseq(Filter(s, keep), s)
    decreases |s|
  {
    if |s| > 0 {
      FilterIsSubseq(s[1..], keep);
      if keep(s[0]) {
        assert Filter(s, keep)[0] == s[0];
        assert Filter(s, keep)[1..] == Filter(s[1..], keep);
      } else {
        SubseqDropHead(Filter(s, keep), s);
      }
    }
  }

  /** A subsequence of the tail is a subsequence of the whole. */
  lemma {:induction false} SubseqDropHead<T>(a: seq<T>, b: seq<T>)
    requires |b| > 0 && Subseq(a, b[1..])
    ensures Subseq(a, b)
    decreases |b|, |a|, 0
  {
    if |a| > 0 && a[0] == b[0] {
      SubseqTail(a, b[1..]);
    }
  }

  /** Dropping the head of `a` keeps it a subsequence. */
  lemma {:induction false} SubseqTail<T>(a: seq<T>, b: seq<T>)
    requires |a| > 0 && Subseq(a, b)
    ensures Subseq(a[1..], b)
    decreases |b|, |a|, 1
  {
    if |a[1..]| > 0 {
      if a[0] != b[0] {
        SubseqTail(a, b[1..]);
      }
      SubseqDropHead(a[1..], b);
    }
  }

  /** A prefix is a subsequence. */
  lemma {:induction false} PrefixIsSubseq<T>(s: seq<T>, n: nat)
    requires n <= |s|
    ensures Subseq(s[..n], s)
    decreases n
  {
    if n > 0 {
      PrefixIsSubseq(s[1..], n - 1);
      assert s[..n][1..] == s[1..][..n - 1];
    }
  }

  lemma {:induction false} FilterAppend<T>(a: seq<T>, b: seq<T>, keep: T -> bool)
    ensures Filter(a + b, keep) == Filter(a, keep) + Filter(b, keep)
    decreases |a|
  {
    if |a| > 0 {
      assert (a + b)[1..] == a[1..] + b;
      FilterAppend(a[1..], b, keep);
    } else {
      assert a + b == b;
    }
  }

  /** A property every element has survives filtering. */
  lemma {:induction false} FilterPreserves<T>(s: seq<T>, keep: T -> bool, p: T -> bool)
    requires forall i :: 0 <= i < |s| ==> p(s[i])
    ensures forall i :: 0 <= i < |Filter(s, keep)| ==> p(Filter(s, keep)[i])
    decreases |s|
  {
    if |s| > 0 {
      FilterPreserves(s[1..], keep, p);
    }
  }

  lemma {:induction false} FilterAllKept<T>(s: seq<T>, keep: T -> bool)
    requires forall i :: 0 <= i < |s| ==> keep(s[i])
    ensures Filter(s, keep) == s
    decreases |s|
  {
    if |s| > 0 {
      FilterAllKept(s[1..], keep);
    }
  }

  function Min(a: int, b: int): int {
    if a <= b then a else b
  }

  function Max(a: int, b: int): int {
    if a >= b then a else b
  }

  /** Python `s[:n]` for `n >= 0`. */
  function Take<T>(s: seq<T>, n: nat): (r: seq<T>)
    ensures |r| == Min(n, |s|)
    ensures r == s[..|r|]
  {
    if n <= |s| then s[..n] else s
  }
}

=== FILE: strs.dfy ===
/**
 The Python string operations the core uses, over `string` (= `seq<char>`):
 `lower`, `startswith`, `in`, `find`/`rfind`, `strip`, `split`, `splitlines`,
 `join`, and `re.sub(<class>+, " ", s)`.
 */
module Strs {
  import opened Chars
  import opened Seqs

  /** `s.lower()`, character by character (see `Chars.Lower`). */
  function LowerStr(s: string): (r: string)
    ensures |r| == |s|
    ensures forall i :: 0 <= i < |s| ==> r[i] == Lower(s[i])
  {
    seq(|s|, i requires 0 <= i < |s| => Lower(s[i]))
  }

  /** `s.startswith(p)`. */
  predicate StartsWith(s: string, p: string) {
    |p| <= |s| && s[..|p|] == p
  }

  /** `sub in s` (substring test; the empty string is in every string). */
  predicate Contains(s: string, sub: string)
    decreases |s|
  {
    StartsWith(s, sub) || (|s| > 0 && Contains(s[1..], sub))
  }

  /** `Contains` holds exactly when `sub` occurs at some offset of `s`. */
  lemma {:induction false} ContainsAt(s: string, sub: string, k: nat)
    requires k + |sub| <= |s| && s[k..k + |sub|] == sub
    ensures Contains(s, sub)
    decreases k
  {
    if k > 0 {
      assert s[1..][k - 1..k - 1 + |sub|] == s[k..k + |sub|];
      ContainsAt(s[1..], sub, k - 1);
    }
  }

  /** Index of the first element satisfying `p`, or `|s|` if there is none. */
  function FirstWhere<T>(s: seq<T>, p: T -> bool): (r: nat)
    ensures r <= |s|
    ensures forall j :: 0 <= j < r ==> !p(s[j])
    ensures r < |s| ==> p(s[r])
  {
    if |s| == 0 then 0
    else if p(s[0]) then 0
    else 1 + FirstWhere(s[1..], p)
  }

  /** `s.find(c)` for a one-character needle: first index, or -1. */
  function Find(s: string, c: char): (r: int)
    ensures -1 <= r < |s|
    ensures r == -1 <==> c !in s
    ensures r >= 0 ==> s[r] == c && forall j :: 0 <= j < r ==> s[j] != c
  {
    var k := FirstWhere(s, x => x == c);
    if k < |s| then k else -1
  }

  /** `s.rfind(c)` for a one-character needle: last index, or -1. */
  function RFind(s: string, c: char): (r: int)
    ensures -1 <= r < |s|
    ensures r == -1 <==> c !in s
    ensures r >= 0 ==> s[r] == c && forall j :: r < j < |s| ==> s[j] != c
  {
    if |s| == 0 then -1
    else if s[|s| - 1] == c then |s| - 1
    else RFind(s[..|s| - 1], c)
  }

  /** Removes the leading run of characters in the class. */
  function DropRun(s: string, inClass: char -> bool): (r: string)
    ensures |r| <= |s| && r == s[|s| - |r|..]
    ensures r == [] || !inClass(r[0])
    ensures forall i :: 0 <= i < |s| - |r| ==> inClass(s[i])
    decreases |s|
  {
    if |s| > 0 && inClass(s[0]) then DropRun(s[1..], inClass) else s
  }

  predicate NoEdgeSpace(s: string) {
    |s| == 0 || (!IsSpace(s[0]) && !IsSpace(s[|s| - 1]))
  }

  /** The end of the run of class characters that starts at index `k`. */
  function RunFrom(s: string, inClass: char -> bool, k: nat): (e: nat)
    requires k <= |s|
    ensures k <= e <= |s|
    ensures forall i :: k <= i < e ==> inClass(s[i])
    ensures e < |s| ==> !inClass(s[e])
    decreases |s| - k
  {
    if k < |s| && inClass(s[k]) then RunFrom(s, inClass, k + 1) else k
  }

  /** The start of the run of class characters that ends at index `e`, not going below `lo`. */
  function RunBefore(s: string, inClass: char -> bool, lo: nat, e: nat): (b: nat)
    requires lo <= e <= |s|
    ensures lo <= b <= e
    ensures forall i :: b <= i < e ==> inClass(s[i])
    ensures lo < b ==> !inClass(s[b - 1])
    decreases e
  {
    if lo < e && inClass(s[e - 1]) then RunBefore(s, inClass, lo, e - 1) else e
  }

  /** Number of leading characters in the class, the ones `Trim` removes at the front. */
  function TrimOffset(s: string, inClass: char -> bool): (k: nat)
    ensures k <= |s|
    ensures forall i :: 0 <= i < k ==> inClass(s[i])
    ensures k < |s| ==> !inClass(s[k])
  {
    RunFrom(s, inClass, 0)
  }

  /** Where the trailing run of characters in the class starts, at or after the leading run. */
  function TrimEnd(s: string, inClass: char -> bool): (e: nat)
    ensures TrimOffset(s, inClass) <= e <= |s|
    ensures forall i :: e <= i < |s| ==> inClass(s[i])
    ensures TrimOffset(s, inClass) < e ==> !inClass(s[e - 1])
  {
    RunBefore(s, inClass, TrimOffset(s, inClass), |s|)
  }

  /** Number of characters `s.strip()` removes at the front. */
  function StripOffset(s: string): (k: nat)
    ensures k <= |s|
    ensures forall i :: 0 <= i < k ==> IsSpace(s[i])
    ensures k < |s| ==> !IsSpace(s[k])
  {
    TrimOffset(s, IsSpace)
  }

  /** Removes the leading and the trailing run of characters in the class. */
  function Trim(s: string, inClass: char -> bool): (r: string)
    ensures r == [] || (!inClass(r[0]) && !inClass(r[|r| - 1]))
    ensures TrimOffset(s, inClass) + |r| <= |s|
    ensures r == s[TrimOffset(s, inClass)..TrimOffset(s, inClass) + |r|]
    ensures forall i :: TrimOffset(s, inClass) + |r| <= i < |s| ==> inClass(s[i])
    ensures r == [] <==> forall i :: 0 <= i < |s| ==> inClass(s[i])
  {
    s[TrimOffset(s, inClass)..TrimEnd(s, inClass)]
  }

  /** `s.strip()`: a slice of `s` with every removed character a space. */
  function Strip(s: string): (r: string)
    ensures NoEdgeSpace(r)
    ensures StripOffset(s) + |r| <= |s| && r == s[StripOffset(s)..StripOffset(s) + |r|]
    ensures forall i :: StripOffset(s) + |r| <= i < |s| ==> IsSpace(s[i])
    ensures r == [] <==> forall i :: 0 <= i < |s| ==> IsSpace(s[i])
  {
    Trim(s, IsSpace)
  }

  /** `strip()` leaves an already stripped string unchanged; in particular it is idempotent. */
  lemma StripStripped(s: string)
    requires NoEdgeSpace(s)
    ensures Strip(s) == s
  {
  }

  /**
   `re.sub(<class>+, " ", s)`: every maximal run of class characters becomes
   one space.
   */
  function CollapseRuns(s: string, inClass: char -> bool): (r: string)
    ensures |r| <= |s|
    ensures forall i :: 0 <= i < |r| ==> r[i] == ' ' || r[i] in s
    ensures forall i :: 0 <= i < |r| && inClass(r[i]) ==> r[i] == ' '
    ensures forall i :: 0 <= i < |r| - 1 ==> !(inClass(r[i]) && inClass(r[i + 1]))
    ensures |s| > 0 ==> |r| > 0 && r[0] == (if inClass(s[0]) then ' ' else s[0])
    decreases |s|
  {
    if |s| == 0 then ""
    else if inClass(s[0]) then
      var rest := DropRun(s, inClass);
      var r := " " + CollapseRuns(rest, inClass);
      assert forall i :: 1 <= i < |r| ==> r[i] == ' ' || r[i] in rest;
      r
    else
      [s[0]] + CollapseRuns(s[1..], inClass)
  }

  /**
   With the space in the class, collapsing keeps every character outside the
   class, in order: only class runs are rewritten.
   */
  lemma {:induction false} CollapseRunsKeepsText(s: string, inClass: char -> bool)
    requires inClass(' ')
    ensures Outside(CollapseRuns(s, inClass), inClass) == Outside(s, inClass)
    decreases |s|
  {
    if |s| > 0 {
      if inClass(s[0]) {
        var rest := DropRun(s, inClass);
        var c := CollapseRuns(rest, inClass);
        CollapseRunsKeepsText(rest, inClass);
        assert (" " + c)[1..] == c;
        OutsideDropRun(s, inClass);
      } else {
        var c := CollapseRuns(s[1..], inClass);
        CollapseRunsKeepsText(s[1..], inClass);
        assert ([s[0]] + c)[1..] == c;
      }
    }
  }

  /** The characters of `s` outside the class, in order. */
  function Outside(s: string, inClass: char -> bool): string
    decreases |s|
  {
    if |s| == 0 then ""
    else if inClass(s[0]) then Outside(s[1..], inClass)
    else [s[0]] + Outside(s[1..], inClass)
  }

  /** Dropping a leading run of class characters loses nothing outside the class. */
  lemma {:induction false} OutsideDropRun(s: string, inClass: char -> bool)
    ensures Outside(DropRun(s, inClass), inClass) == Outside(s, inClass)
    decreases |s|
  {
    if |s| > 0 && inClass(s[0]) {
      OutsideDropRun(s[1..], inClass);
    }
  }

  /** A string whose class characters are isolated spaces is a fixed point of `CollapseRuns`. */
  lemma {:induction false} CollapseRunsFixed(s: string, inClass: char -> bool)
    requires forall i :: 0 <= i < |s| && inClass(s[i]) ==> s[i] == ' '
    requires forall i :: 0 <= i < |s| - 1 ==> !(inClass(s[i]) && inClass(s[i + 1]))
    ensures CollapseRuns(s, inClass) == s
    decreases |s|
  {
    if |s| > 0 {
      CollapseRunsFixed(s[1..], inClass);
      if inClass(s[0]) {
        assert DropRun(s, inClass) == s[1..];
      }
    }
  }

  /** Collapsing twice is collapsing once. */
  lemma CollapseRunsIdempotent(s: string, inClass: char -> bool)
    ensures CollapseRuns(CollapseRuns(s, inClass), inClass) == CollapseRuns(s, inClass)
  {
    CollapseRunsFixed(CollapseRuns(s, inClass), inClass);
  }

  /** `sep.join(parts)`. */
  function Join(sep: string, parts: seq<string>): (r: string)
    decreases |parts|
  {
    if |parts| == 0 then ""
    else if |parts| == 1 then parts[0]
    else parts[0] + sep + Join(sep, parts[1..])
  }

  /** `sub` occurs in `s` at offset `j`. */
  predicate OccursAt(s: string, sub: string, j: int) {
    0 <= j && j + |sub| <= |s| && s[j..j + |sub|] == sub
  }

  lemma OccursAtTail(s: string, sub: string)
    requires |s| > 0
    ensures forall j :: 1 <= j ==> (OccursAt(s, sub, j) <==> OccursAt(s[1..], sub, j - 1))
  {
    forall j | 1 <= j
      ensures OccursAt(s, sub, j) <==> OccursAt(s[1..], sub, j - 1)
    {
      if j + |sub| <= |s| {
        assert s[1..][j - 1..j - 1 + |sub|] == s[j..j + |sub|];
      }
    }
  }

  /** Index of the first occurrence of `sub` in `s` (searching from the left), or -1. */
  function FindSub(s: string, sub: string): (r: int)
    ensures r == -1 || OccursAt(s, sub, r)
    ensures forall j :: 0 <= j && (r == -1 || j < r) ==> !OccursAt(s, sub, j)
    decreases |s|
  {
    if |s| < |sub| then -1
    else if s[..|sub|] == sub then 0
    else
      var k := FindSub(s[1..], sub);
      OccursAtTail(s, sub);
      if k == -1 then -1 else k + 1
  }

  /** `s.split(sep)` for a non-empty separator. */
  function SplitOn(s: string, sep: string): (r: seq<string>)
    requires |sep| > 0
    ensures |r| > 0
    ensures forall i :: 0 <= i < |r| ==> !Contains(r[i], sep)
    decreases |s|
  {
    var k := FindSub(s, sep);
    if k == -1 then
      NotContains(s, sep);
      [s]
    else
      assert forall j :: 0 <= j ==> OccursAt(s[..k], sep, j) ==> OccursAt(s, sep, j) && j < k;
      NotContains(s[..k], sep);
      [s[..k]] + SplitOn(s[k + |sep|..], sep)
  }

  /** No offset holds the needle, so `Contains` is false. */
  lemma {:induction false} NotContains(s: string, sub: string)
    requires forall j :: 0 <= j ==> !OccursAt(s, sub, j)
    ensures !Contains(s, sub)
    decreases |s|
  {
    assert !OccursAt(s, sub, 0);
    if |s| > 0 {
      OccursAtTail(s, sub);
      forall j | 0 <= j
        ensures !OccursAt(s[1..], sub, j)
      {
        assert !OccursAt(s, sub, j + 1);
      }
      NotContains(s[1..], sub);
    }
  }

  /** Splitting a string that does not contain the separator gives the string alone. */
  lemma SplitOnAbsent(s: string, sep: string)
    requires |sep| > 0 && !Contains(s, sep)
    ensures SplitOn(s, sep) == [s]
  {
    var k := FindSub(s, sep);
    assert k != -1 ==> OccursAt(s, sep, k);
  }

  /** Joining the pieces of a split with the same separator gives back the string. */
  lemma {:induction false} JoinSplitOn(s: string, sep: string)
    requires |sep| > 0
    ensures Join(sep, SplitOn(s, sep)) == s
    decreases |s|
  {
    var k := FindSub(s, sep);
    if k != -1 {
      var rest := s[k + |sep|..];
      var parts := SplitOn(rest, sep);
      JoinSplitOn(rest, sep);
      assert SplitOn(s, sep) == [s[..k]] + parts;
      assert ([s[..k]] + parts)[1..] == parts;
      assert Join(sep, [s[..k]] + parts) == s[..k] + sep + Join(sep, parts);
      assert s[k..k + |sep|] == sep;
      assert s == s[..k] + s[k..k + |sep|] + rest;
    }
  }

  /** `s.splitlines()`: `\r\n` is one break and there is no empty piece after a final break. */
  function SplitLines(s: string): (r: seq<string>)
    ensures forall i, j :: 0 <= i < |r| && 0 <= j < |r[i]| ==> !IsLineBreak(r[i][j])
    decreases |s|
  {
    if |s| == 0 then []
    else
      var k := FirstWhere(s, IsLineBreak);
      if k == |s| then [s]
      else
        var next := if s[k] == '\r' && k + 1 < |s| && s[k + 1] == '\n' then k + 2 else k + 1;
        [s[..k]] + SplitLines(s[next..])
  }

  /** Every part occurs in the joined text. */
  lemma {:induction false} JoinHasParts(sep: string, parts: seq<string>)
    ensures forall k :: 0 <= k < |parts| ==> Contains(Join(sep, parts), parts[k])
    decreases |parts|
  {
    if |parts| == 1 {
      assert parts[0][0..|parts[0]|] == parts[0];
      ContainsAt(parts[0], parts[0], 0);
    } else if |parts| > 1 {
      var a, rest := parts[0], parts[1..];
      assert parts == [a] + rest;
      JoinCons(sep, a, rest);
      JoinHasParts(sep, rest);
      var j := Join(sep, parts);
      forall k | 0 <= k < |parts|
        ensures Contains(j, parts[k])
      {
        if k == 0 {
          assert j[0..|a|] == a;
          ContainsAt(j, a, 0);
        } else {
          assert j[|a| + |sep|..] == Join(sep, rest);
          assert parts[k] == rest[k - 1];
          ContainsFrom(j, |a| + |sep|, parts[k]);
        }
      }
    }
  }

  lemma JoinCons(sep: string, a: string, rest: seq<string>)
    requires |rest| > 0
    ensures Join(sep, [a] + rest) == a + sep + Join(sep, rest)
  {
    assert ([a] + rest)[1..] == rest;
  }

  /** The first line break of `a + "\n" + b`, for a line `a` without one, is the added newline. */
  lemma FirstBreakAfterLine(a: string, b: string)
    requires forall j :: 0 <= j < |a| ==> !IsLineBreak(a[j])
    ensures FirstWhere(a + "\n" + b, IsLineBreak) == |a|
  {
    var s := a + "\n" + b;
    var k := FirstWhere(s, IsLineBreak);
    assert s[|a|] == '\n';
  }

  /** The line-splitting step after a line without a break that ends in a newline. */
  lemma SplitLinesCons(a: string, b: string)
    requires forall j :: 0 <= j < |a| ==> !IsLineBreak(a[j])
    ensures SplitLines(a + "\n" + b) == [a] + SplitLines(b)
  {
    var s := a + "\n" + b;
    FirstBreakAfterLine(a, b);
    assert s[|a|] == '\n';
    assert s[..|a|] == a && s[|a| + 1..] == b;
  }

  /** A text whose every line break is `\n`. */
  predicate OnlyNewlines(s: string) {
    forall i :: 0 <= i < |s| && IsLineBreak(s[i]) ==> s[i] == '\n'
  }

  /** The final newline of the text, if it has one. */
  function FinalNewline(s: string): string
  {
    if |s| > 0 && s[|s| - 1] == '\n' then "\n" else ""
  }

  /**
   For a text whose only line breaks are `\n`, joining its lines with `\n`
   gives the text back, but for a final newline, which leaves no empty line.
   */
  lemma {:induction false} SplitLinesRoundTrip(s: string)
    requires OnlyNewlines(s)
    ensures Join("\n", SplitLines(s)) + FinalNewline(s) == s
    decreases |s|
  {
    if |s| > 0 {
      var k := FirstWhere(s, IsLineBreak);
      if k < |s| {
        var a, b := s[..k], s[k + 1..];
        assert s == a + "\n" + b;
        SplitLinesRoundTrip(b);
        if |b| == 0 {
          LastLine(a);
        } else {
          RoundTripCons(a, b);
        }
      } else {
        assert !IsLineBreak(s[|s| - 1]);
      }
    }
  }

  /** A line followed by a final newline gives back the line alone. */
  lemma LastLine(a: string)
    requires forall j :: 0 <= j < |a| ==> !IsLineBreak(a[j])
    ensures Join("\n", SplitLines(a + "\n")) + FinalNewline(a + "\n") == a + "\n"
  {
    SplitLinesCons(a, "");
    assert a + "\n" + "" == a + "\n";
  }

  /** A line, a newline and a non-empty rest that round-trips. */
  lemma RoundTripCons(a: string, b: string)
    requires forall j :: 0 <= j < |a| ==> !IsLineBreak(a[j])
    requires |b| > 0 && Join("\n", SplitLines(b)) + FinalNewline(b) == b
    ensures Join("\n", SplitLines(a + "\n" + b)) + FinalNewline(a + "\n" + b) == a + "\n" + b
  {
    SplitLinesCons(a, b);
    assert SplitLines(b) != [] by { assert SplitLines(b)[0] == b[..FirstWhere(b, IsLineBreak)]; }
    var J := Join("\n", SplitLines(b));
    JoinCons("\n", a, SplitLines(b));
    assert (a + "\n" + b)[|a + "\n" + b| - 1] == b[|b| - 1];
    assert FinalNewline(a + "\n" + b) == FinalNewline(b);
    ConcatAssoc(a + "\n", J, FinalNewline(b));
  }

  predicate NonEmpty(s: string) {
    |s| > 0
  }

  /** `[p.strip() for p in parts]`. */
  function Stripped(parts: seq<string>): (r: seq<string>)
    ensures |r| == |parts|
    ensures forall i :: 0 <= i < |parts| ==> r[i] == Strip(parts[i])
  {
    Map(parts, Strip)
  }

  /** `[p.strip() for p in parts if p.strip()]`. */
  function NonBlank(parts: seq<string>): (r: seq<string>)
    ensures forall i :: 0 <= i < |r| ==> |r[i]| > 0 && NoEdgeSpace(r[i])
  {
    Filter(Stripped(parts), NonEmpty)
  }

  /** A single non-empty stripped piece survives `NonBlank` unchanged. */
  lemma NonBlankSingle(t: string)
    requires |t| > 0 && NoEdgeSpace(t)
    ensures NonBlank([t]) == [t]
  {
    StripStripped(t);
    assert Stripped([t]) == [t];
    FilterKeepsOne(t, NonEmpty);
  }

  /** Each piece is kept, stripped, exactly when it is not blank, in the order of the pieces. */
  lemma NonBlankCons(x: string, xs: seq<string>)
    ensures NonBlank([]) == []
    ensures NonBlank([x] + xs) == (if Strip(x) == "" then [] else [Strip(x)]) + NonBlank(xs)
  {
    MapCons(x, xs, Strip);
    FilterCons(Strip(x), Stripped(xs), NonEmpty);
  }

  /** Pieces that are already stripped and not blank all survive, unchanged. */
  lemma {:induction false} NonBlankStripped(ps: seq<string>)
    requires forall i :: 0 <= i < |ps| ==> |ps[i]| > 0 && NoEdgeSpace(ps[i])
    ensures NonBlank(ps) == ps
    decreases |ps|
  {
    if |ps| > 0 {
      NonBlankCons(ps[0], ps[1..]);
      assert [ps[0]] + ps[1..] == ps;
      StripStripped(ps[0]);
      NonBlankStripped(ps[1..]);
    } else {
      NonBlankCons("", []);
    }
  }

  /** The non-blank lines of lines joined by `\n` are the non-blank ones among them. */
  lemma {:induction false} NonBlankOfJoinedLines(ls: seq<string>)
    requires forall i, j :: 0 <= i < |ls| && 0 <= j < |ls[i]| ==> !IsLineBreak(ls[i][j])
    ensures NonBlank(SplitLines(Join("\n", ls))) == NonBlank(ls)
    decreases |ls|
  {
    if |ls| == 0 {
      NonBlankCons("", []);
    } else if |ls| == 1 {
      NonBlankOfOneLine(ls[0]);
    } else {
      NonBlankOfJoinedLines(ls[1..]);
      JoinedLinesStep(ls);
    }
  }

  /** A single line without a break: its non-blank lines are itself, stripped, if not blank. */
  lemma NonBlankOfOneLine(a: string)
    requires forall j :: 0 <= j < |a| ==> !IsLineBreak(a[j])
    ensures NonBlank(SplitLines(Join("\n", [a]))) == NonBlank([a])
  {
    NonBlankCons(a, []);
    NonBlankCons("", []);
    assert [a] + [] == [a];
    if |a| > 0 {
      assert FirstWhere(a, IsLineBreak) == |a|;
    }
  }

  /** The inductive step of `NonBlankOfJoinedLines`: the first line is split off. */
  lemma JoinedLinesStep(ls: seq<string>)
    requires |ls| > 1
    requires forall j :: 0 <= j < |ls[0]| ==> !IsLineBreak(ls[0][j])
    requires NonBlank(SplitLines(Join("\n", ls[1..]))) == NonBlank(ls[1..])
    ensures NonBlank(SplitLines(Join("\n", ls))) == NonBlank(ls)
  {
    var a, rest := ls[0], ls[1..];
    assert [a] + rest == ls;
    JoinCons("\n", a, rest);
    SplitLinesCons(a, Join("\n", rest));
    NonBlankCons(a, SplitLines(Join("\n", rest)));
    NonBlankCons(a, rest);
  }

  /**
   Stripped, non-empty lines without a line break, joined by `\n`, come back as
   exactly those lines.
   */
  lemma NonBlankLinesJoin(ls: seq<string>)
    requires forall i :: 0 <= i < |ls| ==> |ls[i]| > 0 && NoEdgeSpace(ls[i])
    requires forall i, j :: 0 <= i < |ls| && 0 <= j < |ls[i]| ==> !IsLineBreak(ls[i][j])
    ensures NonBlankLines(Join("\n", ls)) == ls
  {
    NonBlankOfJoinedLines(ls);
    NonBlankStripped(ls);
  }

  /** `[ln.strip() for ln in s.splitlines() if ln.strip()]`. */
  function NonBlankLines(s: string): (r: seq<string>)
    ensures forall i :: 0 <= i < |r| ==> |r[i]| > 0 && NoEdgeSpace(r[i])
  {
    NonBlank(SplitLines(s))
  }

  /** `s.split(":", 1)[1]` when `s` contains a colon. */
  function AfterFirstColon(s: string): (r: string)
    requires ':' in s
    ensures |r| < |s| && r == s[|s| - |r|..] && s[|s| - |r| - 1] == ':'
    ensures ':' !in s[..|s| - |r| - 1]
  {
    s[Find(s, ':') + 1..]
  }
  /** A piece of a suffix is a piece of the whole. */
  lemma ContainsFrom(s: string, k: nat, t: string)
    requires k <= |s| && Contains(s[k..], t)
    ensures Contains(s, t)
  {
    var j := ContainsWitness(s[k..], t);
    assert s[k + j..k + j + |t|] == s[k..][j..j + |t|];
    ContainsAt(s, t, k + j);
  }

  /** Every string contains itself. */
  lemma ContainsSelf(t: string)
    ensures Contains(t, t)
  {
    assert t[0..|t|] == t;
    ContainsAt(t, t, 0);
  }

  /** A piece of `a` or of `b` is a piece of `a + b`. */
  lemma ContainsConcat(a: string, b: string, t: string)
    ensures Contains(a, t) || Contains(b, t) ==> Contains(a + b, t)
  {
    if Contains(a, t) {
      var j := ContainsWitness(a, t);
      assert (a + b)[j..j + |t|] == a[j..j + |t|];
      ContainsAt(a + b, t, j);
    } else if Contains(b, t) {
      assert (a + b)[|a|..] == b;
      ContainsFrom(a + b, |a|, t);
    }
  }

  /** A piece of a piece is a piece. */
  lemma ContainsTrans(s: string, u: string, t: string)
    requires Contains(s, u) && Contains(u, t)
    ensures Contains(s, t)
  {
    var i := ContainsWitness(s, u);
    var j := ContainsWitness(u, t);
    var w, a, b := s[i..i + |u|], s[i + j..i + j + |t|], u[j..j + |t|];
    forall k | 0 <= k < |t|
      ensures a[k] == b[k]
    {
      assert a[k] == s[i + j + k] == w[j + k];
    }
    assert a == b;
    ContainsAt(s, t, i + j);
  }

  /** Only a string at least as long as a needle contains it. */
  lemma ContainsLength(s: string, t: string)
    requires Contains(s, t)
    ensures |t| <= |s|
  {
    var j := ContainsWitness(s, t);
  }

  /** The offset at which `Contains` finds the needle. */
  lemma {:induction false} ContainsWitness(s: string, t: string) returns (j: nat)
    requires Contains(s, t)
    ensures j + |t| <= |s| && s[j..j + |t|] == t
    decreases |s|
  {
    if StartsWith(s, t) {
      j := 0;
    } else {
      var j' := ContainsWitness(s[1..], t);
      assert s[1 + j'..1 + j' + |t|] == s[1..][j'..j' + |t|];
      j := 1 + j';
    }
  }

  /**
   When the lower-cased line starts with a tag ending in its only colon (as in
   `job title:`), the line's first colon is the tag's, so the text after the
   first colon is the text after the tag.
   */
  lemma AfterTag(ln: string, tag: string)
    requires |tag| > 0 && tag[|tag| - 1] == ':' && ':' !in tag[..|tag| - 1]
    requires StartsWith(LowerStr(ln), tag)
    ensures ':' in ln && AfterFirstColon(ln) == ln[|tag|..]
  {
    var n := |tag| - 1;
    assert LowerStr(ln)[n] == tag[n];
    assert ln[n] == ':';
    forall j | 0 <= j < n
      ensures ln[j] != ':'
    {
      assert LowerStr(ln)[j] == tag[j] && tag[j] in tag[..n];
    }
    assert Find(ln, ':') == n;
  }
}

=== FILE: text_utils.dfy ===
/**
 `src/text_utils.py`: whitespace canonicalisation (`clean_text`) and the
 paragraph-aware chunker (`split_into_chunks`).
 */
module TextUtils {
  import opened Chars
  import opened Seqs
  import opened Strs

  const NBSP: char := '\U{00A0}'

  // ---------------------------------------------------------------------------
  // clean_text
  // ---------------------------------------------------------------------------

  predicate DoubleSpaceAt(s: string, i: int)
    requires 0 <= i < |s| - 1
  {
    s[i] == ' ' && s[i + 1] == ' '
  }

  predicate TripleNewlineAt(s: string, i: int)
    requires 0 <= i < |s| - 2
  {
    s[i] == '\n' && s[i + 1] == '\n' && s[i + 2] == '\n'
  }

  predicate NoDoubleSpace(s: string) {
    forall i :: 0 <= i < |s| - 1 ==> !DoubleSpaceAt(s, i)
  }

  predicate NoTripleNewline(s: string) {
    forall i :: 0 <= i < |s| - 2 ==> !TripleNewlineAt(s, i)
  }

  /** What `clean_text` promises about its output. */
  predicate IsClean(s: string) {
    && NBSP !in s && '\t' !in s && '\r' !in s
    && NoDoubleSpace(s) && NoTripleNewline(s) && NoEdgeSpace(s)
  }

  /** `text.replace(" ", " ")`. */
  function ReplaceNbsp(s: string): (r: string)
    ensures |r| == |s|
    ensures NBSP !in r
    ensures forall i :: 0 <= i < |r| ==> r[i] == ' ' || r[i] in s
    ensures NBSP !in s ==> r == s
  {
    seq(|s|, i requires 0 <= i < |s| => if s[i] == NBSP then ' ' else s[i])
  }

  /** `re.sub(r"\r\n|\r", "\n", text)`: the alternation tries `\r\n` first. */
  function NormalizeLineEndings(s: string): (r: string)
    ensures '\r' !in r
    ensures forall i :: 0 <= i < |r| ==> r[i] == '\n' || r[i] in s
    ensures |s| > 0 ==> |r| > 0 && r[0] == (if s[0] == '\r' then '\n' else s[0])
    ensures '\r' !in s ==> r == s
    decreases |s|
  {
    if |s| == 0 then ""
    else if s[0] == '\r' && |s| > 1 && s[1] == '\n' then "\n" + NormalizeLineEndings(s[2..])
    else if s[0] == '\r' then "\n" + NormalizeLineEndings(s[1..])
    else [s[0]] + NormalizeLineEndings(s[1..])
  }

  /** The rewrite never makes two spaces adjacent. */
  lemma {:induction false} NormalizeLineEndingsNoDoubleSpace(s: string)
    requires NoDoubleSpace(s)
    ensures NoDoubleSpace(NormalizeLineEndings(s))
    decreases |s|
  {
    if |s| > 0 {
      if s[0] == '\r' && |s| > 1 && s[1] == '\n' {
        SuffixKeepsAdjacency(s, 2);
        NormalizeLineEndingsNoDoubleSpace(s[2..]);
        NoDoubleSpaceJoin("\n", NormalizeLineEndings(s[2..]));
      } else {
        SuffixKeepsAdjacency(s, 1);
        NormalizeLineEndingsNoDoubleSpace(s[1..]);
        if |s| > 1 {
          assert !DoubleSpaceAt(s, 0);
        }
        NoDoubleSpaceJoin(if s[0] == '\r' then "\n" else [s[0]], NormalizeLineEndings(s[1..]));
      }
    }
  }

  predicate IsNewline(c: char) {
    c == '\n'
  }

  /** `re.sub(r"\n{3,}", "\n\n", text)`: each maximal run of three or more newlines becomes two. */
  function CollapseNewlines(s: string): (r: string)
    ensures |s| > 0 ==> |r| > 0 && r[0] == s[0]
    ensures |r| <= |s|
    decreases |s|
  {
    if |s| == 0 then ""
    else if s[0] == '\n' then
      var rest := DropRun(s, IsNewline);
      var run := s[..|s| - |rest|];
      (if |run| >= 3 then "\n\n" else run) + CollapseNewlines(rest)
    else
      [s[0]] + CollapseNewlines(s[1..])
  }

  /** The rewrite introduces no character other than newlines. */
  lemma {:induction false} CollapseNewlinesKeepsAbsent(s: string, c: char)
    requires c != '\n' && c !in s
    ensures c !in CollapseNewlines(s)
    decreases |s|
  {
    if |s| > 0 {
      if s[0] == '\n' {
        var rest := DropRun(s, IsNewline);
        assert forall i :: 0 <= i < |rest| ==> rest[i] == s[|s| - |rest| + i];
        CollapseNewlinesKeepsAbsent(rest, c);
      } else {
        CollapseNewlinesKeepsAbsent(s[1..], c);
      }
    }
  }

  /** Joining two strings free of triple newlines, where the junction cannot form one. */
  lemma NoTripleNewlineJoin(a: string, b: string)
    requires NoTripleNewline(a) && NoTripleNewline(b)
    requires (|b| > 0 ==> b[0] != '\n') || (|a| > 0 && a[|a| - 1] != '\n')
    ensures NoTripleNewline(a + b)
  {
    var r := a + b;
    forall i | 0 <= i < |r| - 2
      ensures !TripleNewlineAt(r, i)
    {
      if i >= |a| {
        assert !TripleNewlineAt(b, i - |a|);
      } else if i + 2 < |a| {
        assert !TripleNewlineAt(a, i);
      }
    }
  }

  /** Joining two strings free of double spaces, where the junction cannot form one. */
  lemma NoDoubleSpaceJoin(a: string, b: string)
    requires NoDoubleSpace(a) && NoDoubleSpace(b)
    requires !(|a| > 0 && |b| > 0 && a[|a| - 1] == ' ' && b[0] == ' ')
    ensures NoDoubleSpace(a + b)
  {
    var r := a + b;
    forall i | 0 <= i < |r| - 1
      ensures !DoubleSpaceAt(r, i)
    {
      if i >= |a| {
        assert !DoubleSpaceAt(b, i - |a|);
      } else if i + 1 < |a| {
        assert !DoubleSpaceAt(a, i);
      }
    }
  }

  /** A suffix keeps both adjacency properties. */
  lemma SuffixKeepsAdjacency(s: string, k: nat)
    requires k <= |s|
    ensures NoTripleNewline(s) ==> NoTripleNewline(s[k..])
    ensures NoDoubleSpace(s) ==> NoDoubleSpace(s[k..])
  {
    SliceKeepsClean(s, s[k..], k);
  }

  /** After the rewrite no three newlines are adjacent. */
  lemma {:induction false} CollapseNewlinesNoTriple(s: string)
    ensures NoTripleNewline(CollapseNewlines(s))
    decreases |s|
  {
    if |s| > 0 {
      if s[0] == '\n' {
        var rest := DropRun(s, IsNewline);
        var run := s[..|s| - |rest|];
        var head := if |run| >= 3 then "\n\n" else run;
        CollapseNewlinesNoTriple(rest);
        assert |head| <= 2;
        assert |rest| > 0 ==> rest[0] != '\n';
        NoTripleNewlineJoin(head, CollapseNewlines(rest));
      } else {
        CollapseNewlinesNoTriple(s[1..]);
        NoTripleNewlineJoin([s[0]], CollapseNewlines(s[1..]));
      }
    }
  }

  /** The rewrite never makes two spaces adjacent. */
  lemma {:induction false} CollapseNewlinesNoDoubleSpace(s: string)
    requires NoDoubleSpace(s)
    ensures NoDoubleSpace(CollapseNewlines(s))
    decreases |s|
  {
    if |s| > 0 {
      if s[0] == '\n' {
        var rest := DropRun(s, IsNewline);
        var run := s[..|s| - |rest|];
        var head := if |run| >= 3 then "\n\n" else run;
        SuffixKeepsAdjacency(s, |run|);
        CollapseNewlinesNoDoubleSpace(rest);
        assert |head| > 0 && head[|head| - 1] == '\n';
        assert forall i :: 0 <= i < |head| - 1 ==> head[i] == '\n';
        NoDoubleSpaceJoin(head, CollapseNewlines(rest));
      } else {
        SuffixKeepsAdjacency(s, 1);
        CollapseNewlinesNoDoubleSpace(s[1..]);
        if |s| > 1 {
          assert !DoubleSpaceAt(s, 0);
        }
        NoDoubleSpaceJoin([s[0]], CollapseNewlines(s[1..]));
      }
    }
  }

  /** Text without a run of three newlines is left unchanged. */
  lemma {:induction false} CollapseNewlinesFixed(s: string)
    requires NoTripleNewline(s)
    ensures CollapseNewlines(s) == s
    decreases |s|
  {
    if |s| > 0 {
      if s[0] == '\n' {
        var rest := DropRun(s, IsNewline);
        var run := s[..|s| - |rest|];
        assert |s| >= 3 ==> !TripleNewlineAt(s, 0);
        assert |run| < 3;
        SuffixKeepsAdjacency(s, |run|);
        CollapseNewlinesFixed(rest);
        assert s == run + rest;
      } else {
        SuffixKeepsAdjacency(s, 1);
        CollapseNewlinesFixed(s[1..]);
      }
    }
  }

  /** The four rewrites of `clean_text`, before the final strip. */
  function CleanRewrites(text: string): string {
    CollapseNewlines(NormalizeLineEndings(CollapseRuns(ReplaceNbsp(text), IsHorizontalSpace)))
  }

  lemma CleanRewritesFacts(text: string)
    ensures var s := CleanRewrites(text);
      NBSP !in s && '\t' !in s && '\r' !in s && NoDoubleSpace(s) && NoTripleNewline(s)
  {
    var s1 := ReplaceNbsp(text);
    var s2 := CollapseRuns(s1, IsHorizontalSpace);
    assert NBSP !in s2 && '\t' !in s2 && NoDoubleSpace(s2);
    var s3 := NormalizeLineEndings(s2);
    assert NBSP !in s3 && '\t' !in s3;
    NormalizeLineEndingsNoDoubleSpace(s2);
    CollapseNewlinesNoTriple(s3);
    CollapseNewlinesNoDoubleSpace(s3);
    CollapseNewlinesKeepsAbsent(s3, NBSP);
    CollapseNewlinesKeepsAbsent(s3, '\t');
    CollapseNewlinesKeepsAbsent(s3, '\r');
  }

  /** `clean_text`: NBSP to space, `[ \t]+` to one space, line endings to `\n`, 3+ newlines to two, strip. */
  function CleanText(text: string): (r: string)
    ensures IsClean(r)
    ensures text == "" ==> r == ""
  {
    if text == "" then ""
    else
      CleanRewritesFacts(text);
      StripKeepsClean(CleanRewrites(text));
      Strip(CleanRewrites(text))
  }

  /** A contiguous slice keeps every "absent character" and "no adjacent run" property. */
  lemma SliceKeepsClean(s: string, r: string, k: nat)
    requires k + |r| <= |s| && r == s[k..k + |r|]
    ensures NBSP !in s ==> NBSP !in r
    ensures '\t' !in s ==> '\t' !in r
    ensures '\r' !in s ==> '\r' !in r
    ensures NoDoubleSpace(s) ==> NoDoubleSpace(r)
    ensures NoTripleNewline(s) ==> NoTripleNewline(r)
  {
    assert forall i :: 0 <= i < |r| ==> r[i] == s[k + i];
    if NoDoubleSpace(s) {
      forall i | 0 <= i < |r| - 1
        ensures !DoubleSpaceAt(r, i)
      {
        assert !DoubleSpaceAt(s, k + i);
      }
    }
    if NoTripleNewline(s) {
      forall i | 0 <= i < |r| - 2
        ensures !TripleNewlineAt(r, i)
      {
        assert !TripleNewlineAt(s, k + i);
      }
    }
  }

  lemma StripKeepsClean(s: string)
    requires NBSP !in s && '\t' !in s && '\r' !in s && NoDoubleSpace(s) && NoTripleNewline(s)
    ensures IsClean(Strip(s))
  {
    SliceKeepsClean(s, Strip(s), StripOffset(s));
  }

  /** Clean text is a fixed point of every step of `clean_text`. */
  lemma CleanTextFixed(s: string)
    requires IsClean(s)
    ensures CleanText(s) == s
  {
    if s != "" {
      forall i | 0 <= i < |s| - 1
        ensures !(IsHorizontalSpace(s[i]) && IsHorizontalSpace(s[i + 1]))
      {
        assert !DoubleSpaceAt(s, i);
      }
      CollapseRunsFixed(s, IsHorizontalSpace);
      CollapseNewlinesFixed(s);
    }
  }

  /** `clean_text` is idempotent. */
  lemma CleanTextIdempotent(text: string)
    ensures CleanText(CleanText(text)) == CleanText(text)
  {
    CleanTextFixed(CleanText(text));
  }

  // ---------------------------------------------------------------------------
  // split_into_chunks
  // ---------------------------------------------------------------------------

  /** `[p.strip() for p in text.split("\n\n") if p.strip()]`. */
  function Paragraphs(text: string): (r: seq<string>)
    ensures forall i :: 0 <= i < |r| ==> |r[i]| > 0 && NoEdgeSpace(r[i])
  {
    NonBlank(SplitOn(text, "\n\n"))
  }

  /** The first blank-line separator of `a + "\n\n" + b`, for a stripped `a` without one, is the added one. */
  lemma FirstParagraphBreak(a: string, b: string)
    requires !Contains(a, "\n\n") && NoEdgeSpace(a)
    ensures FindSub(a + "\n\n" + b, "\n\n") == |a|
  {
    var s := a + "\n\n" + b;
    assert OccursAt(s, "\n\n", |a|);
    var r := FindSub(s, "\n\n");
    if 0 <= r < |a| {
      NoBreakInside(a, b, r);
    }
  }

  /** No blank-line separator of `a + "\n\n" + b` starts inside a stripped `a` without one. */
  lemma NoBreakInside(a: string, b: string, j: nat)
    requires !Contains(a, "\n\n") && NoEdgeSpace(a) && j < |a|
    ensures !OccursAt(a + "\n\n" + b, "\n\n", j)
  {
    var s := a + "\n\n" + b;
    if OccursAt(s, "\n\n", j) {
      assert s[j] == s[j..j + 2][0] == '\n';
      if j + 2 <= |a| {
        assert a[j..j + 2] == s[j..j + 2];
        ContainsAt(a, "\n\n", j);
      }
    }
  }

  /** Splitting on blank lines after a stripped first paragraph without one. */
  lemma SplitParagraphsCons(a: string, b: string)
    requires !Contains(a, "\n\n") && NoEdgeSpace(a)
    ensures SplitOn(a + "\n\n" + b, "\n\n") == [a] + SplitOn(b, "\n\n")
  {
    var s := a + "\n\n" + b;
    FirstParagraphBreak(a, b);
    assert s[..|a|] == a && s[|a| + 2..] == b;
  }

  /** Stripped pieces without a blank-line separator, joined by one, split back into themselves. */
  lemma {:induction false} SplitJoinedParagraphs(ps: seq<string>)
    requires |ps| > 0
    requires forall i :: 0 <= i < |ps| ==> NoEdgeSpace(ps[i]) && !Contains(ps[i], "\n\n")
    ensures SplitOn(Join("\n\n", ps), "\n\n") == ps
    decreases |ps|
  {
    if |ps| == 1 {
      SplitOnAbsent(ps[0], "\n\n");
    } else {
      SplitJoinedParagraphs(ps[1..]);
      JoinCons("\n\n", ps[0], ps[1..]);
      SplitParagraphsCons(ps[0], Join("\n\n", ps[1..]));
      assert [ps[0]] + ps[1..] == ps;
    }
  }

  /**
   Paragraphs written out with one blank line between them come back as
   exactly those paragraphs.
   */
  lemma ParagraphsJoin(ps: seq<string>)
    requires forall i :: 0 <= i < |ps| ==> |ps[i]| > 0 && NoEdgeSpace(ps[i]) && !Contains(ps[i], "\n\n")
    ensures Paragraphs(Join("\n\n", ps)) == ps
  {
    if |ps| == 0 {
      NonBlankCons("", []);
      assert SplitOn("", "\n\n") == [""] by { SplitOnAbsent("", "\n\n"); }
      assert [""] == [""] + [];
    } else {
      SplitJoinedParagraphs(ps);
      NonBlankStripped(ps);
    }
  }

  /** One iteration of the hard-split loop: the slice `p[start:end]`. */
  datatype Window = Window(start: nat, end: nat)

  /** `end = min(start + size, len(p))`, and the slice is not empty. */
  predicate WindowFits(w: Window, n: nat, size: nat) {
    w.start < w.end <= n && w.end == Min(w.start + size, n)
  }

  /** `start = max(end - overlap, start + 1)` links window `k` to window `k + 1`. */
  predicate Advances(ws: seq<Window>, k: nat, overlap: int)
    requires k + 1 < |ws|
  {
    ws[k + 1].start == Max(ws[k].end - overlap, ws[k].start + 1)
  }

  /**
   The windows of the hard-split loop, from the given `start` on: each window
   is the next `size` characters (cut at the end of the paragraph), and the
   next window starts `overlap` characters before the current one ends, but at
   least one character after it starts. There are at most `n - start` of them,
   so the loop ends for every overlap.
   */
  function HardSplitWindows(n: nat, start: nat, size: nat, overlap: int): (ws: seq<Window>)
    requires size >= 1
    ensures start >= n <==> |ws| == 0
    ensures |ws| <= (if start < n then n - start else 0)
    ensures |ws| > 0 ==> ws[0].start == start
    ensures forall k :: 0 <= k < |ws| ==> start <= ws[k].start && WindowFits(ws[k], n, size)
    decreases n - start
  {
    if start >= n then []
    else
      var end := Min(start + size, n);
      var rest := HardSplitWindows(n, Max(end - overlap, start + 1), size, overlap);
      var ws := [Window(start, end)] + rest;
      assert forall k :: 1 <= k < |ws| ==> ws[k] == rest[k - 1];
      ws
  }

  /** The first window, followed by the windows from the updated `start`. */
  lemma HardSplitUnfold(n: nat, start: nat, size: nat, overlap: int)
    requires size >= 1 && start < n
    ensures var ws := HardSplitWindows(n, start, size, overlap);
      var end := Min(start + size, n);
      var rest := HardSplitWindows(n, Max(end - overlap, start + 1), size, overlap);
      ws == [Window(start, end)] + rest
  {
  }

  /** The second window starts where the loop's update of `start` after the first puts it. */
  lemma HardSplitFirstAdvance(n: nat, start: nat, size: nat, overlap: int)
    requires size >= 1 && 1 < |HardSplitWindows(n, start, size, overlap)|
    ensures Advances(HardSplitWindows(n, start, size, overlap), 0, overlap)
  {
    var ws := HardSplitWindows(n, start, size, overlap);
    var rest := HardSplitWindows(n, Max(Min(start + size, n) - overlap, start + 1), size, overlap);
    HardSplitUnfold(n, start, size, overlap);
    assert ws[1] == rest[0];
  }

  /** Window `k + 1` starts where the loop's update of `start` after window `k` puts it. */
  lemma {:induction false} HardSplitAdvances(n: nat, start: nat, size: nat, overlap: int, k: nat)
    requires size >= 1 && k + 1 < |HardSplitWindows(n, start, size, overlap)|
    ensures Advances(HardSplitWindows(n, start, size, overlap), k, overlap)
    decreases k
  {
    if k == 0 {
      HardSplitFirstAdvance(n, start, size, overlap);
    } else {
      var ws := HardSplitWindows(n, start, size, overlap);
      var next := Max(Min(start + size, n) - overlap, start + 1);
      var rest := HardSplitWindows(n, next, size, overlap);
      HardSplitUnfold(n, start, size, overlap);
      HardSplitAdvances(n, next, size, overlap, k - 1);
      AdvancesCons(Window(start, Min(start + size, n)), rest, k, overlap);
    }
  }

  /** The last window after a first one is the last of the rest, if there is any. */
  lemma LastOfCons(w: Window, rest: seq<Window>)
    ensures var ws := [w] + rest;
      ws[|ws| - 1] == if |rest| > 0 then rest[|rest| - 1] else w
  {
  }

  /** The link between windows `k - 1` and `k` of the rest is the link between `k` and `k + 1` after a first window. */
  lemma AdvancesCons(w: Window, rest: seq<Window>, k: nat, overlap: int)
    requires 1 <= k && k < |rest| && Advances(rest, k - 1, overlap)
    ensures Advances([w] + rest, k, overlap)
  {
    var ws := [w] + rest;
    assert ws[k] == rest[k - 1] && ws[k + 1] == rest[k];
  }

  /** With a non-negative overlap the last window reaches the end of the paragraph. */
  lemma {:induction false} HardSplitReachesEnd(n: nat, start: nat, size: nat, overlap: int)
    requires size >= 1 && overlap >= 0
    ensures var ws := HardSplitWindows(n, start, size, overlap);
      |ws| > 0 ==> ws[|ws| - 1].end == n
    decreases n - start
  {
    if start < n {
      var ws := HardSplitWindows(n, start, size, overlap);
      var end := Min(start + size, n);
      var next := Max(end - overlap, start + 1);
      var rest := HardSplitWindows(n, next, size, overlap);
      HardSplitUnfold(n, start, size, overlap);
      HardSplitReachesEnd(n, next, size, overlap);
      LastOfCons(Window(start, end), rest);
      if |rest| == 0 {
        assert next >= n;
      }
    }
  }

  /** Consecutive windows are linked by the loop's update of `start`. */
  lemma HardSplitLinks(n: nat, start: nat, size: nat, overlap: int)
    requires size >= 1
    ensures var ws := HardSplitWindows(n, start, size, overlap);
      forall k :: 0 <= k < |ws| - 1 ==> Advances(ws, k, overlap)
  {
    var ws := HardSplitWindows(n, start, size, overlap);
    forall k | 0 <= k < |ws| - 1
      ensures Advances(ws, k, overlap)
    {
      HardSplitAdvances(n, start, size, overlap, k);
    }
  }

  /**
   Each window starts at least one character after the previous one, and with a
   non-negative overlap it starts no later than the previous one ended: no gap.
   */
  lemma HardSplitProgress(n: nat, size: nat, overlap: int)
    requires size >= 1
    ensures var ws := HardSplitWindows(n, 0, size, overlap);
      && (n > 0 ==> |ws| > 0 && ws[0].start == 0)
      && (forall k :: 0 <= k < |ws| - 1 ==> ws[k].start < ws[k + 1].start)
      && (overlap >= 0 ==> forall k :: 0 <= k < |ws| - 1 ==> ws[k + 1].start <= ws[k].end)
  {
    var ws := HardSplitWindows(n, 0, size, overlap);
    forall k | 0 <= k < |ws| - 1
      ensures ws[k].start < ws[k + 1].start
      ensures overlap >= 0 ==> ws[k + 1].start <= ws[k].end
    {
      HardSplitAdvances(n, 0, size, overlap, k);
      assert Advances(ws, k, overlap) && WindowFits(ws[k], n, size);
    }
  }

  /**
   Once a window reaches the end of the paragraph, every later window also ends
   there and is strictly shorter: the loop keeps emitting shrinking tail pieces.
   */
  lemma HardSplitTail(n: nat, size: nat, overlap: int, k: nat)
    requires size >= 1
    requires k + 1 < |HardSplitWindows(n, 0, size, overlap)|
    requires HardSplitWindows(n, 0, size, overlap)[k].end == n
    ensures var ws := HardSplitWindows(n, 0, size, overlap);
      ws[k + 1].end == n && ws[k + 1].end - ws[k + 1].start < ws[k].end - ws[k].start
  {
    var ws := HardSplitWindows(n, 0, size, overlap);
    HardSplitAdvances(n, 0, size, overlap, k);
    assert Advances(ws, k, overlap) && WindowFits(ws[k], n, size) && WindowFits(ws[k + 1], n, size);
  }

  /** Offset `m` lies inside one of the windows. */
  predicate Covered(ws: seq<Window>, m: nat) {
    exists k :: 0 <= k < |ws| && ws[k].start <= m < ws[k].end
  }

  /** With a non-negative overlap the windows leave no gap: every offset of the paragraph is in one. */
  lemma {:induction false} HardSplitCovers(n: nat, start: nat, size: nat, overlap: int, m: nat)
    requires size >= 1 && overlap >= 0
    requires start <= m < n
    ensures Covered(HardSplitWindows(n, start, size, overlap), m)
    decreases n - start
  {
    var ws := HardSplitWindows(n, start, size, overlap);
    var end := Min(start + size, n);
    var next := Max(end - overlap, start + 1);
    var rest := HardSplitWindows(n, next, size, overlap);
    assert ws == [Window(start, end)] + rest;
    if m >= end {
      HardSplitCovers(n, next, size, overlap, m);
      var k :| 0 <= k < |rest| && rest[k].start <= m < rest[k].end;
      assert ws[k + 1] == rest[k];
      assert 0 <= k + 1 < |ws| && ws[k + 1].start <= m < ws[k + 1].end;
    } else {
      assert ws[0].start <= m < ws[0].end;
    }
  }

  /**
   The hard-split windows as evidently intended: the same windows as the loop
   computes, except that the loop stops after the first window that reaches
   the end of the paragraph. Only the last window reaches the end.
   */
  function SplitWindows(n: nat, start: nat, size: nat, overlap: int): (ws: seq<Window>)
    requires size >= 1
    ensures start >= n <==> |ws| == 0
    ensures |ws| <= (if start < n then n - start else 0)
    ensures |ws| > 0 ==> ws[0].start == start
    ensures forall k :: 0 <= k < |ws| ==> start <= ws[k].start && WindowFits(ws[k], n, size)
    ensures forall k :: 0 <= k < |ws| - 1 ==> ws[k].end < n
    decreases n - start
  {
    if start >= n then []
    else
      var end := Min(start + size, n);
      if end == n then [Window(start, end)]
      else
        var rest := SplitWindows(n, Max(end - overlap, start + 1), size, overlap);
        var ws := [Window(start, end)] + rest;
        assert forall k :: 1 <= k < |ws| ==> ws[k] == rest[k - 1];
        ws
  }

  /** The first intended window, followed by the intended windows from the updated `start`, when it does not reach the end. */
  lemma SplitWindowsUnfold(n: nat, start: nat, size: nat, overlap: int)
    requires size >= 1 && start + size < n
    ensures SplitWindows(n, start, size, overlap)
      == [Window(start, start + size)] + SplitWindows(n, Max(start + size - overlap, start + 1), size, overlap)
  {
  }

  /** A prefix stays a prefix under a common first element. */
  lemma PrefixCons<T>(w: T, a: seq<T>, b: seq<T>)
    requires |a| <= |b| && a == b[..|a|]
    ensures [w] + a == ([w] + b)[..1 + |a|]
  {
  }

  /** The intended windows are the loop's windows up to the first one that reaches the end. */
  lemma {:induction false} SplitWindowsPrefix(n: nat, start: nat, size: nat, overlap: int)
    requires size >= 1
    ensures var ws := SplitWindows(n, start, size, overlap);
      var all := HardSplitWindows(n, start, size, overlap);
      |ws| <= |all| && ws == all[..|ws|]
    decreases n - start
  {
    if start + size < n {
      var next := Max(start + size - overlap, start + 1);
      SplitWindowsPrefix(n, next, size, overlap);
      PrefixStep(n, start, size, overlap, next);
    } else if start < n {
      LastWindowPrefix(n, start, size, overlap);
    }
  }

  /** The inductive step of `SplitWindowsPrefix`: a first window that does not reach the end is shared. */
  lemma PrefixStep(n: nat, start: nat, size: nat, overlap: int, next: nat)
    requires size >= 1 && start + size < n && next == Max(start + size - overlap, start + 1)
    requires |SplitWindows(n, next, size, overlap)| <= |HardSplitWindows(n, next, size, overlap)|
    requires SplitWindows(n, next, size, overlap) == HardSplitWindows(n, next, size, overlap)[..|SplitWindows(n, next, size, overlap)|]
    ensures |SplitWindows(n, start, size, overlap)| <= |HardSplitWindows(n, start, size, overlap)|
    ensures SplitWindows(n, start, size, overlap) == HardSplitWindows(n, start, size, overlap)[..|SplitWindows(n, start, size, overlap)|]
  {
    HardSplitStep(n, start, size, overlap, start + size, next);
    SplitWindowsUnfold(n, start, size, overlap);
    PrefixCons(Window(start, start + size), SplitWindows(n, next, size, overlap), HardSplitWindows(n, next, size, overlap));
  }

  /** A first window that reaches the end is the only intended window, and the loop's first. */
  lemma LastWindowPrefix(n: nat, start: nat, size: nat, overlap: int)
    requires size >= 1 && start < n <= start + size
    ensures var ws := SplitWindows(n, start, size, overlap);
      var all := HardSplitWindows(n, start, size, overlap);
      |ws| <= |all| && ws == all[..|ws|]
  {
    HardSplitUnfold(n, start, size, overlap);
  }

  /** With a non-negative overlap the intended windows end exactly at the end of the paragraph. */
  lemma {:induction false} SplitWindowsReachEnd(n: nat, start: nat, size: nat, overlap: int)
    requires size >= 1 && overlap >= 0
    ensures var ws := SplitWindows(n, start, size, overlap);
      |ws| > 0 ==> ws[|ws| - 1].end == n
    decreases n - start
  {
    if start + size < n {
      var next := Max(start + size - overlap, start + 1);
      SplitWindowsReachEnd(n, next, size, overlap);
      SplitWindowsUnfold(n, start, size, overlap);
      LastOfCons(Window(start, start + size), SplitWindows(n, next, size, overlap));
    }
  }

  /** With a non-negative overlap the intended windows also leave no gap. */
  lemma {:induction false} SplitWindowsCover(n: nat, start: nat, size: nat, overlap: int, m: nat)
    requires size >= 1 && overlap >= 0
    requires start <= m < n
    ensures Covered(SplitWindows(n, start, size, overlap), m)
    decreases n - start
  {
    var ws := SplitWindows(n, start, size, overlap);
    var end := Min(start + size, n);
    if m < end {
      assert ws[0].start <= m < ws[0].end;
    } else {
      var next := Max(end - overlap, start + 1);
      var rest := SplitWindows(n, next, size, overlap);
      assert ws == [Window(start, end)] + rest;
      SplitWindowsCover(n, next, size, overlap, m);
      var k :| 0 <= k < |rest| && rest[k].start <= m < rest[k].end;
      assert ws[k + 1] == rest[k];
    }
  }

  /**
   A three-character paragraph split at two with an overlap of one: the loop
   as written emits three windows, of which the last two reach the end of the
   paragraph; the third piece repeats the end of the second.
   */
  lemma TailPiecesExample()
    ensures HardSplitWindows(3, 0, 2, 1) == [Window(0, 2), Window(1, 3), Window(2, 3)]
  {
    TailPiecesFrom1();
    HardSplitStep(3, 0, 2, 1, 2, 1);
  }

  /** The windows of the example from offset 1 on. */
  lemma TailPiecesFrom1()
    ensures HardSplitWindows(3, 1, 2, 1) == [Window(1, 3), Window(2, 3)]
  {
    TailPiecesFrom2();
    HardSplitStep(3, 1, 2, 1, 3, 2);
  }

  /** The windows of the example from offset 2 on. */
  lemma TailPiecesFrom2()
    ensures HardSplitWindows(3, 2, 2, 1) == [Window(2, 3)]
  {
    HardSplitStep(3, 2, 2, 1, 3, 3);
    assert HardSplitWindows(3, 3, 2, 1) == [];
  }

  /** `HardSplitUnfold` with the end of the first window and the next `start` named. */
  lemma HardSplitStep(n: nat, start: nat, size: nat, overlap: int, end: nat, next: nat)
    requires size >= 1 && start < n && end == Min(start + size, n) && next == Max(end - overlap, start + 1)
    ensures HardSplitWindows(n, start, size, overlap) == [Window(start, end)] + HardSplitWindows(n, next, size, overlap)
  {
    HardSplitUnfold(n, start, size, overlap);
  }

  /** The same paragraph under the intended split: two windows, the second ending the paragraph. */
  lemma IntendedPiecesExample()
    ensures SplitWindows(3, 0, 2, 1) == [Window(0, 2), Window(1, 3)]
  {
    assert SplitWindows(3, 1, 2, 1) == [Window(1, 3)];
    SplitWindowsUnfold(3, 0, 2, 1);
  }

  /** `c` is a stripped slice of the paragraph `p`. */
  ghost predicate PieceOf(c: string, p: string) {
    exists a, b :: 0 <= a <= b <= |p| && c == Strip(p[a..b])
  }

  /**
   The pieces of the hard split: `p[start:end].strip()` for every window of the
   loop as written, tail pieces included. Each is a stripped slice of the
   paragraph that fits in `size`.
   */
  function HardSplit(p: string, size: nat, overlap: int): (pieces: seq<string>)
    requires size >= 1
    ensures |pieces| == |HardSplitWindows(|p|, 0, size, overlap)| <= |p|
    ensures forall k :: 0 <= k < |pieces| ==> |pieces[k]| <= size && NoEdgeSpace(pieces[k])
    ensures forall k :: 0 <= k < |pieces| ==> PieceOf(pieces[k], p)
  {
    var ws := HardSplitWindows(|p|, 0, size, overlap);
    seq(|ws|, k requires 0 <= k < |ws| => Piece(p, ws[k]))
  }

  /** `p[start:end].strip()` for one window. */
  function Piece(p: string, w: Window): (c: string)
    requires w.start <= w.end <= |p|
    ensures |c| <= w.end - w.start && NoEdgeSpace(c) && PieceOf(c, p)
  {
    Strip(p[w.start..w.end])
  }

  /** The chunks emitted so far and the paragraph buffer `buf`. */
  datatype PackState = PackState(chunks: seq<string>, buf: string)

  /** Every emitted chunk fits and is stripped; so does the buffer's length. */
  predicate PackInvariant(st: PackState, size: nat) {
    && |st.buf| <= size
    && forall i :: 0 <= i < |st.chunks| ==> |st.chunks[i]| <= size && NoEdgeSpace(st.chunks[i])
  }

  /** `flush_buf`. */
  function Flush(st: PackState, size: nat): (r: PackState)
    requires PackInvariant(st, size)
    ensures PackInvariant(r, size) && r.buf == ""
    ensures r.chunks == st.chunks || r.chunks == st.chunks + [Strip(st.buf)]
  {
    var b := Strip(st.buf);
    if b != "" then PackState(st.chunks + [b], "") else PackState(st.chunks, "")
  }

  /** One iteration of `for p in paragraphs`. */
  function PackStep(st: PackState, p: string, size: nat, overlap: int): (r: PackState)
    requires size >= 1 && PackInvariant(st, size)
    ensures PackInvariant(r, size)
  {
    if |st.buf| + |p| + 2 <= size then
      var joined := st.buf + "\n\n" + p;
      assert |Strip(joined)| <= |joined| == |st.buf| + |p| + 2;
      PackState(st.chunks, if st.buf != "" then Strip(joined) else p)
    else
      var f := Flush(st, size);
      if |p| <= size then PackState(f.chunks, p)
      else PackState(f.chunks + HardSplit(p, size, overlap), "")
  }

  /** The paragraph loop over `paras`, starting from no chunks and an empty buffer. */
  function Pack(paras: seq<string>, size: nat, overlap: int): (st: PackState)
    requires size >= 1
    ensures PackInvariant(st, size)
    decreases |paras|
  {
    if |paras| == 0 then PackState([], "")
    else PackStep(Pack(paras[..|paras| - 1], size, overlap), paras[|paras| - 1], size, overlap)
  }

  /** The chunks before the overlap pass: every one fits in `size` and is stripped. */
  function PreOverlapChunks(cleaned: string, size: nat, overlap: int): (cs: seq<string>)
    requires size >= 1
    ensures forall i :: 0 <= i < |cs| ==> |cs[i]| <= size && NoEdgeSpace(cs[i])
  {
    Flush(Pack(Paragraphs(cleaned), size, overlap), size).chunks
  }

  // Where the chunks before the overlap pass come from.

  /** Every paragraph is non-empty and stripped, as `Paragraphs` makes them. */
  predicate AllStripped(paras: seq<string>) {
    forall i :: 0 <= i < |paras| ==> |paras[i]| > 0 && NoEdgeSpace(paras[i])
  }

  /**
   A chunk the packing loop can emit: consecutive paragraphs `a..b` joined by
   a blank line, or a stripped slice of one paragraph.
   */
  ghost predicate FromParagraphs(c: string, paras: seq<string>) {
    || (exists a, b :: 0 <= a < b <= |paras| && c == Join("\n\n", paras[a..b]))
    || (exists j :: 0 <= j < |paras| && PieceOf(c, paras[j]))
  }

  ghost predicate ChunksFrom(cs: seq<string>, paras: seq<string>) {
    forall i :: 0 <= i < |cs| ==> FromParagraphs(cs[i], paras)
  }

  /** The buffer is empty or holds the paragraphs from some `a` to the last one read, joined. */
  ghost predicate BufFrom(buf: string, paras: seq<string>) {
    buf == "" || exists a :: 0 <= a < |paras| && buf == Join("\n\n", paras[a..])
  }

  /** `sep.join` of the parts and one more. */
  lemma {:induction false} JoinSnoc(sep: string, xs: seq<string>, x: string)
    requires |xs| > 0
    ensures Join(sep, xs + [x]) == Join(sep, xs) + sep + x
    decreases |xs|
  {
    if |xs| == 1 {
      assert xs + [x] == [xs[0]] + [x];
      JoinCons(sep, xs[0], [x]);
    } else {
      JoinSnoc(sep, xs[1..], x);
      assert xs + [x] == [xs[0]] + (xs[1..] + [x]);
      JoinCons(sep, xs[0], xs[1..] + [x]);
      JoinCons(sep, xs[0], xs[1..]);
      ConcatAssoc(xs[0] + sep, Join(sep, xs[1..]) + sep, x);
      ConcatAssoc(xs[0] + sep, Join(sep, xs[1..]), sep);
    }
  }

  /** Stripped non-empty parts joined by a blank line give a stripped non-empty string. */
  lemma {:induction false} JoinStripped(ps: seq<string>)
    requires |ps| > 0 && AllStripped(ps)
    ensures |Join("\n\n", ps)| > 0 && NoEdgeSpace(Join("\n\n", ps))
    ensures Join("\n\n", ps)[0] == ps[0][0]
    ensures Join("\n\n", ps)[|Join("\n\n", ps)| - 1] == ps[|ps| - 1][|ps[|ps| - 1]| - 1]
    decreases |ps|
  {
    if |ps| > 1 {
      JoinStripped(ps[1..]);
      JoinCons("\n\n", ps[0], ps[1..]);
    }
  }

  /** Chunks drawn from the paragraphs read so far are drawn from the longer list. */
  lemma ChunksFromSnoc(cs: seq<string>, init: seq<string>, p: string)
    requires ChunksFrom(cs, init)
    ensures ChunksFrom(cs, init + [p])
  {
    var paras := init + [p];
    forall i | 0 <= i < |cs|
      ensures FromParagraphs(cs[i], paras)
    {
      if exists a, b :: 0 <= a < b <= |init| && cs[i] == Join("\n\n", init[a..b]) {
        var a, b :| 0 <= a < b <= |init| && cs[i] == Join("\n\n", init[a..b]);
        assert paras[a..b] == init[a..b];
      } else {
        var j :| 0 <= j < |init| && PieceOf(cs[i], init[j]);
        assert paras[j] == init[j];
      }
    }
  }

  /** Appending chunks drawn from the paragraphs. */
  lemma ChunksFromAppend(cs: seq<string>, ds: seq<string>, paras: seq<string>)
    requires ChunksFrom(cs, paras) && ChunksFrom(ds, paras)
    ensures ChunksFrom(cs + ds, paras)
  {
    assert forall i :: |cs| <= i < |cs| + |ds| ==> (cs + ds)[i] == ds[i - |cs|];
  }

  /** The last paragraph alone is a buffer of the list. */
  lemma BufLast(paras: seq<string>)
    requires |paras| > 0
    ensures BufFrom(paras[|paras| - 1], paras)
  {
    assert paras[|paras| - 1..] == [paras[|paras| - 1]];
  }

  /** `(buf + "\n\n" + p).strip()` of a buffer of `init` is a buffer of `init + [p]`, unstripped. */
  lemma BufGrow(buf: string, init: seq<string>, p: string)
    requires buf != "" && BufFrom(buf, init) && AllStripped(init + [p])
    ensures Strip(buf + "\n\n" + p) == buf + "\n\n" + p
    ensures BufFrom(buf + "\n\n" + p, init + [p])
  {
    var paras := init + [p];
    var a :| 0 <= a < |init| && buf == Join("\n\n", init[a..]);
    assert paras[a..] == init[a..] + [p];
    assert AllStripped(paras[a..]);
    JoinSnoc("\n\n", init[a..], p);
    JoinStripped(paras[a..]);
    StripStripped(buf + "\n\n" + p);
  }

  /** The buffer is empty or holds consecutive paragraphs joined by a blank line. */
  ghost predicate Consecutive(buf: string, paras: seq<string>) {
    buf == "" || exists a, b :: 0 <= a < b <= |paras| && buf == Join("\n\n", paras[a..b])
  }

  /** A buffer reaching the last paragraph is consecutive paragraphs. */
  lemma BufConsecutive(buf: string, paras: seq<string>)
    requires BufFrom(buf, paras)
    ensures Consecutive(buf, paras)
  {
    if buf != "" {
      var a :| 0 <= a < |paras| && buf == Join("\n\n", paras[a..]);
      assert paras[a..] == paras[a..|paras|];
    }
  }

  /** A buffer of the paragraphs read so far is consecutive paragraphs of the longer list. */
  lemma BufSnoc(buf: string, init: seq<string>, p: string)
    requires BufFrom(buf, init)
    ensures Consecutive(buf, init + [p])
  {
    if buf != "" {
      var a :| 0 <= a < |init| && buf == Join("\n\n", init[a..]);
      assert (init + [p])[a..|init|] == init[a..];
    }
  }

  /** A non-empty buffer, once flushed, is a chunk of its paragraphs, unchanged by the strip. */
  lemma FlushFrom(st: PackState, size: nat, paras: seq<string>)
    requires PackInvariant(st, size) && ChunksFrom(st.chunks, paras) && Consecutive(st.buf, paras)
    requires AllStripped(paras)
    ensures ChunksFrom(Flush(st, size).chunks, paras)
  {
    if st.buf != "" {
      var a, b :| 0 <= a < b <= |paras| && st.buf == Join("\n\n", paras[a..b]);
      assert AllStripped(paras[a..b]);
      JoinStripped(paras[a..b]);
      StripStripped(st.buf);
      assert FromParagraphs(st.buf, paras);
      ChunksFromAppend(st.chunks, [st.buf], paras);
    }
  }

  /** The pieces of the hard split of the last paragraph are chunks of the list. */
  lemma HardSplitFrom(p: string, size: nat, overlap: int, paras: seq<string>)
    requires size >= 1 && |paras| > 0 && paras[|paras| - 1] == p
    ensures ChunksFrom(HardSplit(p, size, overlap), paras)
  {
    var pieces := HardSplit(p, size, overlap);
    forall k | 0 <= k < |pieces|
      ensures FromParagraphs(pieces[k], paras)
    {
      assert PieceOf(pieces[k], paras[|paras| - 1]);
    }
  }

  /** One paragraph of the loop keeps every chunk and the buffer drawn from the paragraphs. */
  lemma PackStepFrom(st: PackState, init: seq<string>, p: string, size: nat, overlap: int)
    requires size >= 1 && PackInvariant(st, size) && AllStripped(init + [p])
    requires ChunksFrom(st.chunks, init) && BufFrom(st.buf, init)
    ensures ChunksFrom(PackStep(st, p, size, overlap).chunks, init + [p])
    ensures BufFrom(PackStep(st, p, size, overlap).buf, init + [p])
  {
    ChunksFromSnoc(st.chunks, init, p);
    BufLast(init + [p]);
    if |st.buf| + |p| + 2 <= size {
      JoinBranchFrom(st, init, p, size, overlap);
    } else {
      BufSnoc(st.buf, init, p);
      FlushBranchFrom(st, init + [p], size, overlap);
    }
  }

  /** The branch that appends the paragraph to the buffer. */
  lemma JoinBranchFrom(st: PackState, init: seq<string>, p: string, size: nat, overlap: int)
    requires size >= 1 && PackInvariant(st, size) && AllStripped(init + [p])
    requires |st.buf| + |p| + 2 <= size
    requires BufFrom(st.buf, init) && BufFrom(p, init + [p])
    ensures PackStep(st, p, size, overlap).chunks == st.chunks
    ensures BufFrom(PackStep(st, p, size, overlap).buf, init + [p])
  {
    if st.buf != "" {
      BufGrow(st.buf, init, p);
    }
  }

  /** The branch that flushes the buffer, then buffers or hard-splits the last paragraph. */
  lemma FlushBranchFrom(st: PackState, paras: seq<string>, size: nat, overlap: int)
    requires size >= 1 && PackInvariant(st, size) && |paras| > 0 && AllStripped(paras)
    requires |st.buf| + |paras[|paras| - 1]| + 2 > size
    requires ChunksFrom(st.chunks, paras) && Consecutive(st.buf, paras)
    requires BufFrom(paras[|paras| - 1], paras)
    ensures ChunksFrom(PackStep(st, paras[|paras| - 1], size, overlap).chunks, paras)
    ensures BufFrom(PackStep(st, paras[|paras| - 1], size, overlap).buf, paras)
  {
    var p := paras[|paras| - 1];
    FlushFrom(st, size, paras);
    if |p| > size {
      HardSplitFrom(p, size, overlap, paras);
      ChunksFromAppend(Flush(st, size).chunks, HardSplit(p, size, overlap), paras);
    }
  }

  /** Every chunk the paragraph loop emits, and its buffer, are drawn from the paragraphs. */
  lemma {:induction false} PackFrom(paras: seq<string>, size: nat, overlap: int)
    requires size >= 1 && AllStripped(paras)
    ensures ChunksFrom(Pack(paras, size, overlap).chunks, paras)
    ensures BufFrom(Pack(paras, size, overlap).buf, paras)
    decreases |paras|
  {
    if |paras| > 0 {
      var init, p := paras[..|paras| - 1], paras[|paras| - 1];
      assert init + [p] == paras;
      assert AllStripped(init);
      PackFrom(init, size, overlap);
      PackStepFrom(Pack(init, size, overlap), init, p, size, overlap);
    }
  }

  /**
   Every chunk before the overlap pass is either paragraphs `a..b` of the
   cleaned text joined by a blank line, or a stripped slice of one paragraph.
   */
  lemma PreOverlapFrom(cleaned: string, size: nat, overlap: int)
    requires size >= 1
    ensures ChunksFrom(PreOverlapChunks(cleaned, size, overlap), Paragraphs(cleaned))
  {
    var paras := Paragraphs(cleaned);
    PackFrom(paras, size, overlap);
    BufConsecutive(Pack(paras, size, overlap).buf, paras);
    FlushFrom(Pack(paras, size, overlap), size, paras);
  }

  /** `prev[-overlap:] if len(prev) > overlap else prev`. */
  function OverlapTail(prev: string, overlap: nat): (t: string)
    ensures |t| <= overlap && |t| <= |prev| && t == prev[|prev| - |t|..]
    ensures |prev| <= overlap ==> t == prev
  {
    if |prev| > overlap then prev[|prev| - overlap..] else prev
  }

  predicate IsSuffix(a: string, b: string) {
    |a| <= |b| && b[|b| - |a|..] == a
  }

  /**
   Stripping `x + c` where `c` is non-empty and stripped keeps all of `c`:
   the result is a suffix of `x` followed by `c`.
   */
  lemma StripKeepsTail(x: string, c: string)
    ensures var r := Strip(x + c);
      |c| > 0 && NoEdgeSpace(c) ==> |r| >= |c| && r[|r| - |c|..] == c && IsSuffix(r[..|r| - |c|], x)
  {
    if |c| > 0 && NoEdgeSpace(c) {
      StripKeepsNonEmptyTail(x, c);
    }
  }

  lemma StripKeepsNonEmptyTail(x: string, c: string)
    requires |c| > 0 && NoEdgeSpace(c)
    ensures var r := Strip(x + c);
      |r| >= |c| && r[|r| - |c|..] == c && IsSuffix(r[..|r| - |c|], x)
  {
    var s := x + c;
    var r := Strip(s);
    var o := StripOffset(s);
    assert s[|s| - 1] == c[|c| - 1];
    assert o + |r| == |s|;
    assert s[|x|] == c[0];
    assert o <= |x|;
    assert r == x[o..] + c;
  }

  /**
   `out` is the overlap pass's output for the input chunk `c` after the output
   chunk `before`: at most `overlap + 1` characters longer than `c`, and, when
   `c` is non-empty and stripped, it ends with the whole of `c`, preceded by a
   suffix of `before`'s tail plus a newline.
   */
  predicate Joined(out: string, before: string, c: string, overlap: nat) {
    && |out| <= overlap + 1 + |c|
    && (|c| > 0 && NoEdgeSpace(c) ==>
          && IsSuffix(c, out)
          && IsSuffix(out[..|out| - |c|], OverlapTail(before, overlap) + "\n"))
  }

  /** Output chunk `i` is joined to output chunk `i - 1`. */
  predicate OverlapJoined(r: seq<string>, cs: seq<string>, i: nat, overlap: nat)
    requires 1 <= i < |r| == |cs|
  {
    Joined(r[i], r[i - 1], cs[i], overlap)
  }

  /** `(take + "\n" + c).strip()`: one step of the overlap pass, joined to `before`. */
  function JoinChunk(before: string, c: string, overlap: nat): (out: string)
    ensures Joined(out, before, c, overlap)
  {
    var x := OverlapTail(before, overlap) + "\n";
    StripKeepsTail(x, c);
    assert |Strip(x + c)| <= |x + c|;
    Strip(x + c)
  }

  /**
   The overlap pass: every chunk after the first is prefixed with up to
   `overlap` trailing characters of the previous OUTPUT chunk and a newline,
   then stripped.
   */
  function AddOverlap(cs: seq<string>, overlap: nat): (r: seq<string>)
    ensures |r| == |cs|
    ensures |cs| > 0 ==> r[0] == cs[0]
    decreases |cs|
  {
    if |cs| <= 1 then cs
    else
      var prev := AddOverlap(cs[..|cs| - 1], overlap);
      prev + [JoinChunk(prev[|prev| - 1], cs[|cs| - 1], overlap)]
  }

  /** Every chunk of `r` after the first is joined to the one before it. */
  predicate AllJoined(r: seq<string>, cs: seq<string>, overlap: nat)
    requires |r| == |cs|
  {
    forall i :: 1 <= i < |cs| ==> OverlapJoined(r, cs, i, overlap)
  }

  /** Every output chunk after the first is its input chunk joined to the previous output chunk. */
  lemma {:induction false} AddOverlapJoined(cs: seq<string>, overlap: nat)
    ensures AllJoined(AddOverlap(cs, overlap), cs, overlap)
    decreases |cs|
  {
    if |cs| > 1 {
      var init := cs[..|cs| - 1];
      var prev := AddOverlap(init, overlap);
      var c := cs[|cs| - 1];
      var last := JoinChunk(prev[|prev| - 1], c, overlap);
      AddOverlapSnoc(cs, overlap);
      AddOverlapJoined(init, overlap);
      JoinedAppend(prev, cs, last, overlap);
    }
  }

  lemma AddOverlapSnoc(cs: seq<string>, overlap: nat)
    requires |cs| > 1
    ensures var prev := AddOverlap(cs[..|cs| - 1], overlap);
      AddOverlap(cs, overlap) == prev + [JoinChunk(prev[|prev| - 1], cs[|cs| - 1], overlap)]
  {
  }

  /** Appending a chunk joined to the last output keeps every chunk joined. */
  lemma JoinedAppend(prev: seq<string>, cs: seq<string>, last: string, overlap: nat)
    requires 0 < |prev| == |cs| - 1 && AllJoined(prev, cs[..|cs| - 1], overlap)
    requires Joined(last, prev[|prev| - 1], cs[|cs| - 1], overlap)
    ensures AllJoined(prev + [last], cs, overlap)
  {
    var r := prev + [last];
    forall i | 1 <= i < |cs|
      ensures OverlapJoined(r, cs, i, overlap)
    {
      if i < |prev| {
        assert OverlapJoined(prev, cs[..|cs| - 1], i, overlap);
        assert r[i] == prev[i] && r[i - 1] == prev[i - 1];
      } else {
        assert r[i] == last && r[i - 1] == prev[|prev| - 1];
      }
    }
  }

  /** Every chunk has at most `n` characters. */
  predicate AllWithin(cs: seq<string>, n: int) {
    forall i :: 0 <= i < |cs| ==> |cs[i]| <= n
  }

  /** Dropping the empty chunks keeps the length bound. */
  lemma FilteredWithin(cs: seq<string>, n: int)
    requires AllWithin(cs, n)
    ensures AllWithin(Filter(cs, NonEmpty), n)
  {
    var r := Filter(cs, NonEmpty);
    forall i | 0 <= i < |r|
      ensures |r[i]| <= n
    {
      var j :| 0 <= j < |cs| && cs[j] == r[i];
    }
  }

  /** `if overlap > 0 and len(chunks) > 1`: the overlap pass runs only then. */
  function OverlapPass(chunks: seq<string>, overlap: int): (out: seq<string>)
    ensures |out| == |chunks|
    ensures overlap <= 0 ==> out == chunks
    ensures |chunks| > 0 ==> out[0] == chunks[0]
    ensures overlap > 0 ==> AllJoined(out, chunks, overlap)
  {
    if overlap > 0 && |chunks| > 1 then
      AddOverlapJoined(chunks, overlap);
      AddOverlap(chunks, overlap)
    else chunks
  }

  /** The overlap pass lengthens a chunk by at most the overlap plus the newline. */
  lemma OverlapPassBound(chunks: seq<string>, size: nat, overlap: int)
    requires AllWithin(chunks, size)
    ensures AllWithin(OverlapPass(chunks, overlap), size + (if overlap > 0 then overlap + 1 else 0))
  {
    var out := OverlapPass(chunks, overlap);
    if overlap > 0 && |chunks| > 1 {
      AddOverlapJoined(chunks, overlap);
      forall i | 0 <= i < |out|
        ensures |out[i]| <= size + overlap + 1
      {
        if i > 0 {
          assert OverlapJoined(out, chunks, i, overlap);
        }
      }
    }
  }

  /**
   Everything `split_into_chunks` does after cleaning a non-empty text:
   paragraph packing, the overlap pass and dropping empty chunks.
   */
  function ChunkCleaned(t: string, chunkSize: nat, overlap: int): (r: seq<string>)
    requires chunkSize >= 1
    ensures forall i :: 0 <= i < |r| ==> r[i] != ""
    ensures AllWithin(r, chunkSize + (if overlap > 0 then overlap + 1 else 0))
  {
    var chunks := PreOverlapChunks(t, chunkSize, overlap);
    var out := OverlapPass(chunks, overlap);
    OverlapPassBound(chunks, chunkSize, overlap);
    FilteredWithin(out, chunkSize + (if overlap > 0 then overlap + 1 else 0));
    Filter(out, NonEmpty)
  }

  /**
   `split_into_chunks(text, chunk_size, overlap)`: empty for blank text, never
   an empty chunk, and every chunk within `chunk_size` plus the overlap prefix.
   */
  function SplitIntoChunks(text: string, chunkSize: nat, overlap: int): (r: seq<string>)
    requires chunkSize >= 1
    ensures CleanText(text) == "" ==> r == []
    ensures forall i :: 0 <= i < |r| ==> r[i] != ""
    ensures AllWithin(r, chunkSize + (if overlap > 0 then overlap + 1 else 0))
  {
    var t := CleanText(text);
    if t == "" then [] else ChunkCleaned(t, chunkSize, overlap)
  }

  /**
   Without the overlap pass (`overlap <= 0`), every chunk returned is
   consecutive paragraphs of the cleaned text joined by a blank line, or a
   stripped slice of one of its paragraphs.
   */
  lemma SplitIntoChunksFrom(text: string, chunkSize: nat, overlap: int)
    requires chunkSize >= 1 && overlap <= 0
    ensures ChunksFrom(SplitIntoChunks(text, chunkSize, overlap), Paragraphs(CleanText(text)))
  {
    var t := CleanText(text);
    if t != "" {
      ChunkCleanedFrom(t, chunkSize, overlap);
    }
  }

  /** The same for a text already cleaned and not empty. */
  lemma ChunkCleanedFrom(t: string, chunkSize: nat, overlap: int)
    requires chunkSize >= 1 && overlap <= 0
    ensures ChunksFrom(ChunkCleaned(t, chunkSize, overlap), Paragraphs(t))
  {
    var cs := PreOverlapChunks(t, chunkSize, overlap);
    PreOverlapFrom(t, chunkSize, overlap);
    FilterChunksFrom(cs, Paragraphs(t));
  }

  /** Dropping the empty chunks keeps every chunk drawn from the paragraphs. */
  lemma FilterChunksFrom(cs: seq<string>, paras: seq<string>)
    requires ChunksFrom(cs, paras)
    ensures ChunksFrom(Filter(cs, NonEmpty), paras)
  {
    var r := Filter(cs, NonEmpty);
    forall i | 0 <= i < |r|
      ensures FromParagraphs(r[i], paras)
    {
      var j :| 0 <= j < |cs| && cs[j] == r[i];
    }
  }

  /** A single non-empty stripped paragraph that fits is packed into one chunk, unchanged. */
  lemma PackSingle(t: string, size: nat, overlap: int)
    requires 0 < |t| <= size && NoEdgeSpace(t)
    ensures Flush(Pack([t], size, overlap), size).chunks == [t]
  {
    assert [t][..0] == [];
    assert Pack([t], size, overlap).buf == t;
    StripStripped(t);
  }

  /** A cleaned text without a blank line that fits in one chunk is split into exactly itself. */
  lemma SplitIntoChunksShort(text: string, chunkSize: nat, overlap: int)
    requires chunkSize >= 1
    requires CleanText(text) != "" && |CleanText(text)| <= chunkSize
    requires !Contains(CleanText(text), "\n\n")
    ensures SplitIntoChunks(text, chunkSize, overlap) == [CleanText(text)]
  {
    var t := CleanText(text);
    SplitOnAbsent(t, "\n\n");
    NonBlankSingle(t);
    PackSingle(t, chunkSize, overlap);
    assert PreOverlapChunks(t, chunkSize, overlap) == [t];
    assert OverlapPass([t], overlap) == [t];
  }

  // ---------------------------------------------------------------------------
  // Every paragraph reaches the output
  // ---------------------------------------------------------------------------

  /** Some chunk of `cs` contains `t`. */
  ghost predicate InSome(cs: seq<string>, t: string) {
    exists k :: 0 <= k < |cs| && Contains(cs[k], t)
  }

  /** Every non-empty piece is contained in some chunk. */
  ghost predicate PiecesIn(cs: seq<string>, pieces: seq<string>) {
    forall k :: 0 <= k < |pieces| && pieces[k] != "" ==> InSome(cs, pieces[k])
  }

  /**
   Paragraph `p` has reached the chunks or the buffer: a paragraph that fits is
   contained in a chunk or in the buffer, and every non-empty hard-split piece
   of a longer one is contained in a chunk.
   */
  ghost predicate Reached(cs: seq<string>, buf: string, p: string, size: nat, overlap: int)
    requires size >= 1
  {
    if |p| <= size then InSome(cs, p) || Contains(buf, p)
    else PiecesIn(cs, HardSplit(p, size, overlap))
  }

  /** The invariant of the paragraph loop: every paragraph read has reached the state. */
  ghost predicate AllReached(st: PackState, paras: seq<string>, size: nat, overlap: int)
    requires size >= 1
  {
    forall j :: 0 <= j < |paras| ==> Reached(st.chunks, st.buf, paras[j], size, overlap)
  }

  /** Emitting more chunks keeps every paragraph reached. */
  lemma ReachedGrow(cs: seq<string>, ds: seq<string>, p: string, size: nat, overlap: int)
    requires size >= 1 && Reached(cs, "", p, size, overlap) && |p| > 0
    ensures Reached(cs + ds, "", p, size, overlap)
  {
    if |p| <= size {
      if Contains("", p) {
        ContainsLength("", p);
      }
      var k :| 0 <= k < |cs| && Contains(cs[k], p);
      assert (cs + ds)[k] == cs[k];
    } else {
      var pieces := HardSplit(p, size, overlap);
      forall i | 0 <= i < |pieces| && pieces[i] != ""
        ensures InSome(cs + ds, pieces[i])
      {
        var k :| 0 <= k < |cs| && Contains(cs[k], pieces[i]);
        assert (cs + ds)[k] == cs[k];
      }
    }
  }

  /** The hard-split pieces just emitted are contained in the chunks. */
  lemma PiecesEmitted(cs: seq<string>, pieces: seq<string>)
    ensures PiecesIn(cs + pieces, pieces)
  {
    forall i | 0 <= i < |pieces| && pieces[i] != ""
      ensures InSome(cs + pieces, pieces[i])
    {
      ContainsSelf(pieces[i]);
      assert (cs + pieces)[|cs| + i] == pieces[i];
    }
  }

  /** `flush_buf` moves what the buffer holds into the chunks. */
  lemma FlushReached(st: PackState, paras: seq<string>, size: nat, overlap: int)
    requires size >= 1 && PackInvariant(st, size) && NoEdgeSpace(st.buf)
    requires AllStripped(paras) && AllReached(st, paras, size, overlap)
    ensures AllReached(PackState(Flush(st, size).chunks, ""), paras, size, overlap)
  {
    var f := Flush(st, size);
    StripStripped(st.buf);
    forall j | 0 <= j < |paras|
      ensures Reached(f.chunks, "", paras[j], size, overlap)
    {
      var q := paras[j];
      if |q| <= size && !InSome(st.chunks, q) {
        assert Contains(st.buf, q);
        ContainsLength(st.buf, q);
        assert f.chunks == st.chunks + [st.buf];
        assert f.chunks[|st.chunks|] == st.buf;
      } else if |q| <= size {
        var k :| 0 <= k < |st.chunks| && Contains(st.chunks[k], q);
        assert f.chunks[k] == st.chunks[k];
      } else {
        ReachedGrow(st.chunks, f.chunks[|st.chunks|..], q, size, overlap);
        assert f.chunks == st.chunks + f.chunks[|st.chunks|..];
      }
    }
  }

  /** A buffer of stripped paragraphs joined by a blank line is itself stripped. */
  lemma JoinedBufStripped(buf: string, p: string)
    requires |buf| > 0 && NoEdgeSpace(buf) && |p| > 0 && NoEdgeSpace(p)
    ensures Strip(buf + "\n\n" + p) == buf + "\n\n" + p
  {
    var joined := buf + "\n\n" + p;
    assert joined[0] == buf[0] && joined[|joined| - 1] == p[|p| - 1];
    StripStripped(joined);
  }

  /** The branch that joins the paragraph to the buffer. */
  lemma JoinBranchReached(st: PackState, init: seq<string>, p: string, size: nat, overlap: int)
    requires size >= 1 && PackInvariant(st, size) && NoEdgeSpace(st.buf)
    requires AllStripped(init + [p]) && AllReached(st, init, size, overlap)
    requires |st.buf| + |p| + 2 <= size
    ensures AllReached(PackStep(st, p, size, overlap), init + [p], size, overlap)
    ensures NoEdgeSpace(PackStep(st, p, size, overlap).buf)
  {
    var paras := init + [p];
    assert paras[|init|] == p;
    var r := PackStep(st, p, size, overlap);
    assert r.chunks == st.chunks;
    if st.buf != "" {
      JoinedBufStripped(st.buf, p);
      assert r.buf == st.buf + "\n\n" + p;
      ConcatAssoc(st.buf, "\n\n", p);
    }
    forall j | 0 <= j < |paras|
      ensures Reached(r.chunks, r.buf, paras[j], size, overlap)
    {
      var q := paras[j];
      if j == |init| {
        ContainsSelf(p);
        if st.buf != "" {
          ContainsConcat(st.buf + "\n\n", p, p);
        }
      } else {
        assert q == init[j];
        if |q| <= size && Contains(st.buf, q) {
          if st.buf == "" {
            ContainsLength(st.buf, q);
          }
          ContainsConcat(st.buf, "\n\n" + p, q);
        }
      }
    }
  }

  /** The branch that flushes and starts a new buffer with the paragraph. */
  lemma FitBranchReached(st: PackState, init: seq<string>, p: string, size: nat, overlap: int)
    requires size >= 1 && PackInvariant(st, size) && NoEdgeSpace(st.buf)
    requires AllStripped(init + [p]) && AllReached(st, init, size, overlap)
    requires |st.buf| + |p| + 2 > size && |p| <= size
    ensures AllReached(PackStep(st, p, size, overlap), init + [p], size, overlap)
    ensures NoEdgeSpace(PackStep(st, p, size, overlap).buf)
  {
    var paras := init + [p];
    assert AllStripped(init) by { assert forall j :: 0 <= j < |init| ==> init[j] == paras[j]; }
    FlushReached(st, init, size, overlap);
    var f := Flush(st, size);
    var r := PackStep(st, p, size, overlap);
    assert r == PackState(f.chunks, p);
    assert paras[|init|] == p;
    forall j | 0 <= j < |paras|
      ensures Reached(r.chunks, r.buf, paras[j], size, overlap)
    {
      if j == |init| {
        ContainsSelf(p);
      } else {
        assert paras[j] == init[j];
        assert Reached(f.chunks, "", init[j], size, overlap);
        if |init[j]| <= size && Contains("", init[j]) {
          ContainsLength("", init[j]);
        }
      }
    }
  }

  /** The branch that flushes and hard-splits a paragraph longer than a chunk. */
  lemma SplitBranchReached(st: PackState, init: seq<string>, p: string, size: nat, overlap: int)
    requires size >= 1 && PackInvariant(st, size) && NoEdgeSpace(st.buf)
    requires AllStripped(init + [p]) && AllReached(st, init, size, overlap)
    requires |p| > size
    ensures AllReached(PackStep(st, p, size, overlap), init + [p], size, overlap)
    ensures NoEdgeSpace(PackStep(st, p, size, overlap).buf)
  {
    var paras := init + [p];
    assert AllStripped(init) by { assert forall j :: 0 <= j < |init| ==> init[j] == paras[j]; }
    FlushReached(st, init, size, overlap);
    var f := Flush(st, size);
    var pieces := HardSplit(p, size, overlap);
    var r := PackStep(st, p, size, overlap);
    assert r == PackState(f.chunks + pieces, "");
    forall j | 0 <= j < |paras|
      ensures Reached(r.chunks, r.buf, paras[j], size, overlap)
    {
      if j == |init| {
        PiecesEmitted(f.chunks, pieces);
      } else {
        assert paras[j] == init[j];
        ReachedGrow(f.chunks, pieces, init[j], size, overlap);
      }
    }
  }

  /** One iteration of the paragraph loop keeps every paragraph read reached. */
  lemma StepReached(st: PackState, init: seq<string>, p: string, size: nat, overlap: int)
    requires size >= 1 && PackInvariant(st, size) && NoEdgeSpace(st.buf)
    requires AllStripped(init + [p]) && AllReached(st, init, size, overlap)
    ensures AllReached(PackStep(st, p, size, overlap), init + [p], size, overlap)
    ensures NoEdgeSpace(PackStep(st, p, size, overlap).buf)
  {
    if |st.buf| + |p| + 2 <= size {
      JoinBranchReached(st, init, p, size, overlap);
    } else if |p| <= size {
      FitBranchReached(st, init, p, size, overlap);
    } else {
      SplitBranchReached(st, init, p, size, overlap);
    }
  }

  /** The paragraph loop: every paragraph has reached the chunks or the buffer. */
  lemma {:induction false} PackReached(paras: seq<string>, size: nat, overlap: int)
    requires size >= 1 && AllStripped(paras)
    ensures AllReached(Pack(paras, size, overlap), paras, size, overlap)
    ensures NoEdgeSpace(Pack(paras, size, overlap).buf)
    decreases |paras|
  {
    if |paras| > 0 {
      var init := paras[..|paras| - 1];
      assert paras == init + [paras[|paras| - 1]];
      assert AllStripped(init) by { assert forall j :: 0 <= j < |init| ==> init[j] == paras[j]; }
      PackReached(init, size, overlap);
      StepReached(Pack(init, size, overlap), init, paras[|paras| - 1], size, overlap);
    }
  }

  /** Before the overlap pass, every paragraph has reached the chunks. */
  lemma PreOverlapReached(cleaned: string, size: nat, overlap: int)
    requires size >= 1
    ensures var paras := Paragraphs(cleaned);
      forall j :: 0 <= j < |paras| ==>
        Reached(PreOverlapChunks(cleaned, size, overlap), "", paras[j], size, overlap)
  {
    var paras := Paragraphs(cleaned);
    PackReached(paras, size, overlap);
    FlushReached(Pack(paras, size, overlap), paras, size, overlap);
  }

  /** Every non-empty chunk of the overlap pass's input is contained in its output chunk. */
  lemma OverlapPassContains(cs: seq<string>, overlap: int, i: nat)
    requires i < |cs| && cs[i] != "" && NoEdgeSpace(cs[i])
    ensures Contains(OverlapPass(cs, overlap)[i], cs[i])
  {
    var out := OverlapPass(cs, overlap);
    if overlap <= 0 || i == 0 {
      ContainsSelf(cs[i]);
    } else {
      var ov: nat := overlap;
      assert OverlapJoined(out, cs, i, ov);
      SuffixContained(cs[i], out[i]);
    }
  }

  /** A suffix is contained in the string. */
  lemma SuffixContained(a: string, b: string)
    requires IsSuffix(a, b)
    ensures Contains(b, a)
  {
    ContainsAt(b, a, |b| - |a|);
  }

  /** What is contained in a stripped chunk before the overlap pass is contained in one after it. */
  lemma InSomeAfterOverlap(cs: seq<string>, overlap: int, t: string)
    requires forall i :: 0 <= i < |cs| ==> NoEdgeSpace(cs[i])
    requires InSome(cs, t) && t != ""
    ensures InSome(OverlapPass(cs, overlap), t)
  {
    var out := OverlapPass(cs, overlap);
    var k :| 0 <= k < |cs| && Contains(cs[k], t);
    ContainsLength(cs[k], t);
    OverlapPassContains(cs, overlap, k);
    ContainsTrans(out[k], cs[k], t);
  }

  /** Dropping the empty chunks keeps every non-empty piece contained. */
  lemma InSomeAfterFilter(cs: seq<string>, t: string)
    requires InSome(cs, t) && t != ""
    ensures InSome(Filter(cs, NonEmpty), t)
  {
    var r := Filter(cs, NonEmpty);
    var k :| 0 <= k < |cs| && Contains(cs[k], t);
    ContainsLength(cs[k], t);
    assert cs[k] in r;
    var m :| 0 <= m < |r| && r[m] == cs[k];
  }

  /** A paragraph reached before the overlap pass is reached in the final chunks. */
  lemma ReachedToEnd(cs: seq<string>, p: string, size: nat, overlap: int)
    requires size >= 1 && |p| > 0
    requires forall i :: 0 <= i < |cs| ==> NoEdgeSpace(cs[i])
    requires Reached(cs, "", p, size, overlap)
    ensures Reached(Filter(OverlapPass(cs, overlap), NonEmpty), "", p, size, overlap)
  {
    var out := OverlapPass(cs, overlap);
    if |p| <= size {
      if Contains("", p) {
        ContainsLength("", p);
      }
      InSomeAfterOverlap(cs, overlap, p);
      InSomeAfterFilter(out, p);
    } else {
      var pieces := HardSplit(p, size, overlap);
      forall k | 0 <= k < |pieces| && pieces[k] != ""
        ensures InSome(Filter(out, NonEmpty), pieces[k])
      {
        InSomeAfterOverlap(cs, overlap, pieces[k]);
        InSomeAfterFilter(out, pieces[k]);
      }
    }
  }

  /**
   Every paragraph of the cleaned text reaches the output of
   `split_into_chunks`: a paragraph of at most `chunk_size` characters is
   contained in some chunk, and every non-empty hard-split piece of a longer
   one is contained in some chunk.
   */
  lemma SplitIntoChunksKeepsParagraphs(text: string, chunkSize: nat, overlap: int)
    requires chunkSize >= 1
    ensures var r := SplitIntoChunks(text, chunkSize, overlap);
      var ps := Paragraphs(CleanText(text));
      && (forall j :: 0 <= j < |ps| && |ps[j]| <= chunkSize ==> InSome(r, ps[j]))
      && (forall j :: 0 <= j < |ps| && |ps[j]| > chunkSize ==> PiecesIn(r, HardSplit(ps[j], chunkSize, overlap)))
  {
    var t := CleanText(text);
    var ps := Paragraphs(t);
    if t == "" {
      NonBlankCons("", []);
      assert SplitOn("", "\n\n") == [""] by { SplitOnAbsent("", "\n\n"); }
      assert [""] == [""] + [];
    } else {
      var cs := PreOverlapChunks(t, chunkSize, overlap);
      PreOverlapReached(t, chunkSize, overlap);
      forall j | 0 <= j < |ps|
        ensures Reached(SplitIntoChunks(text, chunkSize, overlap), "", ps[j], chunkSize, overlap)
      {
        ReachedToEnd(cs, ps[j], chunkSize, overlap);
      }
      forall j | 0 <= j < |ps| && |ps[j]| <= chunkSize
        ensures InSome(SplitIntoChunks(text, chunkSize, overlap), ps[j])
      {
        assert Reached(SplitIntoChunks(text, chunkSize, overlap), "", ps[j], chunkSize, overlap);
        if Contains("", ps[j]) {
          ContainsLength("", ps[j]);
        }
      }
    }
  }

  /** A non-empty stripped text has at least one paragraph: its first piece is not blank. */
  lemma ParagraphsNonEmpty(t: string)
    requires t != "" && NoEdgeSpace(t)
    ensures |Paragraphs(t)| > 0
  {
    var pieces := SplitOn(t, "\n\n");
    JoinSplitOn(t, "\n\n");
    var a, rest := pieces[0], pieces[1..];
    assert pieces == [a] + rest;
    if |rest| > 0 {
      JoinCons("\n\n", a, rest);
      assert t[0] == a[0];
    }
    assert !IsSpace(a[0]);
    assert Strip(a) != "";
    NonBlankCons(a, rest);
  }

  /** The first hard-split piece of a stripped paragraph is not empty. */
  lemma FirstPieceNonEmpty(p: string, size: nat, overlap: int)
    requires size >= 1 && p != "" && NoEdgeSpace(p)
    ensures |HardSplit(p, size, overlap)| > 0 && HardSplit(p, size, overlap)[0] != ""
  {
    var ws := HardSplitWindows(|p|, 0, size, overlap);
    var w := ws[0];
    assert WindowFits(w, |p|, size) && w.start == 0;
    var slice := p[w.start..w.end];
    assert slice[0] == p[0] && !IsSpace(slice[0]);
    assert HardSplit(p, size, overlap)[0] == Strip(slice);
  }

  /** `split_into_chunks` returns at least one chunk for every text that is not blank after cleaning. */
  lemma SplitIntoChunksNonEmpty(text: string, chunkSize: nat, overlap: int)
    requires chunkSize >= 1
    ensures CleanText(text) != "" ==> |SplitIntoChunks(text, chunkSize, overlap)| > 0
  {
    var t := CleanText(text);
    if t != "" {
      var r := SplitIntoChunks(text, chunkSize, overlap);
      ParagraphsNonEmpty(t);
      var p := Paragraphs(t)[0];
      SplitIntoChunksKeepsParagraphs(text, chunkSize, overlap);
      if |p| <= chunkSize {
        assert InSome(r, p);
      } else {
        FirstPieceNonEmpty(p, chunkSize, overlap);
        assert InSome(r, HardSplit(p, chunkSize, overlap)[0]);
      }
    }
  }
}

=== FILE: wrappers.dfy ===
/** The optional value the Python code expresses with `None`. */
module Wrappers {

  datatype Option<+T> = None | Some(value: T) {

    /** Python's `x or default` for a value that is never falsy when present. */
    function GetOr(default: T): T {
      match this
      case Some(v) => v
      case None => default
    }
  }
}
